=== FILE: README.md ===
# QuizAI quiz pipeline in Dafny

This project models the core of QuizAI, a web application that turns a
student's course materials (PDF, TXT and DOCX files) into ten-question
multiple-choice quizzes and grades attempts at them. It covers the backend
pipeline, which:

- extracts and normalises text from an uploaded file (`FileParser`);
- records the text and its word count (`ExtractedTextService`, plus the
  one-off copy script `MigrateExtractedTexts`);
- collects the selected materials' texts for a generation request
  (`GenerateRoute`);
- estimates tokens and chunks the material (`Chunker`);
- builds the prompt and validates the model's reply (`AiGenerator`);
- checks quizzes before storing them (`QuizStorage`);
- grades a submission (`SubmitRoute`);
- validates the `course_id` filter and serves the update and delete
  handlers of the course-materials routes (`CourseMaterialsRoute`).

It also covers the client-side logic that feeds that pipeline:

- the upload form's checks (`FileUpload`);
- the quiz-creation dialog (`CreateQuizDialog`);
- the hand-written quiz format and list updates of the quizzes panel
  (`QuizzesPanel`);
- the quiz-taking page as a state machine (`QuizTaking`).

`Base`, `Strings` and `Json` hold what every module shares: the
`Option`/`Result` wrappers, counting and filtering, and JavaScript's string
primitives (`trim`, `split`, `join`, `lastIndexOf`, `parseInt`,
`toLowerCase`). They also hold decoded JSON values with property reads,
truthiness and `===`.

The database, file storage, the chat-completion service and the three
document readers cannot be seen from the code modelled here. They appear as
function parameters (oracles). For example, `read` stands for the
PDF/TXT/DOCX readers, `parse` for `JSON.parse`, `process` for the
per-material lookups and downloads, and `insert` for a batch insert. A
contract about them therefore holds for every behaviour those services
could have.

Three facts about the code shape the model:

- When saving a generated quiz fails, the generation route answers 500
  with "Failed to save quiz" and the store's message, and without the
  questions (backend/routes/generate.js:171-178).
- The extraction methods recorded are `pdf-parse`, `fs.readFile` and
  `mammoth` (backend/services/fileParser.js:20-38).
- `normalizeText` never keeps a paragraph break. Its first replacement
  turns every newline into a space, so the paragraph rule that follows can
  never fire (backend/services/fileParser.js:123-125,
  `FileParser.ParagraphRuleNeverFires`).

The chunker and the generator take their `Rules` as a parameter: the rule
that closes a chunk (`CloseWhenNonEmpty` as written, `CloseWhenNonBlank`
corrected) and what the sentence path weighs against the budget
(`WeighSentence` as written, `WeighSentenceAndStop` corrected).
`Chunker.AsWritten` is the code as written and `Chunker.Corrected` holds
both corrections described under "## Findings". The generation route's
contracts hold for all four combinations, and
`Chunker.AsWrittenDiffersByEmptyChunks` states exactly how far the two
close rules' chunks differ.

## Model

| member | source | states |
|---|---|---|
| Strings.Trim | backend/services/fileParser.js:127 | the result has no white space at either end, is no longer than the input, and is empty exactly when the input is all white space |
| Strings.TrimPadding | backend/services/fileParser.js:127 | `trim` only removes a white-space prefix and a white-space suffix: the input is lead + trimmed + tail |
| Strings.TrimIdempotent | backend/services/aiGenerator.js:79 | trimming twice is trimming once |
| Strings.JoinSplitOn | frontend/src/components/QuizzesPanel.jsx:87-89 | joining the pieces of `split(c)` with `c` gives back the input |
| Strings.SplitOnJoin | frontend/src/components/QuizzesPanel.jsx:87-89 | splitting a join of separator-free pieces recovers exactly those pieces |
| Strings.ParseIntNatToString | backend/routes/generate.js:167-168 | `parseInt` reads back the decimal rendering of every natural number |
| Strings.ParseIntIntToString | frontend/src/components/QuizzesPanel.jsx:99 | `parseInt` reads back the rendering of every integer, negative ones included |
| Strings.ParseIntStopsAtComma | backend/services/aiGenerator.js:131-134 | `parseInt` stops at a comma: whatever follows the first comma does not change what it reads |
| Strings.VisibleTrim | backend/services/aiGenerator.js:64-65 | `trim` removes white space only: the visible characters of the trimmed text are those of the text |
| Strings.LastIndexOf | frontend/src/components/FileUpload.jsx:36-38 | the index found holds the character, no later position does, and there is none exactly when the character is absent |
| Base.Filter | frontend/src/components/QuizzesPanel.jsx:147 | the result holds exactly the elements passing the test, as many as the test counts |
| Json.StringToNumberOfNat | backend/routes/submit.js:70 | a decimal numeral string coerces to the number it denotes |
| Json.StringToNumberOfExponent | backend/routes/submit.js:70 | digits, `e` and digits coerce to the digits' value times that power of ten |
| Json.ExponentNumeral | backend/routes/submit.js:70 | `"1e1"` coerces to 10 |
| Json.SignedInfinity | backend/routes/submit.js:70 | `"Infinity"`, `"+Infinity"` and `"-Infinity"` coerce to the infinities of their sign |
| Json.NonDecimalNumerals | backend/routes/submit.js:70 | `"0b111"` coerces to 7 and `"0o17"` to 15; a sign before a base prefix gives NaN |
| Json.ParsedAsInt | backend/services/aiGenerator.js:131-134 | `parseInt` of a string reads the string; of an array, its first element (NaN when empty); of `null`, a boolean or an object, NaN |
| Json.IntegerParsedAsItself | backend/services/aiGenerator.js:131-134 | an integer-valued number below 1e21 in magnitude reads back as itself |
| FileParser.NormalizeText | backend/services/fileParser.js:118-128 | the result is trimmed, has only single spaces as white space and contains no newline |
| FileParser.ParagraphRuleNeverFires | backend/services/fileParser.js:123-125 | after the white-space collapse the paragraph-break replacement leaves the text unchanged |
| FileParser.NormalizeIdempotent | backend/services/fileParser.js:118-128 | normalising normalised text changes nothing |
| FileParser.NormalizeKeepsVisible | backend/services/fileParser.js:118-128 | normalisation keeps every visible character, in order, and removes none |
| FileParser.ReplaceKeepsVisible | backend/services/fileParser.js:125 | the paragraph-break replacement keeps the visible characters of the text |
| FileParser.CollapseKeepsVisible | backend/services/fileParser.js:123 | collapsing white-space runs keeps the visible characters |
| FileParser.CollapseOfCollapsed | backend/services/fileParser.js:123 | collapsing already-collapsed text changes nothing |
| FileParser.Extname | backend/services/fileParser.js:29 | the extension is empty or a dot followed by a dot-free, slash-free suffix |
| FileParser.ExtnameOfFileName | backend/services/fileParser.js:29 | the file `dir/base.ext` has extension `.ext`, whatever the directory |
| FileParser.SelectFormat | backend/services/fileParser.js:18-45 | an exactly matching MIME type chooses the reader; otherwise the lower-cased extension does |
| FileParser.ExtractText | backend/services/fileParser.js:12-68 | unsupported exactly when no reader is chosen; a reader failure gives the reader's prefixed message; no text exactly when the normalised text is empty; on success the text is non-empty and normalised, tagged with the reader's method |
| FileParser.UnsupportedIgnoresReader | backend/services/fileParser.js:39-45 | a file of unsupported type is refused without any reader running |
| FileParser.MimeTakesPrecedence | backend/services/fileParser.js:18-27 | a recognised MIME type decides the result whatever the path |
| FileParser.ExtensionDecides | backend/services/fileParser.js:28-38 | without a recognised MIME type the lower-cased extension of the file name decides |
| FileParser.UpperCaseExtensionRecognised | backend/services/fileParser.js:29-32 | `notes.PDF` sent as `application/octet-stream` is read as a PDF |
| FileParser.ExtractedTextIsNormal | backend/services/fileParser.js:49-59 | extracted text is a fixed point of normalisation |
| ExtractedTextService.WordCountIsWordStarts | backend/services/extractedTextService.js:41-49 | the word count (split on white-space runs of the trimmed text, empty pieces dropped) equals the number of maximal runs of visible characters |
| ExtractedTextService.SplitCountsWords | backend/services/extractedTextService.js:46-48 | the non-empty pieces of a white-space split are as many as the word starts |
| ExtractedTextService.TrimKeepsWordStarts | backend/services/extractedTextService.js:46 | trimming never changes the number of words |
| ExtractedTextService.NoWordsIffBlank | backend/services/extractedTextService.js:41-49 | the count is zero exactly when the text is all white space |
| ExtractedTextService.CreateExtractedText | backend/services/extractedTextService.js:62-83 | refused with the fields message exactly when a field is empty; the row carries the inputs, the text length and a word count no larger than that length, zero exactly for blank text |
| ExtractedTextService.UpdateExtractedText | backend/services/extractedTextService.js:154-170 | refused exactly when a field is empty; writes the text, its length and its word count |
| ExtractedTextService.UpdateMatchesCreate | backend/services/extractedTextService.js:154-170 | an update writes the same metadata a creation of the same text would |
| MigrateExtractedTexts.ToMigrate | backend/scripts/migrateExtractedTexts.js:69-76 | exactly the materials with non-empty text whose id has not been copied yet |
| MigrateExtractedTexts.Records | backend/scripts/migrateExtractedTexts.js:86-95 | one record per material, in order, carrying its id and text |
| MigrateExtractedTexts.Record | backend/scripts/migrateExtractedTexts.js:86-95 | a record copies the owner, text and timestamps, tags the migration method and stores the text's length and word count |
| MigrateExtractedTexts.Batches | backend/scripts/migrateExtractedTexts.js:98-103 | every batch is non-empty and at most the batch size; there are none exactly when there are no records |
| MigrateExtractedTexts.BatchesPartition | backend/scripts/migrateExtractedTexts.js:98-103 | the batches cover the records exactly once, in order |
| MigrateExtractedTexts.BatchesFull | backend/scripts/migrateExtractedTexts.js:98-103 | every batch but the last is full |
| MigrateExtractedTexts.BatchTally | backend/scripts/migrateExtractedTexts.js:110-117 | a failed insert counts its batch as errors, a successful one counts the rows it reports |
| MigrateExtractedTexts.RunBatches | backend/scripts/migrateExtractedTexts.js:98-117 | the loop stepping through the records by the batch size computes the tally of the batches, first to last |
| MigrateExtractedTexts.TallyAccounts | backend/scripts/migrateExtractedTexts.js:110-117 | migrated plus errors never exceeds the records when inserts report no more rows than given, and equals them when every insert reports all of them |
| MigrateExtractedTexts.AllInsertsFail | backend/scripts/migrateExtractedTexts.js:110-113 | if every insert fails, every record counts as an error |
| MigrateExtractedTexts.Migrate | backend/scripts/migrateExtractedTexts.js:41-117 | a failed read aborts; nothing to migrate exactly when no material has text; a finished run's counts are those of the batches of the selected records |
| MigrateExtractedTexts.ReliableInsertMigratesAll | backend/scripts/migrateExtractedTexts.js:98-117 | with inserts that store every batch, every selected material is counted migrated and none as an error |
| MigrateExtractedTexts.RerunMigratesNothing | backend/scripts/migrateExtractedTexts.js:60-81 | a second run, after the copied ids are added to the existing ones, selects nothing |
| Chunker.EstimateTokenCount | backend/services/aiGenerator.js:14-17 | the estimate is the length divided by four, rounded up, and zero only for the empty text |
| Chunker.EstimateSubadditive | backend/services/aiGenerator.js:14-17 | estimating two pieces separately never under-counts their concatenation |
| Chunker.ChunkTextAsWritten | backend/services/aiGenerator.js:25-69 | at least one chunk; the whole text when within budget; otherwise every chunk is trimmed (possibly empty) |
| Chunker.ChunkText | backend/services/aiGenerator.js:25-69 | the corrected chunker (a chunk closed only when its trimmed form is non-empty, each sentence weighed with its full stop): at least one chunk, the whole text when within budget, otherwise every chunk is trimmed and non-empty |
| Chunker.ChunkWith | backend/services/aiGenerator.js:25-69 | under any rules: at least one chunk, the whole text when within budget, otherwise trimmed chunks, non-empty under the corrected close rule |
| Chunker.AsWrittenDiffersByEmptyChunks | backend/services/aiGenerator.js:45-68 | whatever the sentence test, the chunks closed as written, with the empty ones dropped, are the chunks closed correctly, unless all of them are empty and the corrected chunker falls back to the whole text; with no empty chunk the two agree |
| Chunker.ChunksWithinBudget | backend/services/aiGenerator.js:25-68 | for text with visible characters, every chunk is within the budget when each paragraph fits it, or, with each sentence weighed with its full stop, when each sentence of an over-budget paragraph fits it with that stop; under either close rule |
| Chunker.FinishWithinBudget | backend/services/aiGenerator.js:64-68 | after a started fold within the budget, the final push leaves at least one chunk and every chunk within the budget |
| Chunker.ChunksKeepContent | backend/services/aiGenerator.js:25-68 | when no paragraph alone exceeds the budget, the chunks hold exactly the visible characters of the text, in order, as written and corrected alike |
| Chunker.AddParagraphsKeepsContent | backend/services/aiGenerator.js:37-61 | adding paragraphs that fit the budget appends exactly their visible characters to those already emitted or accumulated |
| Chunker.CloseKeepsContent | backend/services/aiGenerator.js:55-58 | closing the current chunk loses no visible character, under either rule |
| Chunker.SplitKeepsVisible | backend/services/aiGenerator.js:33 | the paragraph split drops white space only: the pieces hold the visible characters of the text, in order |
| Chunker.SplitKeepsContent | backend/services/aiGenerator.js:33 | every visible character of the text ends up in some non-blank paragraph of the split |
| Chunker.LeadingBlankLineGivesEmptyChunk | backend/services/aiGenerator.js:45-60 | as written, `"\n\nabcd"` with a budget of one token gives the chunks `""` and `"abcd"` |
| Chunker.LeadingBlankLineSkipped | backend/services/aiGenerator.js:45-60 | corrected, the same input gives the single chunk `"abcd"` |
| Chunker.ThreeSentences | backend/services/aiGenerator.js:42 | three words joined by a full stop and a space split into exactly those three sentences |
| Chunker.ThreeWordsFitWithStop | backend/services/aiGenerator.js:42-44 | every sentence of such a text of words of two, four and one characters fits two tokens with its full stop |
| Chunker.SentenceStopOverflowsFor | backend/services/aiGenerator.js:40-51 | as written, at two tokens, such a text is chunked into the first two sentences together, three tokens, and the last: over the budget although every sentence fits it with its stop |
| Chunker.SentenceStopCountedFor | backend/services/aiGenerator.js:40-51 | weighing each sentence with its full stop, the same text gives one chunk per sentence |
| Chunker.SentenceStopOverflows | backend/services/aiGenerator.js:40-51 | as written, `"ab. cdef. g"` at two tokens gives `"ab. cdef."`, three tokens, and `"g."` |
| Chunker.SentenceStopCounted | backend/services/aiGenerator.js:40-51 | weighing the full stop, the same text gives `"ab."`, `"cdef."` and `"g."` |
| AiGenerator.FencedBlock | backend/services/aiGenerator.js:82-85 | a capture exists exactly when the text holds two non-overlapping code fences, and it is trimmed |
| AiGenerator.FencedArrayPayload | backend/services/aiGenerator.js:79-91 | a JSON array wrapped in a `json` code fence is handed to the parser exactly |
| AiGenerator.CutArraySpan | backend/services/aiGenerator.js:88-91 | from the first `[` to the last `]` when both exist in that order, otherwise the text unchanged |
| AiGenerator.ValidIffAllChecksPass | backend/services/aiGenerator.js:104-149 | an element is accepted exactly when it passes every field check |
| AiGenerator.FirstFailing | backend/services/aiGenerator.js:104-149 | the reported check is failed and every check the parser applies earlier is passed |
| AiGenerator.Normalize | backend/services/aiGenerator.js:151-156 | an accepted element becomes a question with four options, an index from 0 to 3 and every string trimmed |
| AiGenerator.CorrectValue | backend/services/aiGenerator.js:131-134 | a number is kept; anything else is what `parseInt` reads from its text, so an array reads as its first element |
| AiGenerator.SingletonCorrectReadsAsElement | backend/services/aiGenerator.js:131-138 | `correct: ["2"]` and `correct: [2]` read as 2 and pass the index check |
| AiGenerator.ParseQuizResponse | backend/services/aiGenerator.js:76-175 | accepted exactly when the payload decodes to an array of ten valid elements (a non-number `correct`, an array included, read by `parseInt`); then ten well-formed questions; a decode failure, a non-array and a wrong count are each reported as such |
| AiGenerator.ParsedInOrder | backend/services/aiGenerator.js:151-156 | question `k` is the `k`-th decoded element, normalised |
| AiGenerator.FirstBadElementReported | backend/services/aiGenerator.js:104-149 | a reported element is the first invalid one, by 1-based position, and it is reported by its first failing check |
| AiGenerator.EmbeddedMaterialOfPrompt | backend/services/aiGenerator.js:207-231 | the prompt is the fixed head, the material and the fixed tail, and the material reads back from it |
| AiGenerator.BuildPromptInjective | backend/services/aiGenerator.js:207-231 | different material gives different prompts |
| AiGenerator.Complete | backend/services/aiGenerator.js:255-274 | questions come back exactly when the service answered with non-empty content that parses to a quiz; then ten well-formed questions |
| AiGenerator.PromptMaterial | backend/services/aiGenerator.js:199-204 | the prompt carries the first chunk of the chunker under the given rules, which is the whole text when within budget and trimmed otherwise; only under the corrected close rule is it never blank |
| AiGenerator.PromptMaterialWithinBudget | backend/services/aiGenerator.js:199-204 | when every paragraph fits the budget, or with the full stop weighed every sentence of an over-budget paragraph does, the material is within it, under either close rule |
| AiGenerator.AsWrittenMaterialAgrees | backend/services/aiGenerator.js:199-204 | whatever the sentence test, the material closed as written is the material closed correctly whenever it is not empty |
| AiGenerator.GenerateQuiz | backend/services/aiGenerator.js:183-231 | a missing key and blank text are refused without a request; otherwise exactly one prompt, embedding the first chunk of the chunker under the given rules, is sent and its outcome returned |
| AiGenerator.AsWrittenGeneratorAgrees | backend/services/aiGenerator.js:183-231 | whatever the sentence test, the generator closing chunks as written and the corrected one return the same result unless the material as written is empty |
| AiGenerator.FirstChunkNotBlank | backend/services/aiGenerator.js:199-204 | for text with visible characters, a chunker that closes only visible chunks gives a first chunk that is not blank |
| AiGenerator.AsWrittenFirstChunkBlank | backend/services/aiGenerator.js:199-204 | the chunker as written can give visible text a blank first chunk: `"\n\nabcd"` at a budget of one token gives `""` as the first chunk |
| GenerateRoute.Validate | backend/routes/generate.js:24-47 | the request passes exactly when the key is set, the course is given and the material ids are a non-empty array; a refusal is a 400 or a 500 |
| GenerateRoute.Collect | backend/routes/generate.js:67-140 | every selected material contributes exactly one text or one warning, and at most one name |
| GenerateRoute.CollectIsPerMaterial | backend/routes/generate.js:67-140 | the loop's three arrays are the per-material contributions concatenated in input order |
| GenerateRoute.TextsConcat | backend/routes/generate.js:67-140 | processing `a` then `b` gives `a`'s texts followed by `b`'s |
| GenerateRoute.LookupFailureOnlyWarns | backend/routes/generate.js:76-78 | a failed metadata lookup adds one warning naming the id and no text or name |
| GenerateRoute.ResolvedMaterialIsNamed | backend/routes/generate.js:79-81 | a resolved material adds its display name |
| GenerateRoute.StoreFailureIgnored | backend/routes/generate.js:116-121 | whether storing a fresh extraction succeeds changes neither the text nor the warnings |
| GenerateRoute.TitleListsFew | backend/routes/generate.js:166-168 | with at most three materials the title lists them all |
| GenerateRoute.TitleDependsOnFirstThree | backend/routes/generate.js:166-168 | beyond three materials the title depends only on the first three names and their number |
| GenerateRoute.TitleCountReadsBack | backend/routes/generate.js:166-168 | the title is the head, " and ", then a count that `parseInt` reads back as the number of names left out |
| GenerateRoute.Handle | backend/routes/generate.js:21-196 | a validation failure is answered as validated; an unknown course is a 404; no text is a 400; a generation error is a 500 with its message and the warnings; text, generated questions and a working store give a created quiz, which carries the title from the names, the generated questions and the warnings |
| GenerateRoute.ValidationBeforeLookups | backend/routes/generate.js:35-47 | a refused request is answered without any lookup |
| GenerateRoute.CourseBeforeMaterials | backend/routes/generate.js:50-56 | an unknown course is a 404 answered before any material is touched |
| GenerateRoute.NoTextJoinsWarnings | backend/routes/generate.js:143-148 | when no material gave text the answer is a 400 whose message joins the warnings |
| GenerateRoute.SaveFailureHidesQuestions | backend/routes/generate.js:171-178 | a failure to save the quiz answers 500 "Failed to save quiz" with the store's message and without the questions or warnings |
| GenerateRoute.CreatedQuizWellFormed | backend/routes/generate.js:150-187 | with the generator and the store of this model, a created quiz has ten well-formed questions, each with non-empty question text and explanation |
| GenerateRoute.BlankQuestionNotSaved | backend/routes/generate.js:150-178 | with the generator and the store of this model, a generated question with empty text makes the route answer 500 "Failed to save quiz" |
| GenerateRoute.SaverRejectsBlank | backend/services/quizStorage.js:28-36 | the store refuses a generated list holding an empty question text |
| QuizStorage.CheckQuestions | backend/services/quizStorage.js:28-36 | a list is accepted exactly when every element has the stored structure |
| QuizStorage.CreateQuiz | backend/services/quizStorage.js:10-47 | accepted exactly when user, title and questions are present and the questions form a non-empty array of structured elements; the row keeps the trimmed title and the course only when given |
| QuizStorage.UpdateQuiz | backend/services/quizStorage.js:169-211 | writes a title exactly when one is sent (trimmed) and questions exactly when sent (checked as on creation); an update with neither is refused |
| QuizStorage.UpdateIgnoresOtherKeys | backend/services/quizStorage.js:179-204 | keys other than `title` and `questions` change nothing |
| QuizStorage.UpdateChecksQuestionsAsCreate | backend/services/quizStorage.js:186-202 | an update and a creation refuse the same question lists |
| QuizStorage.BuildListQuery | backend/services/quizStorage.js:128-144 | the course filter only when given and not null, newest first by default, and a range spanning the limit (10 without one) from the offset |
| QuizStorage.PagesTile | backend/services/quizStorage.js:139-144 | consecutive pages of one size tile the rows without gap or overlap |
| QuizStorage.CreateQuizAttempt | backend/services/quizStorage.js:288-324 | accepted exactly when user, quiz, score and a non-zero total are given; the row takes the quiz's course when it has one |
| QuizStorage.GeneratedQuestionStructure | backend/services/quizStorage.js:28-36 | a generated question passes the store's check exactly when its question and explanation are non-empty |
| QuizStorage.BlankGeneratedQuestionRefused | backend/services/quizStorage.js:28-36 | an element the generator accepts (question of white space only) is refused by the store |
| SubmitRoute.GradeFrom | backend/routes/submit.js:64-89 | one entry per question, in order, exactly when no answer is out of range under JavaScript's numeric coercion (exponents, infinities, base prefixes and one-element arrays included); otherwise the first rejected index |
| SubmitRoute.ScoreExtremes | backend/routes/submit.js:77-80 | every answer equal to its index scores full marks, none equal scores zero |
| SubmitRoute.MarkedIffMatches | backend/routes/submit.js:77-88 | each graded entry is marked correct exactly when its answer is the stored index |
| SubmitRoute.Handle | backend/routes/submit.js:17-124 | missing fields and non-arrays are refused before the lookup; a lookup error is a 404 for a missing quiz and a 400 carrying it otherwise; an invalid answer names its position; a submission of the right length with every answer in range is graded, its results match the answers and it carries the stored attempt's id |
| SubmitRoute.ChecksBeforeFetch | backend/routes/submit.js:21-34 | a request failing the field checks is answered without a lookup |
| SubmitRoute.LengthCheckedFirst | backend/routes/submit.js:53-58 | a length mismatch is a 400 before any answer is looked at |
| SubmitRoute.SaveFailureKeepsGrades | backend/routes/submit.js:96-118 | whether the attempt is saved changes only the attempt field of the answer |
| SubmitRoute.NonNumericAnswerAccepted | backend/routes/submit.js:70-77 | a string answer that coerces to NaN (no decimal, exponent, `Infinity` or base-prefixed numeral) passes the range check and never counts as correct |
| SubmitRoute.RejectedFinite | backend/routes/submit.js:70 | an answer coercing to a finite number is rejected exactly when it is negative or not below the option count |
| SubmitRoute.SingletonArrayChecksElement | backend/routes/submit.js:70-77 | a one-element array is rejected exactly when its element, other than a boolean, is; it never counts as correct |
| SubmitRoute.OtherArraysChecked | backend/routes/submit.js:70 | the empty array reads as 0, rejected only without options; an array of two or more elements is never rejected |
| SubmitRoute.ArrayIndexRejected | backend/routes/submit.js:70-75 | `[d]` is rejected for every negative `d` and every `d` at or beyond the option count |
| SubmitRoute.StringArrayRejected | backend/routes/submit.js:70-75 | `["9"]` is rejected for any question with at most nine options |
| SubmitRoute.GradedAttemptStored | backend/routes/submit.js:96-104 | passed what the route graded, the attempt store of backend/services/quizStorage.js:288-295 accepts it, with the route's score, total and answers, exactly when the quiz has at least one question |
| SubmitRoute.ExponentTenRejected | backend/routes/submit.js:70-75 | the answer `"1e1"` is rejected for any question with at most ten options |
| SubmitRoute.BinaryAnswerRejected | backend/routes/submit.js:70-75 | the answer `"0b111"` is rejected for any question with at most seven options |
| SubmitRoute.InfinityAnswerRejected | backend/routes/submit.js:70-75 | `"Infinity"` and its signed forms are rejected whatever the options |
| QuizTaking.Load | frontend/src/pages/QuizTaking.jsx:53-59 | a loaded quiz starts on the first question with every answer open |
| QuizTaking.SelectAnswer | frontend/src/pages/QuizTaking.jsx:68-79 | the first answer to a question is recorded and locked; a later one changes nothing |
| QuizTaking.AutoAdvance | frontend/src/pages/QuizTaking.jsx:82-87 | the step after an answer moves to the next question unless it was the last |
| QuizTaking.NavigationKeepsAnswers | frontend/src/pages/QuizTaking.jsx:115-125 | moving between questions changes nothing but the index |
| QuizTaking.CalculateScore | frontend/src/pages/QuizTaking.jsx:131-145 | zero before any answer; afterwards the count of questions whose answer equals the stored index, out of all questions |
| QuizTaking.AllAnsweredIffComplete | frontend/src/pages/QuizTaking.jsx:206 | all questions count as answered exactly when each has an answer |
| QuizTaking.SubmittedAnswersComplete | frontend/src/pages/QuizTaking.jsx:90-113 | when the submit button is offered, every answer sent is a number |
| QuizTaking.Retake | frontend/src/pages/QuizTaking.jsx:151-164 | retaking is reloading the same questions |
| QuizTaking.PageScoreMatchesRoute | frontend/src/pages/QuizTaking.jsx:131-145 | the page's own score agrees with the grading route's score for the answers it sends |
| QuizTaking.OptionIndicesAccepted | frontend/src/pages/QuizTaking.jsx:90-113 | answers chosen from the option buttons pass the grading route's range check |
| QuizzesPanel.ParseParts | frontend/src/components/QuizzesPanel.jsx:90-101 | a line yields a question exactly when it has at least seven parts; the parts are read trimmed, by position |
| QuizzesPanel.ParseFormatLine | frontend/src/components/QuizzesPanel.jsx:87-101 | reading back a written line gives the question |
| QuizzesPanel.ExtraPartsIgnored | frontend/src/components/QuizzesPanel.jsx:90-101 | parts after the seventh do not change the question |
| QuizzesPanel.CorrectDefaultsToZero | frontend/src/components/QuizzesPanel.jsx:99 | a non-number in the correct-answer position reads as 0 |
| QuizzesPanel.ParseQuestions | frontend/src/components/QuizzesPanel.jsx:85-114 | the accepted lines' questions in order, or the placeholder when no line is accepted |
| QuizzesPanel.CreateQuiz | frontend/src/components/QuizzesPanel.jsx:73-119 | refused exactly when the title is blank; the request carries the trimmed title and the parsed questions |
| QuizzesPanel.AddCreated | frontend/src/components/QuizzesPanel.jsx:121 | the created quiz is put first and the rest keep their order |
| QuizzesPanel.RemoveDeleted | frontend/src/components/QuizzesPanel.jsx:147 | exactly the entries with other ids remain, one fewer for each entry with that id |
| QuizzesPanel.DeleteUndoesCreate | frontend/src/components/QuizzesPanel.jsx:121-147 | deleting a just-created quiz with a fresh id restores the list |
| FileUpload.ClientExtension | frontend/src/components/FileUpload.jsx:36-38 | the extension starts at the last dot and holds no other dot; without a dot it is the whole name, lowered |
| FileUpload.ExtensionIsLastSuffix | frontend/src/components/FileUpload.jsx:36-38 | whatever precedes the last dot, the extension is the lowered suffix |
| FileUpload.Check | frontend/src/components/FileUpload.jsx:25-62 | accepted exactly when the type is allowed and the size is at most 10 MiB; the type is checked before the size |
| FileUpload.SizeLimitInclusive | frontend/src/components/FileUpload.jsx:52-57 | exactly 10 MiB passes, one byte more fails |
| FileUpload.ExtensionInAnyCaseAllowed | frontend/src/components/FileUpload.jsx:30-49 | an allowed extension in any letter case passes the type check |
| FileUpload.SelectedFilePassed | frontend/src/components/FileUpload.jsx:40-61 | after a choice the form holds a file exactly when it passed both checks |
| FileUpload.StartUpload | frontend/src/components/FileUpload.jsx:64-71 | with no file nothing is sent; otherwise the chosen file is |
| CourseMaterialsRoute.GroupsBySplit | backend/routes/courseMaterials.js:32-41 | the UUID pattern holds exactly when splitting on `-` gives hexadecimal groups of the required lengths |
| CourseMaterialsRoute.UuidIgnoresCase | backend/routes/courseMaterials.js:32-41 | the pattern ignores letter case |
| CourseMaterialsRoute.UuidLength | backend/routes/courseMaterials.js:32-41 | every accepted id is 36 characters long |
| CourseMaterialsRoute.FilterOf | backend/routes/courseMaterials.js:26-41 | an absent, null or empty value means no filter; a filter exactly for a string matching the pattern |
| CourseMaterialsRoute.OptionsOf | backend/routes/courseMaterials.js:43-49 | the ordering defaults to newest first; `limit` and `offset` are parsed with `parseInt` when given and left unset otherwise |
| CourseMaterialsRoute.HandleList | backend/routes/courseMaterials.js:20-85 | a 400 exactly for a malformed course id; otherwise a successful fetch is listed, each material with its signed link or null, and a fetch error is a 400 carrying it |
| CourseMaterialsRoute.BlankCourseIdIsAbsent | backend/routes/courseMaterials.js:26-29 | an empty or null course id lists as if absent |
| CourseMaterialsRoute.BadCourseIdBeforeFetch | backend/routes/courseMaterials.js:32-41 | a malformed course id is refused before the service is asked |
| CourseMaterialsRoute.UpperCaseCourseIdAccepted | backend/routes/courseMaterials.js:32-41 | an upper-case UUID is not refused |
| CourseMaterialsRoute.UpdatesOf | backend/routes/courseMaterials.js:203-206 | exactly the fields sent appear, under their column names, with their values |
| CourseMaterialsRoute.HandleUpdate | backend/routes/courseMaterials.js:196-226 | a 400 exactly when no name is truthy and no text is sent; otherwise the service's row is answered as updated, a missing material is a 404 and another service error a 400 carrying it |
| CourseMaterialsRoute.UpdatesOfRoundTrip | backend/routes/courseMaterials.js:203-206 | the sent body can be read back from the `updates` object, so the service sees exactly the fields the client sent |
| CourseMaterialsRoute.BlankNameSentWithText | backend/routes/courseMaterials.js:196-206 | a null or empty name is still written when text is sent |
| CourseMaterialsRoute.HandleDelete | backend/routes/courseMaterials.js:247-289 | deleted exactly when the lookup succeeds and the database delete reports no error |
| CourseMaterialsRoute.StorageFailureIgnored | backend/routes/courseMaterials.js:262-269 | a failed removal of the stored file does not change the answer |
| CreateQuizDialog.Loaded | frontend/src/components/CreateQuizDialog.jsx:37-49 | a failed load shows the load error; a reply replaces the listing (empty without materials) and clears the error |
| CreateQuizDialog.OpenChanged | frontend/src/components/CreateQuizDialog.jsx:27-35 | opening keeps the selection; closing clears it; both clear the error |
| CreateQuizDialog.Toggle | frontend/src/components/CreateQuizDialog.jsx:52-60 | the clicked id's membership flips, every other id's is unchanged, and a selection without repeats keeps none |
| CreateQuizDialog.ToggleTwice | frontend/src/components/CreateQuizDialog.jsx:52-60 | picking an id and clicking it again restores the selection |
| CreateQuizDialog.SelectAllClearsExactlyFull | frontend/src/components/CreateQuizDialog.jsx:62-68 | for distinct listed ids, "select all" clears exactly when every material is picked |
| CreateQuizDialog.SelectAllCountsDuplicates | frontend/src/components/CreateQuizDialog.jsx:62-68 | with repeated ids, equal lengths clear a selection that misses a material |
| CreateQuizDialog.GenerateRequest | frontend/src/components/CreateQuizDialog.jsx:71-83 | refused exactly when nothing is picked; the request carries the course and the ids in the order picked |
| CreateQuizDialog.RequestPassesValidation | frontend/src/components/CreateQuizDialog.jsx:80-83 | every request the dialog sends passes the generation route's field checks |
| CreateQuizDialog.OnReply | frontend/src/components/CreateQuizDialog.jsx:85-90 | the quiz is handed on exactly when `success` and `quiz` are truthy; otherwise the message or the fallback is shown |
| CreateQuizDialog.OnThrow | frontend/src/components/CreateQuizDialog.jsx:91-97 | the reply's message, else its error, else the exception's message, else the fallback; never empty |
| CreateQuizDialog.DialogFollowsRoute | frontend/src/components/CreateQuizDialog.jsx:85-97 | a quiz the route creates is handed on, and a refusal shows the route's own message |
| CreateQuizDialog.Generate | frontend/src/components/CreateQuizDialog.jsx:70-98 | nothing is sent without a selection; a quiz is handed on exactly when a reply carries one; the selection is kept |

## Left out

- Database, file storage and network calls are parameters of the handlers. The same goes for pdf-parse, mammoth, `fs.readFile` and the chat-completion service. Their own behaviour is not modelled.
- Exceptions, and the `catch` blocks that answer them, are modelled only where they decide an answer: a reader failure in `extractText`, a parse or request failure in `generateQuiz`, reading a property of a `null` question in the quiz store, and an empty database error that sends the submission and course-materials handlers on to read a missing row. Exceptions thrown by the database client, the file store or the runtime elsewhere are left out, because those services are oracles here. For the record: the route handlers' `catch` blocks answer 500 with a fixed message, except the generation route's, which passes the exception's message on; the services' `catch` blocks return no data and an error "Failed to …" followed by the exception's message.
- The chat-completion request's headers, model, temperature and token limit are left out, because they are request metadata the model does not use.
- SubmitRoute.Handle: the score percentage (`Math.round` on a floating-point quotient) is not modelled, because it is floating-point arithmetic.
- QuizTaking.CalculateScore: the rounded percentage is left out for the same reason.
- SubmitRoute.Handle: the invalid-answer message renders the answer with JavaScript's number formatting, which the model does not reproduce beyond naming the position.
- Json.StringToNumber: values are exact reals. Rounding to the nearest double is not modelled, nor is the overflow of a huge numeral to an infinity or the underflow of a tiny one to zero. For example, `"-1e-400"` is below zero here, while JavaScript reads it as -0, which is not.
- Json.ParsedAsInt: a number is read through its exact value. JavaScript first rounds it to a double and renders the shortest digits that round-trip, so a numeral with more than about seventeen significant digits can read differently.
- Json.Json: `JSON.parse` turns a numeral beyond the range of a double into an infinity; decoded values here hold finite reals only.
- GenerateRoute.Handle: material ids are strings in the model. The route also accepts other JSON values in the array.
- GenerateRoute.Collect: what happens to each material is an oracle of its id. Two entries for the same id may therefore see different stored states in the source, but not here.
- CourseMaterialsRoute.FilterOf: an array value of `course_id` (a repeated query parameter) is refused. The route stringifies it first.
- Only the list, update and delete handlers of the course-materials routes are modelled. The download and single-material routes only pass database results through.
- The migration's read of the table when the reply has neither data nor an error is treated as an empty table.
- MigrateExtractedTexts.BatchTally: the insert oracle is a function of the batch, so two equal batches always fare alike.
- ExtractedTextService.WordCount: a non-string argument (counted 0 by the source) is not modelled; the service only receives strings.
- The upload form's reset timer, the size formatting of the file list and the upload request itself are left out, because they are timers, display and network.
- QuizTaking: the auto-advance delay is modelled as a transition without its timer. Reloading for a different quiz id without resetting the index is not modelled.
- The dialog's loading and generating flags and all rendering are left out. Of the quiz row the route returns, only the title is modelled.
- Strings are sequences of characters. UTF-16 code units, surrogate pairs and the `length` they give are not distinguished.
- `toLowerCase` lowers ASCII letters only.
- Chunker.ChunksKeepContent: stated only for texts whose paragraphs all fit the budget. The sentence path replaces each run of `.`, `!` and `?` with the white space after it by `". "`, so there the chunks keep the visible characters only up to that punctuation, and the model does not state it.
- Authentication middleware, the courses routes and the course and material services are not part of this model.

## Findings

| source | as written | input that shows it | evidently intended | confidence | as-written member | corrected member |
|---|---|---|---|---|---|---|
| backend/services/aiGenerator.js:45-60 | a chunk is closed whenever the current chunk is a non-empty string, even when it holds only the `"\n\n"` left by an empty paragraph; that chunk is pushed trimmed, as `""`, and the generator then uses `chunks[0]` as the material | `"\n\nabcd"` with a budget of 1 token gives `["", "abcd"]`, so the prompt carries no material | close a chunk only when its trimmed form is non-empty, so the first chunk of visible text is never blank | not executed | Chunker.ChunkTextAsWritten, Chunker.LeadingBlankLineGivesEmptyChunk, AiGenerator.AsWrittenFirstChunkBlank, Chunker.AsWrittenDiffersByEmptyChunks | Chunker.ChunkText, Chunker.LeadingBlankLineSkipped, AiGenerator.FirstChunkNotBlank, AiGenerator.AsWrittenMaterialAgrees |
| backend/services/aiGenerator.js:40-51 | on the sentence path the budget test weighs the sentence alone, and `". "` is appended after the test, so the full stop that stays in the trimmed chunk is never counted | `"ab. cdef. g"` with a budget of 2 tokens: every sentence fits with its stop, yet the first chunk is `"ab. cdef."`, 9 characters, 3 tokens | weigh each sentence together with its full stop, so that every chunk stays within the budget whenever each sentence fits it | not executed | Chunker.SentenceStopOverflows, Chunker.SentenceStopOverflowsFor | Chunker.SentenceStopCounted, Chunker.SentenceStopCountedFor, Chunker.ChunksWithinBudget |

=== FILE: AiGenerator.dfy ===
/** Response validation, prompt assembly and the guard checks of quiz
    generation (`parseQuizResponse` and `generateQuiz` in the AI generator).
    `JSON.parse` and the chat-completion service are parameters: the first
    maps a text to a decoded value or an error message, the second maps a
    prompt to the service's reply. */
module AiGenerator {
  import opened Base
  import opened Strings
  import opened Json
  import opened Chunker

  // Locating the JSON payload in the reply

  const Fence: string := "```"

  /** The fence is made of backquotes, so no occurrence of it starts at a
      white-space character or inside the tag `json`. */
  lemma NoFenceAt(s: string, k: nat)
    requires k < |s| && s[k] != '`'
    ensures !OccursAt(s, Fence, k)
  {
    if k + 3 <= |s| {
      assert s[k..k + 3][0] == s[k];
    }
  }

  /** The trimmed capture of `/```(?:json)?\s*([\s\S]*?)\s*```/` on `s`: the
      match starts at the first fence, takes the tag `json` when it follows
      at once, then the white space after it; the lazy group ends where only
      white space separates it from the next fence. The match exists exactly
      when two non-overlapping fences occur. */
  function FencedBlock(s: string): (r: Option<string>)
    ensures r.Some? <==> exists i: nat, j: nat :: i + 3 <= j && OccursAt(s, Fence, i) && OccursAt(s, Fence, j)
    ensures r.Some? ==> IsTrimmed(r.value)
  {
    match IndexOfFrom(s, Fence, 0)
    case None => None
    case Some(a) =>
      var open := if OccursAt(s, "json", a + 3) then a + 7 else a + 3;
      var w := WhitespaceRunEnd(s, open);
      assert forall k :: a + 3 <= k < w ==> s[k] != '`' by {
        forall k | a + 3 <= k < w
          ensures s[k] != '`'
        {
          if k < open {
            assert s[a + 3..a + 7][k - a - 3] == s[k];
          }
        }
      }
      FirstFenceDecides(s, a, w);
      match IndexOfFrom(s, Fence, w)
      case None => None
      case Some(j) => Some(Trim(s[w..TrimEndIndex(s[..j], w)]))
  }

  /** With the first fence at `a` and no backquote in `[a + 3, w)`, a second,
      non-overlapping fence exists exactly when one starts at or after `w`. */
  lemma FirstFenceDecides(s: string, a: nat, w: nat)
    requires a + 3 <= w <= |s|
    requires OccursAt(s, Fence, a) && forall k :: 0 <= k < a ==> !OccursAt(s, Fence, k)
    requires forall k :: a + 3 <= k < w ==> s[k] != '`'
    ensures (exists i: nat, j: nat :: i + 3 <= j && OccursAt(s, Fence, i) && OccursAt(s, Fence, j))
        <==> IndexOfFrom(s, Fence, w).Some?
  {
    if exists i: nat, j: nat :: i + 3 <= j && OccursAt(s, Fence, i) && OccursAt(s, Fence, j) {
      var i: nat, j: nat :| i + 3 <= j && OccursAt(s, Fence, i) && OccursAt(s, Fence, j);
      assert a <= i;
      if j < w {
        NoFenceAt(s, j);
      }
    }
    if IndexOfFrom(s, Fence, w).Some? {
      var j := IndexOfFrom(s, Fence, w).value;
      assert a + 3 <= j && OccursAt(s, Fence, a) && OccursAt(s, Fence, j);
    }
  }

  /** The reply without its code fence, when it has one. */
  function StripCodeFence(s: string): (r: string)
    ensures FencedBlock(s).None? ==> r == s
    ensures FencedBlock(s).Some? ==> r == FencedBlock(s).value
  {
    match FencedBlock(s)
    case Some(b) => b
    case None => s
  }

  /** The match of `/\[[\s\S]*\]/`: from the first `[` to the last `]`, when
      that comes after it; otherwise the text is left as it is. */
  function CutArraySpan(s: string): (r: string)
    ensures '[' in s && LastIndexOf(s, ']').Some? && FirstIndexOf(s, '[') < LastIndexOf(s, ']').value
            ==> |r| >= 2 && r[0] == '[' && r[|r| - 1] == ']'
    ensures !('[' in s && LastIndexOf(s, ']').Some? && FirstIndexOf(s, '[') < LastIndexOf(s, ']').value)
            ==> r == s
  {
    if '[' in s then
      match LastIndexOf(s, ']')
      case Some(k) => if FirstIndexOf(s, '[') < k then s[FirstIndexOf(s, '[')..k + 1] else s
      case None => s
    else s
  }

  /** The text `parseQuizResponse` hands to `JSON.parse`. */
  function Payload(responseText: string): string
  {
    CutArraySpan(StripCodeFence(Trim(responseText)))
  }

  /** A JSON array text wrapped in a `json` code fence is recovered exactly. */
  lemma FencedArrayPayload(b: string)
    requires |b| >= 2 && b[0] == '[' && b[|b| - 1] == ']'
    requires forall k: nat :: !OccursAt(b, Fence, k)
    ensures Payload("```json\n" + b + "\n```") == b
  {
    var s := "```json\n" + b + "\n```";
    assert IsTrimmed(s);
    TrimOfTrimmed(s);
    FencedBlockOfWrapped(b);
    assert LastIndexOf(b, ']') == Some(|b| - 1);
    assert FirstIndexOf(b, '[') == 0;
    assert b[0..|b|] == b;
  }

  lemma FencedBlockOfWrapped(b: string)
    requires |b| >= 2 && b[0] == '[' && b[|b| - 1] == ']'
    requires forall k: nat :: !OccursAt(b, Fence, k)
    ensures FencedBlock("```json\n" + b + "\n```") == Some(b)
  {
    var s := "```json\n" + b + "\n```";
    assert s[..3] == Fence;
    assert OccursAt(s, Fence, 0);
    assert s[3..7] == "json";
    assert OccursAt(s, "json", 3);
    assert WhitespaceRunEnd(s, 7) == 8 by {
      assert s[7] == '\n' && s[8] == '[';
    }
    var j := 9 + |b|;
    ClosingFence(b);
    var u := s[..j];
    assert u == "```json\n" + b + "\n";
    assert u[|u| - 1] == '\n' && u[..|u| - 1][|u| - 2] == ']';
    assert TrimEndIndex(u, 8) == 8 + |b|;
    assert u[8..8 + |b|] == b;
    TrimOfTrimmed(b);
  }

  /** An occurrence of the fence, character by character. */
  lemma FenceChars(s: string, k: nat)
    ensures OccursAt(s, Fence, k) <==> k + 3 <= |s| && s[k] == '`' && s[k + 1] == '`' && s[k + 2] == '`'
  {
    if k + 3 <= |s| && s[k] == '`' && s[k + 1] == '`' && s[k + 2] == '`' {
      assert s[k..k + 3] == Fence;
    }
  }

  /** In the wrapped text the first fence after the opening one is the
      closing one. */
  lemma ClosingFence(b: string)
    requires forall k: nat :: !OccursAt(b, Fence, k)
    ensures IndexOfFrom("```json\n" + b + "\n```", Fence, 8) == Some(9 + |b|)
  {
    var s := "```json\n" + b + "\n```";
    WrappedLayout(b);
    FenceChars(s, 9 + |b|);
    NoFenceBefore(s, b);
  }

  lemma WrappedLayout(b: string)
    ensures var s := "```json\n" + b + "\n```";
            && |s| == 12 + |b|
            && (forall m :: 0 <= m < |b| ==> s[8 + m] == b[m])
            && s[8 + |b|] == '\n' && s[9 + |b|] == '`' && s[10 + |b|] == '`' && s[11 + |b|] == '`'
  {
    var pre, post := "```json\n", "\n```";
    var s := pre + b + post;
    forall m | 0 <= m < |b|
      ensures s[8 + m] == b[m]
    {
      assert s[|pre| + m] == (pre + b)[|pre| + m];
    }
    assert s[8 + |b|..] == post;
  }

  /** No fence starts in `b` or at the newline after it. */
  lemma NoFenceBefore(s: string, b: string)
    requires forall k: nat :: !OccursAt(b, Fence, k)
    requires |s| == 12 + |b| && s[8 + |b|] == '\n'
    requires forall m :: 0 <= m < |b| ==> s[8 + m] == b[m]
    ensures forall k :: 8 <= k < 9 + |b| ==> !OccursAt(s, Fence, k)
  {
    forall k | 8 <= k < 9 + |b|
      ensures !OccursAt(s, Fence, k)
    {
      FenceChars(s, k);
      if k + 3 <= 8 + |b| {
        FenceChars(b, k - 8);
      }
    }
  }

  // Checking the decoded array

  /** A generated question after normalisation. `correct` is a JavaScript
      number: the parser does not require it to be an integer. */
  datatype Question = Question(question: string, options: seq<string>, correct: real, explanation: string)

  /** The element checks, in the order the parser applies them. */
  datatype Field = QuestionText | OptionCount | OptionTypes | CorrectIndex | ExplanationText

  datatype ParseError =
    | Unparsable(reason: string)          // an exception: `JSON.parse` failed or an element was null
    | NotAnArray
    | BadElement(position: nat, field: Field)  // `position` counts from 1
    | WrongCount(count: nat)

  /** The `error` string the parser returns. */
  function ParseMessage(e: ParseError): string
  {
    match e
    case Unparsable(reason) => "Failed to parse AI response: " + reason
    case NotAnArray => "AI response is not an array"
    case BadElement(n, field) =>
      ("Question " + NatToString(n)) + (match field
          case QuestionText => " is missing or invalid 'question' field"
          case OptionCount => " must have exactly 4 options"
          case OptionTypes => " options must all be strings"
          case CorrectIndex => " must have 'correct' as a number between 0 and 3"
          case ExplanationText => " is missing or invalid 'explanation' field")
    case WrongCount(n) => "Expected exactly 10 questions, but got " + NatToString(n)
  }

  /** The message of the `TypeError` raised by reading `question` of `null`. */
  const NullPropertyRead: string := "Cannot read properties of null (reading 'question')"

  /** `!x || typeof x !== 'string'` fails: `x` is a non-empty string. A string
      of white space only passes. */
  predicate NonEmptyString(v: Option<Json>)
  {
    v.Some? && v.value.JString? && |v.value.s| > 0
  }

  predicate FourOptions(v: Option<Json>)
  {
    v.Some? && v.value.JArray? && |v.value.items| == 4
  }

  predicate AllStrings(items: seq<Json>)
  {
    forall i :: 0 <= i < |items| ==> items[i].JString?
  }

  /** The value of `correct`: a number is kept, anything else goes through
      `parseInt`, which reads `undefined` as NaN (`None`) and an array as its
      first element. */
  function CorrectValue(v: Option<Json>): (r: Option<real>)
    ensures v.None? ==> r.None?
    ensures v.Some? && v.value.JNumber? ==> r == Some(v.value.n)
    ensures v.Some? && !v.value.JNumber? ==> r.Some? == ParsedAsInt(v.value).Some?
    ensures v.Some? && !v.value.JNumber? && r.Some? ==> r.value == ParsedAsInt(v.value).value as real
  {
    match v
    case None => None
    case Some(JNumber(n)) => Some(n)
    case Some(other) => (match ParsedAsInt(other) case Some(i) => Some(i as real) case None => None)
  }

  /** A one-element array holding a numeral string or an integer reads as
      that index. */
  lemma SingletonCorrectReadsAsElement(d: nat)
    requires d <= 3
    ensures CorrectValue(Some(JArray([JString(NatToString(d))]))) == Some(d as real)
    ensures CorrectValue(Some(JArray([JNumber(d as real)]))) == Some(d as real)
    ensures IsIndex(CorrectValue(Some(JArray([JString(NatToString(d))]))))
  {
    ParseIntNatToString(d);
  }

  predicate IsIndex(c: Option<real>) { c.Some? && 0.0 <= c.value <= 3.0 }

  /** Everything the parser demands of one element. */
  predicate IsValidQuestion(v: Json)
  {
    && NonEmptyString(Get(v, "question"))
    && FourOptions(Get(v, "options"))
    && AllStrings(Get(v, "options").value.items)
    && IsIndex(CorrectValue(Get(v, "correct")))
    && NonEmptyString(Get(v, "explanation"))
  }

  /** The shape every question the parser returns has. */
  predicate WellFormed(q: Question)
  {
    && IsTrimmed(q.question)
    && |q.options| == 4
    && (forall i :: 0 <= i < 4 ==> IsTrimmed(q.options[i]))
    && 0.0 <= q.correct <= 3.0
    && IsTrimmed(q.explanation)
  }

  function TrimAll(items: seq<Json>): (r: seq<string>)
    requires AllStrings(items)
    ensures |r| == |items|
    ensures forall i :: 0 <= i < |r| ==> IsTrimmed(r[i]) && r[i] == Trim(items[i].s)
  {
    if |items| == 0 then [] else [Trim(items[0].s)] + TrimAll(items[1..])
  }

  /** A valid element with every string trimmed. */
  function Normalize(v: Json): (q: Question)
    requires IsValidQuestion(v)
    ensures WellFormed(q)
    ensures && q.question == Trim(Get(v, "question").value.s)
            && q.options == TrimAll(Get(v, "options").value.items)
            && Some(q.correct) == CorrectValue(Get(v, "correct"))
            && q.explanation == Trim(Get(v, "explanation").value.s)
  {
    Question(Trim(Get(v, "question").value.s), TrimAll(Get(v, "options").value.items),
             CorrectValue(Get(v, "correct")).value, Trim(Get(v, "explanation").value.s))
  }

  /** Position of a check in the order the parser applies them. */
  function Rank(f: Field): nat
  {
    match f
    case QuestionText => 0
    case OptionCount => 1
    case OptionTypes => 2
    case CorrectIndex => 3
    case ExplanationText => 4
  }

  /** The element passes the check `f`. */
  predicate Passes(v: Json, f: Field)
  {
    match f
    case QuestionText => NonEmptyString(Get(v, "question"))
    case OptionCount => FourOptions(Get(v, "options"))
    case OptionTypes => FourOptions(Get(v, "options")) && AllStrings(Get(v, "options").value.items)
    case CorrectIndex => IsIndex(CorrectValue(Get(v, "correct")))
    case ExplanationText => NonEmptyString(Get(v, "explanation"))
  }

  /** An element is valid exactly when it passes every check. */
  lemma ValidIffAllChecksPass(v: Json)
    ensures IsValidQuestion(v) <==> forall f :: Passes(v, f)
  {
    if !IsValidQuestion(v) {
      var f := FirstFailing(v);
    }
  }

  /** The first check, in the parser's order, that the element fails. */
  function FirstFailing(v: Json): (f: Field)
    requires !IsValidQuestion(v)
    ensures !Passes(v, f)
    ensures forall g :: Rank(g) < Rank(f) ==> Passes(v, g)
  {
    if !NonEmptyString(Get(v, "question")) then QuestionText
    else if !FourOptions(Get(v, "options")) then OptionCount
    else if !AllStrings(Get(v, "options").value.items) then OptionTypes
    else if !IsIndex(CorrectValue(Get(v, "correct"))) then CorrectIndex
    else ExplanationText
  }

  /** The error for an invalid element, `position` counting from 1: reading a
      property of `null` throws; otherwise the first failing check is
      reported. */
  function Failure(v: Json, position: nat): (e: ParseError)
    requires !IsValidQuestion(v)
    ensures v.JNull? ==> e == Unparsable(NullPropertyRead)
    ensures !v.JNull? ==> e == BadElement(position, FirstFailing(v))
  {
    if v.JNull? then Unparsable(NullPropertyRead) else BadElement(position, FirstFailing(v))
  }

  /** Index of the first invalid element at or after `i`, or `|items|`. */
  function FirstInvalidFrom(items: seq<Json>, i: nat): (k: nat)
    requires i <= |items|
    ensures i <= k <= |items|
    ensures forall j :: i <= j < k ==> IsValidQuestion(items[j])
    ensures k < |items| ==> !IsValidQuestion(items[k])
    decreases |items| - i
  {
    if i == |items| || !IsValidQuestion(items[i]) then i else FirstInvalidFrom(items, i + 1)
  }

  /** Every element of an all-valid array, normalised, in order. */
  function NormalizeAll(items: seq<Json>): (qs: seq<Question>)
    requires forall k :: 0 <= k < |items| ==> IsValidQuestion(items[k])
    ensures |qs| == |items|
  {
    seq(|items|, k requires 0 <= k < |items| => Normalize(items[k]))
  }

  /** The parser accepts exactly a payload that decodes to an array of ten
      valid elements. */
  predicate IsQuizArray(decoded: Result<Json, string>)
  {
    && decoded.Ok? && decoded.value.JArray? && |decoded.value.items| == 10
    && forall k :: 0 <= k < 10 ==> IsValidQuestion(decoded.value.items[k])
  }

  /** `parseQuizResponse`. */
  function ParseQuizResponse(responseText: string, parse: string -> Result<Json, string>): (r: Result<seq<Question>, ParseError>)
    ensures r.Ok? <==> IsQuizArray(parse(Payload(responseText)))
    ensures r.Ok? ==> |r.value| == 10 && forall k :: 0 <= k < 10 ==> WellFormed(r.value[k])
    ensures parse(Payload(responseText)).Err? ==> r == Err(Unparsable(parse(Payload(responseText)).error))
    ensures r == Err(NotAnArray) <==> parse(Payload(responseText)).Ok? && !parse(Payload(responseText)).value.JArray?
    ensures r.Err? && r.error.WrongCount? ==>
              && parse(Payload(responseText)).Ok? && parse(Payload(responseText)).value.JArray?
              && r.error.count == |parse(Payload(responseText)).value.items| != 10
              && forall k :: 0 <= k < r.error.count ==> IsValidQuestion(parse(Payload(responseText)).value.items[k])
  {
    match parse(Payload(responseText))
    case Err(message) => Err(Unparsable(message))
    case Ok(v) =>
      if !v.JArray? then Err(NotAnArray)
      else
        var k := FirstInvalidFrom(v.items, 0);
        if k < |v.items| then Err(Failure(v.items[k], k + 1))
        else if |v.items| != 10 then Err(WrongCount(|v.items|))
        else Ok(NormalizeAll(v.items))
  }

  /** The questions come back in the order of the decoded array, each the
      normalised form of its element. */
  lemma ParsedInOrder(responseText: string, parse: string -> Result<Json, string>, k: nat)
    requires ParseQuizResponse(responseText, parse).Ok? && k < 10
    ensures IsValidQuestion(parse(Payload(responseText)).value.items[k])
    ensures ParseQuizResponse(responseText, parse).value[k] == Normalize(parse(Payload(responseText)).value.items[k])
  {
  }

  /** A failing element is reported by its 1-based position, every element
      before it is valid, and the check named is the first one it fails. */
  lemma FirstBadElementReported(responseText: string, parse: string -> Result<Json, string>)
    requires ParseQuizResponse(responseText, parse).Err?
    requires ParseQuizResponse(responseText, parse).error.BadElement?
    ensures var items := parse(Payload(responseText)).value.items;
            var e := ParseQuizResponse(responseText, parse).error;
            && 1 <= e.position <= |items| && !IsValidQuestion(items[e.position - 1])
            && (forall j :: 0 <= j < e.position - 1 ==> IsValidQuestion(items[j]))
            && !Passes(items[e.position - 1], e.field)
            && (forall g :: Rank(g) < Rank(e.field) ==> Passes(items[e.position - 1], g))
  {
    var items := parse(Payload(responseText)).value.items;
    var k := FirstInvalidFrom(items, 0);
    assert k < |items|;
    var e := ParseQuizResponse(responseText, parse).error;
    assert e == Failure(items[k], k + 1);
    assert !items[k].JNull?;
    var f := FirstFailing(items[k]);
    assert e.position == k + 1 && e.field == f;
    assert !Passes(items[k], f) && forall g :: Rank(g) < Rank(f) ==> Passes(items[k], g);
  }

  // The prompt

  const PromptHead: string :=
    "You are an expert educational content creator. Generate exactly 10 high-quality multiple-choice quiz questions based on the following course material.\n"
    + "\n"
    + "IMPORTANT REQUIREMENTS:\n"
    + "1. Generate EXACTLY 10 questions - no more, no less\n"
    + "2. Each question must be relevant to the content and test understanding\n"
    + "3. Questions should cover different aspects of the material\n"
    + "4. Each question must have exactly 4 options (A, B, C, D)\n"
    + "5. The correct answer index must be 0, 1, 2, or 3 (representing the position in the options array)\n"
    + "6. Include a clear explanation for each correct answer\n"
    + "\n"
    + "OUTPUT FORMAT (JSON array only, no markdown, no extra text):\n"
    + "[\n"
    + "  {\n"
    + "    \"question\": \"Question text here?\",\n"
    + "    \"options\": [\"Option A\", \"Option B\", \"Option C\", \"Option D\"],\n"
    + "    \"correct\": 0,\n"
    + "    \"explanation\": \"Explanation of why this is the correct answer.\"\n"
    + "  },\n"
    + "  ...\n"
    + "]\n"
    + "\n"
    + "Course Material:\n"

  const PromptTail: string := "\n\nGenerate the quiz questions now:"

  /** The prompt sent for a piece of course material. */
  function BuildPrompt(material: string): string
  {
    PromptHead + material + PromptTail
  }

  /** The material embedded in a prompt, read back from between the fixed
      parts of the template. */
  function EmbeddedMaterial(prompt: string): string
    requires |prompt| >= |PromptHead| + |PromptTail|
  {
    prompt[|PromptHead|..|prompt| - |PromptTail|]
  }

  lemma EmbeddedMaterialOfPrompt(material: string)
    ensures |BuildPrompt(material)| == |PromptHead| + |material| + |PromptTail|
    ensures BuildPrompt(material)[..|PromptHead|] == PromptHead
    ensures BuildPrompt(material)[|BuildPrompt(material)| - |PromptTail|..] == PromptTail
    ensures EmbeddedMaterial(BuildPrompt(material)) == material
  {
    var p := BuildPrompt(material);
    assert p == PromptHead + material + PromptTail;
    assert p[|PromptHead|..|p| - |PromptTail|] == material;
  }

  /** Different material gives different prompts. */
  lemma BuildPromptInjective(a: string, b: string)
    requires BuildPrompt(a) == BuildPrompt(b)
    ensures a == b
  {
    EmbeddedMaterialOfPrompt(a);
    EmbeddedMaterialOfPrompt(b);
  }

  // Generation

  /** What the chat-completion request yields. `HttpFailure` carries the
      status, its text and the `error.message` of the body, if any;
      `Completion` the first choice's message content, if any;
      `RequestFailed` the message of an exception thrown while sending the
      request or decoding the reply. */
  datatype ServiceReply =
    | HttpFailure(status: int, statusText: string, detail: Option<string>)
    | Completion(content: Option<string>)
    | RequestFailed(message: string)

  datatype GenerateError =
    | MissingApiKey
    | MissingText
    | ApiError(status: int, statusText: string, detail: string)
    | NoContent
    | Thrown(message: string)
    | Invalid(error: ParseError)

  /** The `error` string `generateQuiz` returns. */
  function GenerateMessage(e: GenerateError): string
  {
    match e
    case MissingApiKey => "OPENROUTER_API_KEY is not configured"
    case MissingText => "Text content is required"
    case ApiError(status, statusText, detail) =>
      "OpenRouter API error: " + IntToString(status) + " " + statusText + ". " + detail
    case NoContent => "No response content from AI"
    case Thrown(message) => "Failed to generate quiz: " + message
    case Invalid(pe) => ParseMessage(pe)
  }

  /** A generation attempt: the material embedded in the one prompt sent, if
      a request was made, and the outcome. */
  datatype Generation = Generation(material: Option<string>, result: Result<seq<Question>, GenerateError>)

  /** Outcome of the request for one prompt. */
  function Complete(reply: ServiceReply, parse: string -> Result<Json, string>): (r: Result<seq<Question>, GenerateError>)
    ensures r.Ok? <==> reply.Completion? && reply.content.Some? && reply.content.value != ""
                       && ParseQuizResponse(reply.content.value, parse).Ok?
    ensures r.Ok? ==> |r.value| == 10 && forall k :: 0 <= k < 10 ==> WellFormed(r.value[k])
  {
    match reply
    case HttpFailure(status, statusText, detail) =>
      Err(ApiError(status, statusText, match detail case Some(d) => d case None => ""))
    case RequestFailed(message) => Err(Thrown(message))
    case Completion(content) =>
      if content.None? || content.value == "" then Err(NoContent)
      else
        match ParseQuizResponse(content.value, parse)
        case Ok(qs) => Ok(qs)
        case Err(pe) => Err(Invalid(pe))
  }

  /** The text the prompt carries: the first chunk of the material, chunks
      being built under `rules` (`AsWritten` is the code as written). */
  function PromptMaterial(rules: Rules, text: string): (m: string)
    requires !AllWhitespace(text)
    ensures m == ChunkWith(rules, text, MaxInputTokens)[0]
    ensures EstimateTokenCount(text) <= MaxInputTokens ==> m == text
    ensures m == text || IsTrimmed(m)
    ensures rules.close == CloseWhenNonBlank ==> !AllWhitespace(m)
  {
    if rules.close == CloseWhenNonBlank then
      FirstChunkNotBlank(rules, text, MaxInputTokens);
      ChunkWith(rules, text, MaxInputTokens)[0]
    else
      ChunkWith(rules, text, MaxInputTokens)[0]
  }

  /** When every paragraph fits the budget (or, with the full stop weighed,
      every sentence of it does), the material fits it too, whichever rule
      closes chunks. */
  lemma PromptMaterialWithinBudget(rules: Rules, text: string)
    requires !AllWhitespace(text)
    requires forall k :: 0 <= k < |Paragraphs(text)| ==> ParagraphFits(rules, Paragraphs(text)[k], MaxInputTokens)
    ensures EstimateTokenCount(PromptMaterial(rules, text)) <= MaxInputTokens
  {
    ChunksWithinBudget(rules, text, MaxInputTokens);
  }

  /** The material closed as written is the corrected material whenever it
      is not empty: the two generators differ only when the code as written
      embeds an empty first chunk. */
  lemma AsWrittenMaterialAgrees(test: SentenceTest, text: string)
    requires !AllWhitespace(text)
    ensures PromptMaterial(Rules(CloseWhenNonEmpty, test), text) != "" ==>
              PromptMaterial(Rules(CloseWhenNonEmpty, test), text) == PromptMaterial(Rules(CloseWhenNonBlank, test), text)
  {
    var w := ChunkWith(Rules(CloseWhenNonEmpty, test), text, MaxInputTokens);
    if w[0] != "" {
      AsWrittenDiffersByEmptyChunks(test, text, MaxInputTokens);
      FilterKeepsFirst(w, NonEmptyChunk);
    }
  }

  /** `generateQuiz` with the configured key `apiKey` (empty when unset) and
      the chunker's rules `rules`. */
  function GenerateQuiz(rules: Rules, apiKey: string, text: string, service: string -> ServiceReply,
                        parse: string -> Result<Json, string>): (g: Generation)
    ensures apiKey == "" ==> g == Generation(None, Err(MissingApiKey))
    ensures apiKey != "" && AllWhitespace(text) ==> g == Generation(None, Err(MissingText))
    ensures g.material.Some? <==> apiKey != "" && !AllWhitespace(text)
    ensures g.material.Some? ==> g.material.value == ChunkWith(rules, text, MaxInputTokens)[0]
    ensures g.material.Some? && EstimateTokenCount(text) <= MaxInputTokens ==> g.material.value == text
    ensures g.material.Some? && rules.close == CloseWhenNonBlank ==> !AllWhitespace(g.material.value)
    ensures g.material.Some? ==> g.result == Complete(service(BuildPrompt(g.material.value)), parse)
    ensures g.result.Ok? ==> g.material.Some? && |g.result.value| == 10
                             && forall k :: 0 <= k < 10 ==> WellFormed(g.result.value[k])
  {
    if apiKey == "" then Generation(None, Err(MissingApiKey))
    else if AllWhitespace(text) then Generation(None, Err(MissingText))
    else
      var material := PromptMaterial(rules, text);
      Generation(Some(material), Complete(service(BuildPrompt(material)), parse))
  }

  /** The generator closing chunks as written sends the same prompt, and so
      returns the same questions, as the corrected one unless its material is
      empty. */
  lemma AsWrittenGeneratorAgrees(test: SentenceTest, apiKey: string, text: string, service: string -> ServiceReply,
                                 parse: string -> Result<Json, string>)
    requires AllWhitespace(text) || PromptMaterial(Rules(CloseWhenNonEmpty, test), text) != ""
    ensures GenerateQuiz(Rules(CloseWhenNonEmpty, test), apiKey, text, service, parse)
         == GenerateQuiz(Rules(CloseWhenNonBlank, test), apiKey, text, service, parse)
  {
    if !AllWhitespace(text) {
      AsWrittenMaterialAgrees(test, text);
    }
  }

  /** A chunker that closes only visible chunks never hands a blank first
      chunk to the prompt when the text has visible content. */
  lemma FirstChunkNotBlank(rules: Rules, text: string, maxTokens: nat)
    requires rules.close == CloseWhenNonBlank && !AllWhitespace(text)
    ensures !AllWhitespace(ChunkWith(rules, text, maxTokens)[0])
  {
    var c := ChunkWith(rules, text, maxTokens)[0];
    if c != text {
      assert IsTrimmed(c) && c != "";
      assert !IsWhitespace(c[0]);
    }
  }

  /** The chunker as written can: a whitespace-led text over the budget puts
      an empty chunk first. */
  lemma AsWrittenFirstChunkBlank()
    ensures !AllWhitespace("\n\nabcd") && ChunkTextAsWritten("\n\nabcd", 1)[0] == ""
  {
    LeadingBlankLineGivesEmptyChunk();
    assert "\n\nabcd"[2] == 'a';
  }
}

=== FILE: Base.dfy ===
/** Failure-carrying values shared by every module of the model: the source
    returns `{ data, error }` pairs and `null`/`undefined` for absent values;
    here those become `Option` and `Result`. */
module Base {

  datatype Option<+T> = None | Some(value: T)

  datatype Result<+T, +E> = Ok(value: T) | Err(error: E)

  /** Number of elements of `s` satisfying `p`, counted left to right. */
  function Count<T>(s: seq<T>, p: T -> bool): (n: nat)
    ensures n <= |s|
    ensures n == |s| <==> forall i :: 0 <= i < |s| ==> p(s[i])
    ensures n == 0 <==> forall i :: 0 <= i < |s| ==> !p(s[i])
  {
    if |s| == 0 then 0 else Count(s[..|s| - 1], p) + (if p(s[|s| - 1]) then 1 else 0)
  }

  /** Counting from the front: the first element, then the rest. */
  lemma {:induction false} CountPrepend<T>(x: T, rest: seq<T>, p: T -> bool)
    ensures Count([x] + rest, p) == (if p(x) then 1 else 0) + Count(rest, p)
    decreases |rest|
  {
    if |rest| > 0 {
      var init := rest[..|rest| - 1];
      assert ([x] + rest)[..|rest|] == [x] + init;
      assert ([x] + rest)[|rest|] == rest[|rest| - 1];
      CountPrepend(x, init, p);
    }
  }

  /** Two sequences whose elements pass their tests at the same positions
      have the same count. */
  lemma {:induction false} CountSame<T, U>(a: seq<T>, p: T -> bool, b: seq<U>, q: U -> bool)
    requires |a| == |b|
    requires forall i :: 0 <= i < |a| ==> (p(a[i]) <==> q(b[i]))
    ensures Count(a, p) == Count(b, q)
    decreases |a|
  {
    if |a| > 0 {
      CountSame(a[..|a| - 1], p, b[..|b| - 1], q);
    }
  }

  /** Elements of `s` satisfying `p`, in their original order (JavaScript's `filter`). */
  function Filter<T>(s: seq<T>, p: T -> bool): (r: seq<T>)
    ensures |r| == Count(s, p)
    ensures forall x :: x in r ==> x in s && p(x)
    ensures forall x :: x in s && p(x) ==> x in r
  {
    if |s| == 0 then [] else Filter(s[..|s| - 1], p) + (if p(s[|s| - 1]) then [s[|s| - 1]] else [])
  }

  /** Concatenation of a sequence of sequences, in order. */
  function Flatten<T>(ss: seq<seq<T>>): seq<T>
  {
    if |ss| == 0 then [] else Flatten(ss[..|ss| - 1]) + ss[|ss| - 1]
  }

  /** Flattening from the front: the first sequence, then the rest. */
  lemma {:induction false} FlattenPrepend<T>(x: seq<T>, rest: seq<seq<T>>)
    ensures Flatten([x] + rest) == x + Flatten(rest)
    decreases |rest|
  {
    if |rest| == 0 {
      assert [x] + rest == [x];
      assert Flatten([x]) == Flatten([]) + x;
    } else {
      var init := rest[..|rest| - 1];
      assert ([x] + rest)[..|rest|] == [x] + init;
      assert ([x] + rest)[|rest|] == rest[|rest| - 1];
      FlattenPrepend(x, init);
    }
  }

  /** Filtering a sequence with one more element at the end. */
  lemma FilterAppend<T>(s: seq<T>, x: T, p: T -> bool)
    ensures Filter(s + [x], p) == Filter(s, p) + (if p(x) then [x] else [])
  {
    assert (s + [x])[..|s|] == s;
  }

  /** A first element that passes the test comes first in the result. */
  lemma {:induction false} FilterKeepsFirst<T>(s: seq<T>, p: T -> bool)
    requires |s| > 0 && p(s[0])
    ensures |Filter(s, p)| > 0 && Filter(s, p)[0] == s[0]
    decreases |s|
  {
    if |s| > 1 {
      var init := s[..|s| - 1];
      assert init[0] == s[0];
      FilterKeepsFirst(init, p);
    }
  }

  /** Filtering with a test every element passes changes nothing. */
  lemma {:induction false} FilterKeepsAll<T>(s: seq<T>, p: T -> bool)
    requires forall x :: x in s ==> p(x)
    ensures Filter(s, p) == s
    decreases |s|
  {
    if |s| > 0 {
      FilterKeepsAll(s[..|s| - 1], p);
    }
  }

  /** A first element that fails the test is dropped. */
  lemma {:induction false} FilterDropsFirst<T>(x: T, s: seq<T>, p: T -> bool)
    requires !p(x)
    ensures Filter([x] + s, p) == Filter(s, p)
    decreases |s|
  {
    if |s| == 0 {
      assert [x] + s == [x];
      assert ([x] + s)[..0] == [];
    } else {
      var u := [x] + s;
      assert u[..|u| - 1] == [x] + s[..|s| - 1];
      FilterDropsFirst(x, s[..|s| - 1], p);
    }
  }

  /** A subset is no larger, and one of the same size is the whole set. */
  lemma SubsetSize<T>(a: set<T>, b: set<T>)
    requires a <= b
    ensures |a| <= |b|
    ensures |a| == |b| ==> a == b
  {
    assert b == a + (b - a);
    assert a * (b - a) == {};
    if a != b {
      var x :| x in b && x !in a;
      assert x in b - a;
    }
  }

  function Min(a: int, b: int): int { if a <= b then a else b }
}

=== FILE: Chunker.dfy ===
/** Token estimation and chunking of course material
    (`estimateTokenCount` and `chunkTextIfNeeded` in the AI generator).

    The text is split into paragraphs with the regular expression
    `/\n\s*\n/`, an over-budget paragraph into sentences with `/[.!?]+\s+/`,
    and the pieces are accumulated greedily into chunks. */
module Chunker {
  import opened Base
  import opened Strings

  /** Default budget of `chunkTextIfNeeded`, also the one the generator passes. */
  const MaxInputTokens: nat := 100000

  /** `estimateTokenCount`: one token per four characters, rounded up. */
  function EstimateTokenCount(text: string): (n: nat)
    ensures 4 * n >= |text| && 4 * n < |text| + 4
    ensures n == 0 <==> |text| == 0
  {
    if |text| == 0 then 0 else (|text| + 3) / 4
  }

  /** A longer text never has a smaller estimate. */
  lemma EstimateMonotone(a: string, b: string)
    requires |a| <= |b|
    ensures EstimateTokenCount(a) <= EstimateTokenCount(b)
  {
  }

  /** Estimating two pieces separately never under-counts their concatenation. */
  lemma EstimateSubadditive(a: string, b: string)
    ensures EstimateTokenCount(a + b) <= EstimateTokenCount(a) + EstimateTokenCount(b)
  {
  }

  // Regular-expression separators and JavaScript's split algorithm

  datatype Separator =
    | ParagraphBreak  // `/\n\s*\n/`
    | SentenceEnd     // `/[.!?]+\s+/`

  predicate IsSentencePunctuation(c: char) { c == '.' || c == '!' || c == '?' }

  /** End of the run of sentence punctuation starting at `i`. */
  function PunctuationRunEnd(s: string, i: nat): (e: nat)
    requires i <= |s|
    ensures i <= e <= |s|
    ensures forall k :: i <= k < e ==> IsSentencePunctuation(s[k])
    ensures e == |s| || !IsSentencePunctuation(s[e])
    decreases |s| - i
  {
    if i < |s| && IsSentencePunctuation(s[i]) then PunctuationRunEnd(s, i + 1) else i
  }

  /** Where a match of the separator starting exactly at `q` ends, as the
      backtracking matcher finds it: the greedy `\s*` of `/\n\s*\n/` gives
      back characters until a newline follows, so a paragraph break runs to
      the last newline of its white-space run; `[.!?]+` cannot give back a
      character to `\s+`, so a sentence end is a whole punctuation run
      followed by a whole, non-empty white-space run. */
  function SeparatorEnd(sep: Separator, s: string, q: nat): (r: Option<nat>)
    requires q < |s|
    ensures r.Some? ==> q < r.value <= |s|
    ensures r.Some? && sep == ParagraphBreak ==> AllWhitespace(s[q..r.value])
  {
    match sep
    case ParagraphBreak =>
      if s[q] != '\n' then None
      else
        var r := AfterLastNewline(s, q + 1, WhitespaceRunEnd(s, q + 1));
        assert r.Some? ==> forall k :: q <= k < r.value ==> IsWhitespace(s[k]);
        r
    case SentenceEnd =>
      if !IsSentencePunctuation(s[q]) then None
      else
        var p := PunctuationRunEnd(s, q);
        if p < |s| && IsWhitespace(s[p]) then Some(WhitespaceRunEnd(s, p)) else None
  }

  /** The leftmost match of the separator at or after `from`, as a pair
      (start, end). */
  function FindSeparator(sep: Separator, s: string, from: nat): (r: Option<(nat, nat)>)
    requires from <= |s|
    ensures r.Some? ==> from <= r.value.0 < r.value.1 <= |s|
    ensures r.Some? ==> SeparatorEnd(sep, s, r.value.0) == Some(r.value.1)
    ensures r.Some? ==> forall q :: from <= q < r.value.0 ==> SeparatorEnd(sep, s, q).None?
    ensures r.None? ==> forall q :: from <= q < |s| ==> SeparatorEnd(sep, s, q).None?
    decreases |s| - from
  {
    if from == |s| then None
    else
      match SeparatorEnd(sep, s, from)
      case Some(e) => Some((from, e))
      case None => FindSeparator(sep, s, from + 1)
  }

  /** `s.slice(from).split(regex)` for a separator that never matches the
      empty string: the pieces between successive leftmost matches. */
  function RegexSplit(sep: Separator, s: string, from: nat): (parts: seq<string>)
    requires from <= |s|
    ensures |parts| >= 1
    decreases |s| - from
  {
    match FindSeparator(sep, s, from)
    case None => [s[from..]]
    case Some((a, e)) => [s[from..a]] + RegexSplit(sep, s, e)
  }

  function Paragraphs(text: string): seq<string> { RegexSplit(ParagraphBreak, text, 0) }

  function Sentences(paragraph: string): seq<string> { RegexSplit(SentenceEnd, paragraph, 0) }

  /** A visible character at or after the start of a paragraph break lies
      after its end. */
  lemma VisibleAfterBreak(s: string, a: nat, e: nat, i: nat)
    requires a <= i < |s| && a < |s| && !IsWhitespace(s[i])
    requires SeparatorEnd(ParagraphBreak, s, a) == Some(e)
    ensures e <= i
  {
    assert AllWhitespace(s[a..e]);
    assert forall j :: a <= j < e ==> s[a..e][j - a] == s[j];
  }

  /** Paragraph breaks consist of white space only, so any visible character of
      the text lands in some paragraph. */
  lemma {:induction false} SplitKeepsContent(s: string, from: nat, i: nat) returns (k: nat)
    requires from <= i < |s| && !IsWhitespace(s[i])
    ensures k < |RegexSplit(ParagraphBreak, s, from)| && !AllWhitespace(RegexSplit(ParagraphBreak, s, from)[k])
    decreases |s| - from
  {
    var parts := RegexSplit(ParagraphBreak, s, from);
    var found := FindSeparator(ParagraphBreak, s, from);
    if found.None? {
      assert parts == [s[from..]];
      assert s[from..][i - from] == s[i];
      k := 0;
    } else {
      var (a, e) := found.value;
      var rest := RegexSplit(ParagraphBreak, s, e);
      assert parts == [s[from..a]] + rest;
      if i < a {
        assert s[from..a][i - from] == s[i];
        k := 0;
      } else {
        VisibleAfterBreak(s, a, e, i);
        var m := SplitKeepsContent(s, e, i);
        assert parts[m + 1] == rest[m];
        k := m + 1;
      }
    }
  }

  // Greedy accumulation

  /** How a full chunk is closed. `chunkTextIfNeeded` as written closes any
      non-empty current chunk and pushes its trimmed form, even when that is
      empty (`CloseWhenNonEmpty`); `CloseWhenNonBlank` is the rule its final
      step applies, pushing only a trimmed chunk that is not empty. */
  datatype CloseRule = CloseWhenNonEmpty | CloseWhenNonBlank

  /** How the sentence path weighs a sentence against the budget. As written
      the test counts the sentence alone (`WeighSentence`), although `". "`
      is appended after it and its full stop survives the trim;
      `WeighSentenceAndStop` counts the sentence with its full stop. */
  datatype SentenceTest = WeighSentence | WeighSentenceAndStop

  /** The two choices that set the chunker as written apart from the
      corrected one. */
  datatype Rules = Rules(close: CloseRule, test: SentenceTest)

  const AsWritten := Rules(CloseWhenNonEmpty, WeighSentence)
  const Corrected := Rules(CloseWhenNonBlank, WeighSentenceAndStop)

  /** Chunks emitted so far and the chunk being accumulated. */
  datatype Chunking = Chunking(chunks: seq<string>, current: string)

  function Close(rule: CloseRule, st: Chunking): (r: Chunking)
    ensures r.current == "" || r == st
  {
    if st.current == "" then st
    else
      var t := Trim(st.current);
      match rule
      case CloseWhenNonEmpty => Chunking(st.chunks + [t], "")
      case CloseWhenNonBlank => Chunking(st.chunks + (if t != "" then [t] else []), "")
  }

  /** Add `piece` followed by `pad`, closing the current chunk first when the
      sum of the estimates of the current chunk and of `piece` exceeds the
      budget. */
  function AddPiece(rule: CloseRule, st: Chunking, piece: string, pad: string, maxTokens: nat): Chunking
  {
    var st' := if EstimateTokenCount(st.current) + EstimateTokenCount(piece) > maxTokens then Close(rule, st) else st;
    st'.(current := st'.current + piece + pad)
  }

  /** Add one sentence followed by `". "`; the test weighs the sentence
      alone, or the sentence with its full stop. */
  function AddSentence(rules: Rules, st: Chunking, sentence: string, maxTokens: nat): Chunking
  {
    match rules.test
    case WeighSentence => AddPiece(rules.close, st, sentence, ". ", maxTokens)
    case WeighSentenceAndStop => AddPiece(rules.close, st, sentence + ".", " ", maxTokens)
  }

  function AddSentences(rules: Rules, st: Chunking, sentences: seq<string>, maxTokens: nat): Chunking
    decreases |sentences|
  {
    if |sentences| == 0 then st
    else AddSentences(rules, AddSentence(rules, st, sentences[0], maxTokens), sentences[1..], maxTokens)
  }

  /** Add one paragraph followed by `"\n\n"`, or its sentences when the
      paragraph alone exceeds the budget. */
  function AddParagraph(rules: Rules, st: Chunking, paragraph: string, maxTokens: nat): Chunking
  {
    if EstimateTokenCount(paragraph) > maxTokens then AddSentences(rules, st, Sentences(paragraph), maxTokens)
    else AddPiece(rules.close, st, paragraph, "\n\n", maxTokens)
  }

  function AddParagraphs(rules: Rules, st: Chunking, paragraphs: seq<string>, maxTokens: nat): Chunking
    decreases |paragraphs|
  {
    if |paragraphs| == 0 then st
    else AddParagraphs(rules, AddParagraph(rules, st, paragraphs[0], maxTokens), paragraphs[1..], maxTokens)
  }

  /** `chunkTextIfNeeded` under `rules`. */
  function ChunkWith(rules: Rules, text: string, maxTokens: nat): (chunks: seq<string>)
    ensures |chunks| >= 1
    ensures EstimateTokenCount(text) <= maxTokens ==> chunks == [text]
    ensures chunks == [text] || GoodChunks(rules.close, chunks)
  {
    if EstimateTokenCount(text) <= maxTokens then [text]
    else
      var st := AddParagraphs(rules, Chunking([], ""), Paragraphs(text), maxTokens);
      AddParagraphsKeepsGood(rules, Chunking([], ""), Paragraphs(text), maxTokens);
      var chunks := Finish(st);
      if |chunks| > 0 then chunks else [text]
  }

  /** The final step: the chunks pushed, then the trimmed current chunk
      unless it is empty. */
  function Finish(st: Chunking): (chunks: seq<string>)
  {
    var last := Trim(st.current);
    if last != "" then st.chunks + [last] else st.chunks
  }

  /** Every chunk pushed is a trimmed string; under `CloseWhenNonBlank` also a
      non-empty one. */
  predicate GoodChunks(rule: CloseRule, chunks: seq<string>)
  {
    forall i :: 0 <= i < |chunks| ==> IsTrimmed(chunks[i]) && (rule == CloseWhenNonBlank ==> chunks[i] != "")
  }

  lemma {:induction false} AddSentencesKeepsGood(rules: Rules, st: Chunking, ss: seq<string>, maxTokens: nat)
    requires GoodChunks(rules.close, st.chunks)
    ensures GoodChunks(rules.close, AddSentences(rules, st, ss, maxTokens).chunks)
    decreases |ss|
  {
    if |ss| > 0 {
      AddSentencesKeepsGood(rules, AddSentence(rules, st, ss[0], maxTokens), ss[1..], maxTokens);
    }
  }

  lemma {:induction false} AddParagraphsKeepsGood(rules: Rules, st: Chunking, ps: seq<string>, maxTokens: nat)
    requires GoodChunks(rules.close, st.chunks)
    ensures GoodChunks(rules.close, AddParagraphs(rules, st, ps, maxTokens).chunks)
    decreases |ps|
  {
    if |ps| > 0 {
      AddSentencesKeepsGood(rules, st, Sentences(ps[0]), maxTokens);
      AddParagraphsKeepsGood(rules, AddParagraph(rules, st, ps[0], maxTokens), ps[1..], maxTokens);
    }
  }

  /** `chunkTextIfNeeded` exactly as written. */
  function ChunkTextAsWritten(text: string, maxTokens: nat): (chunks: seq<string>)
    ensures |chunks| >= 1
    ensures EstimateTokenCount(text) <= maxTokens ==> chunks == [text]
    ensures chunks == [text] || GoodChunks(CloseWhenNonEmpty, chunks)
  {
    ChunkWith(AsWritten, text, maxTokens)
  }

  /** `chunkTextIfNeeded` with a chunk closed only when its trimmed form is
      non-empty, and a sentence weighed with its full stop. */
  function ChunkText(text: string, maxTokens: nat): (chunks: seq<string>)
    ensures |chunks| >= 1
    ensures EstimateTokenCount(text) <= maxTokens ==> chunks == [text]
    ensures chunks == [text] || GoodChunks(CloseWhenNonBlank, chunks)
  {
    ChunkWith(Corrected, text, maxTokens)
  }

  // The two close rules compared

  predicate NonEmptyChunk(c: string) { c != "" }

  /** A fold as written and a corrected fold in step: the same current
      chunk, and the emitted chunks equal once the empty ones are dropped. */
  predicate InStep(written: Chunking, corrected: Chunking)
  {
    written.current == corrected.current && Filter(written.chunks, NonEmptyChunk) == corrected.chunks
  }

  lemma CloseInStep(w: Chunking, c: Chunking)
    requires InStep(w, c)
    ensures InStep(Close(CloseWhenNonEmpty, w), Close(CloseWhenNonBlank, c))
  {
    if w.current != "" {
      FilterAppend(w.chunks, Trim(w.current), NonEmptyChunk);
    }
  }

  lemma AddPieceInStep(w: Chunking, c: Chunking, piece: string, pad: string, maxTokens: nat)
    requires InStep(w, c)
    ensures InStep(AddPiece(CloseWhenNonEmpty, w, piece, pad, maxTokens), AddPiece(CloseWhenNonBlank, c, piece, pad, maxTokens))
  {
    CloseInStep(w, c);
  }

  lemma AddSentenceInStep(test: SentenceTest, w: Chunking, c: Chunking, sentence: string, maxTokens: nat)
    requires InStep(w, c)
    ensures InStep(AddSentence(Rules(CloseWhenNonEmpty, test), w, sentence, maxTokens),
                   AddSentence(Rules(CloseWhenNonBlank, test), c, sentence, maxTokens))
  {
    match test
    case WeighSentence => AddPieceInStep(w, c, sentence, ". ", maxTokens);
    case WeighSentenceAndStop => AddPieceInStep(w, c, sentence + ".", " ", maxTokens);
  }

  lemma {:induction false} AddSentencesInStep(test: SentenceTest, w: Chunking, c: Chunking, ss: seq<string>, maxTokens: nat)
    requires InStep(w, c)
    ensures InStep(AddSentences(Rules(CloseWhenNonEmpty, test), w, ss, maxTokens),
                   AddSentences(Rules(CloseWhenNonBlank, test), c, ss, maxTokens))
    decreases |ss|
  {
    if |ss| > 0 {
      AddSentenceInStep(test, w, c, ss[0], maxTokens);
      AddSentencesInStep(test, AddSentence(Rules(CloseWhenNonEmpty, test), w, ss[0], maxTokens),
                         AddSentence(Rules(CloseWhenNonBlank, test), c, ss[0], maxTokens), ss[1..], maxTokens);
    }
  }

  lemma {:induction false} AddParagraphsInStep(test: SentenceTest, w: Chunking, c: Chunking, ps: seq<string>, maxTokens: nat)
    requires InStep(w, c)
    ensures InStep(AddParagraphs(Rules(CloseWhenNonEmpty, test), w, ps, maxTokens),
                   AddParagraphs(Rules(CloseWhenNonBlank, test), c, ps, maxTokens))
    decreases |ps|
  {
    if |ps| > 0 {
      AddSentencesInStep(test, w, c, Sentences(ps[0]), maxTokens);
      AddPieceInStep(w, c, ps[0], "\n\n", maxTokens);
      AddParagraphsInStep(test, AddParagraph(Rules(CloseWhenNonEmpty, test), w, ps[0], maxTokens),
                          AddParagraph(Rules(CloseWhenNonBlank, test), c, ps[0], maxTokens), ps[1..], maxTokens);
    }
  }

  lemma FinishInStep(w: Chunking, c: Chunking)
    requires InStep(w, c)
    ensures Filter(Finish(w), NonEmptyChunk) == Finish(c)
  {
    if Trim(w.current) != "" {
      FilterAppend(w.chunks, Trim(w.current), NonEmptyChunk);
    }
  }

  /** The close rule as written differs from the corrected one only by the
      empty chunks it emits: dropping them gives the corrected chunks,
      except when every chunk as written is empty, where the corrected
      chunker falls back to the whole text. When no chunk as written is
      empty, the two agree. */
  lemma AsWrittenDiffersByEmptyChunks(test: SentenceTest, text: string, maxTokens: nat)
    ensures var w, c := ChunkWith(Rules(CloseWhenNonEmpty, test), text, maxTokens), ChunkWith(Rules(CloseWhenNonBlank, test), text, maxTokens);
            Filter(w, NonEmptyChunk) == c || (c == [text] && Filter(w, NonEmptyChunk) == [])
    ensures var w := ChunkWith(Rules(CloseWhenNonEmpty, test), text, maxTokens);
            (forall i :: 0 <= i < |w| ==> w[i] != "") ==> w == ChunkWith(Rules(CloseWhenNonBlank, test), text, maxTokens)
  {
    var w, c := ChunkWith(Rules(CloseWhenNonEmpty, test), text, maxTokens), ChunkWith(Rules(CloseWhenNonBlank, test), text, maxTokens);
    FilterAppend([], text, NonEmptyChunk);
    assert [] + [text] == [text];
    if EstimateTokenCount(text) > maxTokens {
      var init := Chunking([], "");
      var ps := Paragraphs(text);
      AddParagraphsInStep(test, init, init, ps, maxTokens);
      var sw := AddParagraphs(Rules(CloseWhenNonEmpty, test), init, ps, maxTokens);
      var sc := AddParagraphs(Rules(CloseWhenNonBlank, test), init, ps, maxTokens);
      FinishInStep(sw, sc);
      assert |Finish(sw)| == 0 ==> Filter(Finish(sw), NonEmptyChunk) == [];
    }
    if forall i :: 0 <= i < |w| ==> w[i] != "" {
      FilterKeepsAll(w, NonEmptyChunk);
    }
  }

  // Budget

  /** Every emitted chunk is within budget, and so is the current chunk once
      trimmed. */
  predicate WithinBudget(st: Chunking, maxTokens: nat)
  {
    && (forall i :: 0 <= i < |st.chunks| ==> EstimateTokenCount(st.chunks[i]) <= maxTokens)
    && EstimateTokenCount(Trim(st.current)) <= maxTokens
  }

  /** Adding a piece that fits the budget, followed by white space, keeps
      every chunk and the trimmed current one within it, whichever rule
      closes chunks. */
  lemma AddPieceKeepsBudget(rule: CloseRule, st: Chunking, piece: string, pad: string, maxTokens: nat)
    requires WithinBudget(st, maxTokens) && AllWhitespace(pad)
    requires EstimateTokenCount(piece) <= maxTokens
    ensures WithinBudget(AddPiece(rule, st, piece, pad, maxTokens), maxTokens)
  {
    var cur := st.current;
    var r := AddPiece(rule, st, piece, pad, maxTokens);
    if EstimateTokenCount(cur) + EstimateTokenCount(piece) > maxTokens {
      assert r.current == piece + pad;
      TrimDropsTrailingWhitespace(piece, pad);
      EstimateMonotone(Trim(r.current), piece);
    } else {
      assert r.current == (cur + piece) + pad;
      TrimDropsTrailingWhitespace(cur + piece, pad);
      EstimateMonotone(Trim(r.current), cur + piece);
      EstimateSubadditive(cur, piece);
    }
  }

  /** A sentence weighed with its full stop keeps the budget when the two
      together fit it. */
  lemma AddSentenceKeepsBudget(rules: Rules, st: Chunking, sentence: string, maxTokens: nat)
    requires rules.test == WeighSentenceAndStop && WithinBudget(st, maxTokens)
    requires EstimateTokenCount(sentence + ".") <= maxTokens
    ensures WithinBudget(AddSentence(rules, st, sentence, maxTokens), maxTokens)
  {
    AddPieceKeepsBudget(rules.close, st, sentence + ".", " ", maxTokens);
  }

  lemma {:induction false} AddSentencesKeepsBudget(rules: Rules, st: Chunking, ss: seq<string>, maxTokens: nat)
    requires rules.test == WeighSentenceAndStop && WithinBudget(st, maxTokens)
    requires forall j :: 0 <= j < |ss| ==> EstimateTokenCount(ss[j] + ".") <= maxTokens
    ensures WithinBudget(AddSentences(rules, st, ss, maxTokens), maxTokens)
    decreases |ss|
  {
    if |ss| > 0 {
      AddSentenceKeepsBudget(rules, st, ss[0], maxTokens);
      assert forall j :: 0 <= j < |ss[1..]| ==> ss[1..][j] == ss[j + 1];
      AddSentencesKeepsBudget(rules, AddSentence(rules, st, ss[0], maxTokens), ss[1..], maxTokens);
    }
  }

  /** The paragraph fits the budget, or the corrected test weighs its
      sentences and each fits with its full stop. */
  predicate ParagraphFits(rules: Rules, p: string, maxTokens: nat)
  {
    || EstimateTokenCount(p) <= maxTokens
    || (&& rules.test == WeighSentenceAndStop
        && forall j :: 0 <= j < |Sentences(p)| ==> EstimateTokenCount(Sentences(p)[j] + ".") <= maxTokens)
  }

  lemma AddParagraphKeepsBudget(rules: Rules, st: Chunking, p: string, maxTokens: nat)
    requires WithinBudget(st, maxTokens) && ParagraphFits(rules, p, maxTokens)
    ensures WithinBudget(AddParagraph(rules, st, p, maxTokens), maxTokens)
  {
    if EstimateTokenCount(p) > maxTokens {
      AddSentencesKeepsBudget(rules, st, Sentences(p), maxTokens);
    } else {
      AddPieceKeepsBudget(rules.close, st, p, "\n\n", maxTokens);
    }
  }

  lemma {:induction false} AddParagraphsKeepsBudget(rules: Rules, st: Chunking, ps: seq<string>, maxTokens: nat)
    requires WithinBudget(st, maxTokens)
    requires forall k :: 0 <= k < |ps| ==> ParagraphFits(rules, ps[k], maxTokens)
    ensures WithinBudget(AddParagraphs(rules, st, ps, maxTokens), maxTokens)
    decreases |ps|
  {
    if |ps| > 0 {
      AddParagraphKeepsBudget(rules, st, ps[0], maxTokens);
      assert forall k :: 0 <= k < |ps[1..]| ==> ps[1..][k] == ps[k + 1];
      AddParagraphsKeepsBudget(rules, AddParagraph(rules, st, ps[0], maxTokens), ps[1..], maxTokens);
    }
  }

  /** Something visible has been emitted or is being accumulated. */
  predicate Started(st: Chunking)
  {
    |st.chunks| > 0 || !AllWhitespace(st.current)
  }

  lemma AddPieceKeepsStarted(rule: CloseRule, st: Chunking, piece: string, pad: string, maxTokens: nat)
    requires Started(st) || !AllWhitespace(piece + pad)
    ensures Started(AddPiece(rule, st, piece, pad, maxTokens))
  {
    var st' := if EstimateTokenCount(st.current) + EstimateTokenCount(piece) > maxTokens then Close(rule, st) else st;
    var x := piece + pad;
    var c := st'.current + piece + pad;
    assert c == st'.current + x;
    if !AllWhitespace(x) {
      var i :| 0 <= i < |x| && !IsWhitespace(x[i]);
      assert c[|st'.current| + i] == x[i];
    } else if |st'.chunks| == 0 {
      var i :| 0 <= i < |st'.current| && !IsWhitespace(st'.current[i]);
      assert c[i] == st'.current[i];
    }
  }

  /** A sentence always leaves its full stop in the current chunk. */
  lemma AddSentenceStarts(rules: Rules, st: Chunking, sentence: string, maxTokens: nat)
    ensures Started(AddSentence(rules, st, sentence, maxTokens))
  {
    match rules.test
    case WeighSentence =>
      assert (sentence + ". ")[|sentence|] == '.';
      AddPieceKeepsStarted(rules.close, st, sentence, ". ", maxTokens);
    case WeighSentenceAndStop =>
      assert (sentence + "." + " ")[|sentence|] == '.';
      AddPieceKeepsStarted(rules.close, st, sentence + ".", " ", maxTokens);
  }

  lemma {:induction false} AddSentencesStarts(rules: Rules, st: Chunking, ss: seq<string>, maxTokens: nat)
    requires Started(st) || |ss| > 0
    ensures Started(AddSentences(rules, st, ss, maxTokens))
    decreases |ss|
  {
    if |ss| > 0 {
      AddSentenceStarts(rules, st, ss[0], maxTokens);
      AddSentencesStarts(rules, AddSentence(rules, st, ss[0], maxTokens), ss[1..], maxTokens);
    }
  }

  lemma AddParagraphStarts(rules: Rules, st: Chunking, p: string, maxTokens: nat)
    requires Started(st) || !AllWhitespace(p)
    ensures Started(AddParagraph(rules, st, p, maxTokens))
  {
    if EstimateTokenCount(p) > maxTokens {
      AddSentencesStarts(rules, st, Sentences(p), maxTokens);
    } else {
      if !AllWhitespace(p) {
        var i :| 0 <= i < |p| && !IsWhitespace(p[i]);
        assert (p + "\n\n")[i] == p[i];
      }
      AddPieceKeepsStarted(rules.close, st, p, "\n\n", maxTokens);
    }
  }

  lemma {:induction false} AddParagraphsStarts(rules: Rules, st: Chunking, ps: seq<string>, maxTokens: nat)
    requires Started(st) || exists k :: 0 <= k < |ps| && !AllWhitespace(ps[k])
    ensures Started(AddParagraphs(rules, st, ps, maxTokens))
    decreases |ps|
  {
    if |ps| > 0 {
      if Started(st) || !AllWhitespace(ps[0]) {
        AddParagraphStarts(rules, st, ps[0], maxTokens);
      } else {
        var k :| 0 <= k < |ps| && !AllWhitespace(ps[k]);
        assert ps[1..][k - 1] == ps[k];
      }
      AddParagraphsStarts(rules, AddParagraph(rules, st, ps[0], maxTokens), ps[1..], maxTokens);
    }
  }

  /** When the text has visible content and every paragraph fits the budget
      as `ParagraphFits` weighs it, every chunk is within the budget. As
      written (`WeighSentence`) this covers only texts whose paragraphs all
      fit; the corrected test also covers over-budget paragraphs whose
      sentences fit with their full stops. Under either close rule an empty
      chunk has an estimate of zero. */
  lemma ChunksWithinBudget(rules: Rules, text: string, maxTokens: nat)
    requires !AllWhitespace(text)
    requires forall k :: 0 <= k < |Paragraphs(text)| ==> ParagraphFits(rules, Paragraphs(text)[k], maxTokens)
    ensures forall k :: 0 <= k < |ChunkWith(rules, text, maxTokens)| ==> EstimateTokenCount(ChunkWith(rules, text, maxTokens)[k]) <= maxTokens
  {
    if EstimateTokenCount(text) > maxTokens {
      var ps := Paragraphs(text);
      var init := Chunking([], "");
      var st := AddParagraphs(rules, init, ps, maxTokens);
      AddParagraphsKeepsBudget(rules, init, ps, maxTokens);
      var i :| 0 <= i < |text| && !IsWhitespace(text[i]);
      var _ := SplitKeepsContent(text, 0, i);
      AddParagraphsStarts(rules, init, ps, maxTokens);
      FinishWithinBudget(st, maxTokens);
      assert ChunkWith(rules, text, maxTokens) == Finish(st);
    }
  }

  /** A started fold within the budget finishes with at least one chunk, and
      every chunk within the budget. */
  lemma FinishWithinBudget(st: Chunking, maxTokens: nat)
    requires WithinBudget(st, maxTokens) && Started(st)
    ensures |Finish(st)| > 0
    ensures forall k :: 0 <= k < |Finish(st)| ==> EstimateTokenCount(Finish(st)[k]) <= maxTokens
  {
    var last := Trim(st.current);
    if last != "" {
      assert Finish(st)[|st.chunks|] == last;
    }
  }

  // Content

  /** The visible characters emitted and being accumulated, in order. */
  function Accumulated(st: Chunking): string
  {
    Visible(Flatten(st.chunks) + st.current)
  }

  lemma FlattenOne(t: string)
    ensures Flatten([t]) == t
  {
    assert [t][..0] == [];
  }

  lemma FlattenAppend(chunks: seq<string>, t: string)
    ensures Flatten(chunks + [t]) == Flatten(chunks) + t
  {
    assert (chunks + [t])[..|chunks|] == chunks;
  }

  /** Pushing the trimmed current chunk keeps the visible characters. */
  lemma PushKeepsContent(chunks: seq<string>, cur: string)
    ensures Visible(Flatten(chunks + [Trim(cur)])) == Visible(Flatten(chunks) + cur)
  {
    var f, t := Flatten(chunks), Trim(cur);
    FlattenAppend(chunks, t);
    VisibleAppend(f, t);
    VisibleTrim(cur);
    VisibleAppend(f, cur);
  }

  /** Dropping a current chunk that trims to nothing keeps the visible
      characters. */
  lemma DropBlankKeepsContent(chunks: seq<string>, cur: string)
    requires Trim(cur) == ""
    ensures Visible(Flatten(chunks)) == Visible(Flatten(chunks) + cur)
  {
    var f := Flatten(chunks);
    VisibleTrim(cur);
    assert Visible(cur) == "";
    VisibleAppend(f, cur);
    assert Visible(f) + "" == Visible(f);
  }

  /** Closing a chunk loses no visible character, under either rule. */
  lemma CloseKeepsContent(rule: CloseRule, st: Chunking)
    ensures Accumulated(Close(rule, st)) == Accumulated(st)
  {
    if st.current != "" {
      var r := Close(rule, st);
      assert Flatten(r.chunks) + r.current == Flatten(r.chunks);
      if rule == CloseWhenNonEmpty || Trim(st.current) != "" {
        assert r.chunks == st.chunks + [Trim(st.current)];
        PushKeepsContent(st.chunks, st.current);
      } else {
        assert r.chunks == st.chunks;
        DropBlankKeepsContent(st.chunks, st.current);
      }
    }
  }

  /** White space after a piece adds nothing visible. */
  lemma VisibleDropsPadding(f: string, p: string, w: string)
    requires AllWhitespace(w)
    ensures Visible(f + p + w) == Visible(f) + Visible(p)
  {
    var g := f + p;
    VisibleAppend(g, w);
    VisibleOfWhitespace(w);
    assert Visible(g) + Visible(w) == Visible(g);
    VisibleAppend(f, p);
  }

  /** Appending a paragraph and its break to the current chunk appends the
      paragraph's visible characters. */
  lemma AppendKeepsContent(st: Chunking, p: string)
    ensures Accumulated(st.(current := st.current + p + "\n\n")) == Accumulated(st) + Visible(p)
  {
    var x := Flatten(st.chunks) + st.current;
    var w := "\n\n";
    assert Flatten(st.chunks) + (st.current + p + w) == x + p + w;
    VisibleDropsPadding(x, p, w);
  }

  /** Adding a paragraph that fits the budget appends its visible characters. */
  lemma AddParagraphKeepsContent(rule: CloseRule, st: Chunking, p: string, maxTokens: nat)
    ensures Accumulated(AddPiece(rule, st, p, "\n\n", maxTokens)) == Accumulated(st) + Visible(p)
  {
    var st' := if EstimateTokenCount(st.current) + EstimateTokenCount(p) > maxTokens then Close(rule, st) else st;
    CloseKeepsContent(rule, st);
    AppendKeepsContent(st', p);
  }

  lemma {:induction false} AddParagraphsKeepsContent(rules: Rules, st: Chunking, ps: seq<string>, maxTokens: nat)
    requires forall k :: 0 <= k < |ps| ==> EstimateTokenCount(ps[k]) <= maxTokens
    ensures Accumulated(AddParagraphs(rules, st, ps, maxTokens)) == Accumulated(st) + Visible(Flatten(ps))
    decreases |ps|
  {
    if |ps| == 0 {
      assert Flatten(ps) == [];
      assert Accumulated(st) + Visible(Flatten(ps)) == Accumulated(st);
    } else {
      var rest := ps[1..];
      assert forall k :: 0 <= k < |rest| ==> rest[k] == ps[k + 1];
      var next := AddParagraph(rules, st, ps[0], maxTokens);
      assert next == AddPiece(rules.close, st, ps[0], "\n\n", maxTokens);
      AddParagraphKeepsContent(rules.close, st, ps[0], maxTokens);
      AddParagraphsKeepsContent(rules, next, rest, maxTokens);
      VisibleOfFlattenFront(ps);
      ConcatAssoc(Accumulated(st), Visible(ps[0]), Visible(Flatten(rest)));
    }
  }

  lemma ConcatAssoc(a: string, v: string, w: string)
    ensures (a + v) + w == a + (v + w)
  {
  }

  lemma FlattenFront(ps: seq<string>)
    requires |ps| > 0
    ensures Flatten(ps) == ps[0] + Flatten(ps[1..])
  {
    assert ps == [ps[0]] + ps[1..];
    FlattenPrepend(ps[0], ps[1..]);
  }

  /** The visible characters of flattened pieces: the first piece's, then
      the rest's. */
  lemma VisibleOfFlattenFront(ps: seq<string>)
    requires |ps| > 0
    ensures Visible(Flatten(ps)) == Visible(ps[0]) + Visible(Flatten(ps[1..]))
  {
    FlattenFront(ps);
    VisibleAppend(ps[0], Flatten(ps[1..]));
  }

  /** Dropping a white-space slice of `s` keeps its visible characters. */
  lemma VisibleAroundBreak(s: string, from: nat, a: nat, e: nat)
    requires from <= a <= e <= |s|
    requires AllWhitespace(s[a..e])
    ensures Visible(s[from..]) == Visible(s[from..a]) + Visible(s[e..])
  {
    var x, y, z := s[from..a], s[a..e], s[e..];
    assert s[from..] == x + y + z;
    VisibleAppend(x + y, z);
    VisibleAppend(x, y);
    VisibleOfWhitespace(y);
    assert Visible(x) + "" == Visible(x);
    var vx, vz := Visible(x), Visible(z);
    assert Visible(x + y + z) == Visible(x + y) + vz;
    assert Visible(x + y) == vx;
  }

  /** Paragraph breaks are white space, so the paragraphs together hold the
      visible characters of the text. */
  lemma {:induction false} SplitKeepsVisible(s: string, from: nat)
    requires from <= |s|
    ensures Visible(Flatten(RegexSplit(ParagraphBreak, s, from))) == Visible(s[from..])
    decreases |s| - from
  {
    match FindSeparator(ParagraphBreak, s, from)
    case None =>
      assert RegexSplit(ParagraphBreak, s, from) == [s[from..]];
      FlattenOne(s[from..]);
    case Some((a, e)) =>
      var rest := RegexSplit(ParagraphBreak, s, e);
      assert RegexSplit(ParagraphBreak, s, from) == [s[from..a]] + rest;
      SplitKeepsVisible(s, e);
      var x := s[from..a];
      VisibleAroundBreak(s, from, a, e);
      FlattenPrepend(x, rest);
      VisibleAppend(x, Flatten(rest));
      var vx, vz := Visible(x), Visible(s[e..]);
      assert Visible(Flatten([x] + rest)) == vx + vz;
      assert Visible(s[from..]) == vx + vz;
  }

  /** The final step, pushing the trimmed current chunk when it is not
      empty, loses no visible character. */
  lemma LastChunkKeepsContent(st: Chunking)
    ensures Visible(Flatten(Finish(st))) == Accumulated(st)
  {
    if Trim(st.current) != "" {
      PushKeepsContent(st.chunks, st.current);
    } else {
      DropBlankKeepsContent(st.chunks, st.current);
    }
  }

  /** When no paragraph alone exceeds the budget, the chunks hold exactly the
      visible characters of the text, in order, under either close rule. */
  lemma ChunksKeepContent(rules: Rules, text: string, maxTokens: nat)
    requires forall k :: 0 <= k < |Paragraphs(text)| ==> EstimateTokenCount(Paragraphs(text)[k]) <= maxTokens
    ensures Visible(Flatten(ChunkWith(rules, text, maxTokens))) == Visible(text)
  {
    FlattenOne(text);
    if EstimateTokenCount(text) > maxTokens {
      var ps := Paragraphs(text);
      var init := Chunking([], "");
      var st := AddParagraphs(rules, init, ps, maxTokens);
      AddParagraphsKeepsContent(rules, init, ps, maxTokens);
      assert Flatten(init.chunks) + init.current == "";
      assert Accumulated(init) == "";
      SplitKeepsVisible(text, 0);
      assert text[0..] == text;
      assert Accumulated(st) == Visible(text);
      LastChunkKeepsContent(st);
    }
  }

  /** `"\n\nabcd"` splits into an empty paragraph and `"abcd"`. */
  lemma BlankLeadParagraphs()
    ensures Paragraphs("\n\nabcd") == ["", "abcd"]
  {
    var s := "\n\nabcd";
    assert WhitespaceRunEnd(s, 1) == 2;
    assert SeparatorEnd(ParagraphBreak, s, 0) == Some(2);
    assert FindSeparator(ParagraphBreak, s, 2) == None;
  }

  /** The empty paragraph, which fits, becomes the current chunk `"\n\n"`. */
  lemma BlankParagraphOpens(rules: Rules)
    ensures AddParagraph(rules, Chunking([], ""), "", 1) == Chunking([], "\n\n")
  {
  }

  /** `"abcd"` does not fit beside `"\n\n"` and closes it; as written the
      closed chunk is pushed, trimmed to `""`. */
  lemma BlankChunkClosed(rules: Rules)
    ensures AddParagraph(rules, Chunking([], "\n\n"), "abcd", 1)
         == Chunking(if rules.close == CloseWhenNonEmpty then [""] else [], "abcd\n\n")
  {
    assert Trim("\n\n") == "";
  }

  /** The fold over `["", "abcd"]` with a budget of one token: the empty
      paragraph becomes the current chunk `"\n\n"`, which `"abcd"` then
      closes. */
  lemma BlankLeadFold(rules: Rules)
    ensures AddParagraphs(rules, Chunking([], ""), ["", "abcd"], 1)
         == Chunking(if rules.close == CloseWhenNonEmpty then [""] else [], "abcd\n\n")
  {
    var ps := ["", "abcd"];
    BlankParagraphOpens(rules);
    BlankChunkClosed(rules);
    assert ps[1..] == ["abcd"] && ps[1..][1..] == [];
  }

  lemma TrimmedLastChunk()
    ensures Trim("abcd\n\n") == "abcd"
  {
    var t := "abcd\n\n";
    assert TrimStartIndex(t) == 0;
    assert t[..5] == "abcd\n" && t[..5][..4] == "abcd";
    assert TrimEndIndex(t, 0) == 4;
  }

  /** The chunker as written: a text opening with a blank line and just over
      the budget yields an empty first chunk, which is the one the generator
      embeds in its prompt. */
  lemma LeadingBlankLineGivesEmptyChunk()
    ensures ChunkTextAsWritten("\n\nabcd", 1) == ["", "abcd"]
  {
    var s := "\n\nabcd";
    assert EstimateTokenCount(s) == 2;
    BlankLeadParagraphs();
    BlankLeadFold(AsWritten);
    TrimmedLastChunk();
    assert ChunkWith(AsWritten, s, 1) == [""] + ["abcd"];
  }

  /** The corrected chunker on the same text: the blank lead is dropped. */
  lemma LeadingBlankLineSkipped()
    ensures ChunkText("\n\nabcd", 1) == ["abcd"]
  {
    var s := "\n\nabcd";
    assert EstimateTokenCount(s) == 2;
    BlankLeadParagraphs();
    BlankLeadFold(Corrected);
    TrimmedLastChunk();
    assert ChunkWith(Corrected, s, 1) == [] + ["abcd"];
  }

  // The sentence path's budget test

  lemma {:induction false} NoBreakWithoutNewline(s: string, from: nat)
    requires from <= |s| && forall k :: from <= k < |s| ==> s[k] != '\n'
    ensures FindSeparator(ParagraphBreak, s, from).None?
    decreases |s| - from
  {
    if from < |s| {
      NoBreakWithoutNewline(s, from + 1);
    }
  }

  /** The leftmost match at or after `from` is the leftmost one at or after
      `q` when no match starts in between. */
  lemma {:induction false} SkipToSeparator(sep: Separator, s: string, from: nat, q: nat)
    requires from <= q <= |s|
    requires forall k :: from <= k < q ==> SeparatorEnd(sep, s, k).None?
    ensures FindSeparator(sep, s, from) == FindSeparator(sep, s, q)
    decreases q - from
  {
    if from < q {
      SkipToSeparator(sep, s, from + 1, q);
    }
  }

  /** Neither sentence punctuation nor white space. */
  predicate IsWordChar(c: char) { !IsSentencePunctuation(c) && !IsWhitespace(c) }

  /** Word characters from `from` to `q`, then `". "` and a word character
      or the end: the next sentence is `s[from..q]`. */
  lemma WordThenStop(s: string, from: nat, q: nat)
    requires from <= q && q + 2 <= |s| && s[q] == '.' && s[q + 1] == ' '
    requires forall k :: from <= k < q ==> IsWordChar(s[k])
    requires q + 2 == |s| || IsWordChar(s[q + 2])
    ensures RegexSplit(SentenceEnd, s, from) == [s[from..q]] + RegexSplit(SentenceEnd, s, q + 2)
  {
    SkipToSeparator(SentenceEnd, s, from, q);
    assert PunctuationRunEnd(s, q + 1) == q + 1;
    assert WhitespaceRunEnd(s, q + 2) == q + 2;
    assert FindSeparator(SentenceEnd, s, q) == Some((q, q + 2));
  }

  /** Word characters to the end: the last sentence. */
  lemma LastWord(s: string, from: nat)
    requires from <= |s| && forall k :: from <= k < |s| ==> IsWordChar(s[k])
    ensures RegexSplit(SentenceEnd, s, from) == [s[from..]]
  {
    SkipToSeparator(SentenceEnd, s, from, |s|);
  }

  predicate IsWord(w: string) { w != "" && forall k :: 0 <= k < |w| ==> IsWordChar(w[k]) }

  /** A word embedded at `from` in `s` makes its positions word characters. */
  lemma WordAt(s: string, from: nat, w: string)
    requires from + |w| <= |s| && s[from..from + |w|] == w && IsWord(w)
    ensures forall k :: from <= k < from + |w| ==> IsWordChar(s[k])
  {
    forall k | from <= k < from + |w|
      ensures IsWordChar(s[k])
    {
      assert s[k] == s[from..from + |w|][k - from];
    }
  }

  /** Where the pieces of `a + ". " + b + ". " + c` lie. */
  lemma ThreeLayout(a: string, b: string, c: string)
    requires b != "" && c != ""
    ensures var s, i, j := a + ". " + b + ". " + c, |a|, |a| + 2 + |b|;
            && j + 2 < |s| && s[0..i] == a && s[i + 2..j] == b && s[j + 2..] == c
            && s[i] == '.' && s[i + 1] == ' ' && s[j] == '.' && s[j + 1] == ' '
            && s[i + 2] == b[0] && s[j + 2] == c[0] && s[j + 2..|s|] == c
  {
  }

  /** A word at `from`, then `". "` and another word: the next sentence is
      that word. */
  lemma SentenceAt(s: string, from: nat, w: string)
    requires IsWord(w) && from + |w| + 2 < |s| && s[from..from + |w|] == w
    requires s[from + |w|] == '.' && s[from + |w| + 1] == ' ' && IsWordChar(s[from + |w| + 2])
    ensures RegexSplit(SentenceEnd, s, from) == [w] + RegexSplit(SentenceEnd, s, from + |w| + 2)
  {
    WordAt(s, from, w);
    WordThenStop(s, from, from + |w|);
  }

  /** A word that ends `s` is its last sentence. */
  lemma LastSentenceAt(s: string, from: nat, w: string)
    requires IsWord(w) && from + |w| == |s| && s[from..] == w
    ensures RegexSplit(SentenceEnd, s, from) == [w]
  {
    assert s[from..from + |w|] == w;
    WordAt(s, from, w);
    LastWord(s, from);
  }

  /** Three words separated by `". "` are three sentences. */
  lemma ThreeSentences(a: string, b: string, c: string)
    requires IsWord(a) && IsWord(b) && IsWord(c)
    ensures Sentences(a + ". " + b + ". " + c) == [a, b, c]
  {
    var s := a + ". " + b + ". " + c;
    var i, j := |a|, |a| + 2 + |b|;
    ThreeLayout(a, b, c);
    assert IsWordChar(b[0]) && IsWordChar(c[0]);
    LastSentenceAt(s, j + 2, c);
    SentenceAt(s, i + 2, b);
    SentenceAt(s, 0, a);
  }

  /** Over the budget, the chunks are the finished fold of the paragraphs
      whenever that is not empty. */
  lemma OverBudgetChunks(rules: Rules, text: string, maxTokens: nat)
    requires EstimateTokenCount(text) > maxTokens
    requires |Finish(AddParagraphs(rules, Chunking([], ""), Paragraphs(text), maxTokens))| > 0
    ensures ChunkWith(rules, text, maxTokens) == Finish(AddParagraphs(rules, Chunking([], ""), Paragraphs(text), maxTokens))
  {
  }

  /** The fold of one over-budget paragraph is the fold of its sentences. */
  lemma SentencePathFold(rules: Rules, p: string, maxTokens: nat)
    requires EstimateTokenCount(p) > maxTokens
    ensures AddParagraphs(rules, Chunking([], ""), [p], maxTokens)
         == AddSentences(rules, Chunking([], ""), Sentences(p), maxTokens)
  {
    assert [p][1..] == [];
  }

  /** One step of the sentence fold. */
  lemma AddSentencesStep(rules: Rules, st: Chunking, ss: seq<string>, maxTokens: nat)
    requires |ss| > 0
    ensures AddSentences(rules, st, ss, maxTokens) == AddSentences(rules, AddSentence(rules, st, ss[0], maxTokens), ss[1..], maxTokens)
  {
  }

  /** The fold of three sentences, step by step. */
  lemma ThreeSentenceFold(rules: Rules, x: string, y: string, z: string, maxTokens: nat)
    ensures AddSentences(rules, Chunking([], ""), [x, y, z], maxTokens)
         == AddSentence(rules, AddSentence(rules, AddSentence(rules, Chunking([], ""), x, maxTokens), y, maxTokens), z, maxTokens)
  {
    var ss := [x, y, z];
    var st1 := AddSentence(rules, Chunking([], ""), x, maxTokens);
    var st2 := AddSentence(rules, st1, y, maxTokens);
    var st3 := AddSentence(rules, st2, z, maxTokens);
    AddSentencesStep(rules, Chunking([], ""), ss, maxTokens);
    assert ss[1..] == [y, z];
    AddSentencesStep(rules, st1, [y, z], maxTokens);
    assert [y, z][1..] == [z];
    AddSentencesStep(rules, st2, [z], maxTokens);
    assert [z][1..] == [];
  }

  /** A piece that fits beside the current chunk joins it. */
  lemma PieceJoins(rule: CloseRule, st: Chunking, piece: string, pad: string, maxTokens: nat)
    requires EstimateTokenCount(st.current) + EstimateTokenCount(piece) <= maxTokens
    ensures AddPiece(rule, st, piece, pad, maxTokens) == Chunking(st.chunks, st.current + piece + pad)
  {
  }

  /** A piece that does not fit closes a current chunk that is a trimmed,
      non-empty text followed by white space. */
  lemma PieceCloses(rule: CloseRule, st: Chunking, body: string, w: string, piece: string, pad: string, maxTokens: nat)
    requires st.current == body + w && IsTrimmed(body) && body != "" && AllWhitespace(w)
    requires EstimateTokenCount(st.current) + EstimateTokenCount(piece) > maxTokens
    ensures AddPiece(rule, st, piece, pad, maxTokens) == Chunking(st.chunks + [body], piece + pad)
  {
    TrimOfPadded(body, w);
  }

  /** Three words joined by `". "` hold no newline. */
  lemma NoNewlineInThree(a: string, b: string, c: string)
    requires IsWord(a) && IsWord(b) && IsWord(c)
    ensures var t := a + ". " + b + ". " + c; forall k :: 0 <= k < |t| ==> t[k] != '\n'
  {
    var t := a + ". " + b + ". " + c;
    forall k | 0 <= k < |t|
      ensures t[k] != '\n'
    {
      var i, j := |a|, |a| + 2 + |b|;
      if k < i {
        assert t[k] == a[k];
      } else if k < i + 2 {
      } else if k < j {
        assert t[k] == b[k - i - 2];
      } else if k < j + 2 {
      } else {
        assert t[k] == c[k - j - 2];
      }
    }
  }

  /** A text of three words joined by `". "` is one paragraph of three
      sentences. */
  lemma ThreeWordText(a: string, b: string, c: string)
    requires IsWord(a) && IsWord(b) && IsWord(c)
    ensures var t := a + ". " + b + ". " + c;
            Paragraphs(t) == [t] && Sentences(t) == [a, b, c]
  {
    var t := a + ". " + b + ". " + c;
    NoNewlineInThree(a, b, c);
    NoBreakWithoutNewline(t, 0);
    assert t[0..] == t;
    ThreeSentences(a, b, c);
  }

  /** As written, at a budget of two tokens, words of two, four and one
      characters: the first two share a chunk, the third gets its own. */
  lemma WeighSentenceFold(rule: CloseRule, a: string, b: string, c: string)
    requires IsWord(a) && IsWord(b) && IsWord(c) && |a| == 2 && |b| == 4 && |c| == 1
    ensures AddSentences(Rules(rule, WeighSentence), Chunking([], ""), [a, b, c], 2)
         == Chunking([a + ". " + b + "."], c + ". ")
  {
    var rules := Rules(rule, WeighSentence);
    ThreeSentenceFold(rules, a, b, c, 2);
    PieceJoins(rule, Chunking([], ""), a, ". ", 2);
    assert "" + a + ". " == a + ". ";
    PieceJoins(rule, Chunking([], a + ". "), b, ". ", 2);
    var body := a + ". " + b + ".";
    assert a + ". " + b + ". " == body + " ";
    assert body[0] == a[0] && body[|body| - 1] == '.';
    PieceCloses(rule, Chunking([], body + " "), body, " ", c, ". ", 2);
    assert [] + [body] == [body];
  }

  /** A short sentence weighed with its full stop opens an empty chunk. */
  lemma StopOpens(rule: CloseRule, chunks: seq<string>, w: string)
    requires |w| <= 7
    ensures AddSentence(Rules(rule, WeighSentenceAndStop), Chunking(chunks, ""), w, 2) == Chunking(chunks, (w + ".") + " ")
  {
    PieceJoins(rule, Chunking(chunks, ""), w + ".", " ", 2);
    assert "" + (w + ".") + " " == (w + ".") + " ";
  }

  /** A sentence weighed with its full stop that does not fit closes the
      current chunk. */
  lemma StopCloses(rule: CloseRule, chunks: seq<string>, body: string, w: string)
    requires IsTrimmed(body) && body != ""
    requires EstimateTokenCount(body + " ") + EstimateTokenCount(w + ".") > 2
    ensures AddSentence(Rules(rule, WeighSentenceAndStop), Chunking(chunks, body + " "), w, 2)
         == Chunking(chunks + [body], (w + ".") + " ")
  {
    PieceCloses(rule, Chunking(chunks, body + " "), body, " ", w + ".", " ", 2);
  }

  /** The fold over a first short sentence weighed with its full stop. */
  lemma StopOpensFold(rule: CloseRule, w: string, rest: seq<string>)
    requires |w| <= 7
    ensures AddSentences(Rules(rule, WeighSentenceAndStop), Chunking([], ""), [w] + rest, 2)
         == AddSentences(Rules(rule, WeighSentenceAndStop), Chunking([], (w + ".") + " "), rest, 2)
  {
    StopOpens(rule, [], w);
    AddSentencesStep(Rules(rule, WeighSentenceAndStop), Chunking([], ""), [w] + rest, 2);
    assert ([w] + rest)[1..] == rest;
  }

  /** The fold over a sentence weighed with its full stop that closes the
      current chunk. */
  lemma StopClosesFold(rule: CloseRule, chunks: seq<string>, body: string, w: string, rest: seq<string>)
    requires IsTrimmed(body) && body != ""
    requires EstimateTokenCount(body + " ") + EstimateTokenCount(w + ".") > 2
    ensures AddSentences(Rules(rule, WeighSentenceAndStop), Chunking(chunks, body + " "), [w] + rest, 2)
         == AddSentences(Rules(rule, WeighSentenceAndStop), Chunking(chunks + [body], (w + ".") + " "), rest, 2)
  {
    StopCloses(rule, chunks, body, w);
    AddSentencesStep(Rules(rule, WeighSentenceAndStop), Chunking(chunks, body + " "), [w] + rest, 2);
    assert ([w] + rest)[1..] == rest;
  }

  /** The second of those words closes the chunk of the first. */
  lemma WeighStopSecond(rule: CloseRule, a: string, b: string, c: string)
    requires IsWord(a) && |a| == 2 && |b| == 4
    ensures AddSentences(Rules(rule, WeighSentenceAndStop), Chunking([], (a + ".") + " "), [b, c], 2)
         == AddSentences(Rules(rule, WeighSentenceAndStop), Chunking([a + "."], (b + ".") + " "), [c], 2)
  {
    var a' := a + ".";
    assert a'[0] == a[0] && a'[|a'| - 1] == '.';
    StopClosesFold(rule, [], a', b, [c]);
    assert [b] + [c] == [b, c] && [] + [a'] == [a'];
  }

  /** The third of those words closes the chunk of the second. */
  lemma WeighStopThird(rule: CloseRule, a: string, b: string, c: string)
    requires IsWord(b) && |b| == 4 && |c| == 1
    ensures AddSentences(Rules(rule, WeighSentenceAndStop), Chunking([a + "."], (b + ".") + " "), [c], 2)
         == Chunking([a + ".", b + "."], (c + ".") + " ")
  {
    var b' := b + ".";
    assert b'[0] == b[0] && b'[|b'| - 1] == '.';
    StopClosesFold(rule, [a + "."], b', c, []);
    assert [c] + [] == [c] && [a + "."] + [b'] == [a + ".", b'];
  }

  /** The same words, each weighed with its full stop: three chunks. */
  lemma WeighStopFold(rule: CloseRule, a: string, b: string, c: string)
    requires IsWord(a) && IsWord(b) && IsWord(c) && |a| == 2 && |b| == 4 && |c| == 1
    ensures AddSentences(Rules(rule, WeighSentenceAndStop), Chunking([], ""), [a, b, c], 2)
         == Chunking([a + ".", b + "."], (c + ".") + " ")
  {
    StopOpensFold(rule, a, [b, c]);
    assert [a] + [b, c] == [a, b, c];
    WeighStopSecond(rule, a, b, c);
    WeighStopThird(rule, a, b, c);
  }

  /** The finished fold over one over-budget paragraph of three words. */
  lemma ThreeWordChunks(rules: Rules, a: string, b: string, c: string, chunks: seq<string>, last: string)
    requires IsWord(a) && IsWord(b) && IsWord(c) && |a| == 2 && |b| == 4 && |c| == 1
    requires AddSentences(rules, Chunking([], ""), [a, b, c], 2) == Chunking(chunks, last + " ")
    requires IsTrimmed(last) && last != ""
    ensures ChunkWith(rules, a + ". " + b + ". " + c, 2) == chunks + [last]
  {
    var t := a + ". " + b + ". " + c;
    ThreeWordText(a, b, c);
    SentencePathFold(rules, t, 2);
    TrimOfPadded(last, " ");
    OverBudgetChunks(rules, t, 2);
  }

  /** Every sentence of the example texts fits the budget of two tokens
      with its full stop. */
  lemma ThreeWordsFitWithStop(a: string, b: string, c: string)
    requires IsWord(a) && IsWord(b) && IsWord(c) && |a| == 2 && |b| == 4 && |c| == 1
    ensures var t := a + ". " + b + ". " + c;
            forall j :: 0 <= j < |Sentences(t)| ==> EstimateTokenCount(Sentences(t)[j] + ".") <= 2
  {
    ThreeWordText(a, b, c);
  }

  /** As written, the sentence path can exceed the budget although every
      sentence fits it with its full stop (`ThreeWordsFitWithStop`): at two
      tokens, two words of two and four characters are weighed at one token
      each and share a chunk of nine characters, three tokens. */
  lemma SentenceStopOverflowsFor(rule: CloseRule, a: string, b: string, c: string)
    requires IsWord(a) && IsWord(b) && IsWord(c) && |a| == 2 && |b| == 4 && |c| == 1
    ensures ChunkWith(Rules(rule, WeighSentence), a + ". " + b + ". " + c, 2) == [a + ". " + b + ".", c + "."]
    ensures EstimateTokenCount(a + ". " + b + ".") == 3
  {
    WeighSentenceFold(rule, a, b, c);
    assert (c + ".")[0] == c[0];
    assert c + ". " == (c + ".") + " ";
    ThreeWordChunks(Rules(rule, WeighSentence), a, b, c, [a + ". " + b + "."], c + ".");
  }

  /** Weighing each sentence with its full stop keeps the same texts within
      the budget: every sentence gets a chunk of its own. */
  lemma SentenceStopCountedFor(rule: CloseRule, a: string, b: string, c: string)
    requires IsWord(a) && IsWord(b) && IsWord(c) && |a| == 2 && |b| == 4 && |c| == 1
    ensures ChunkWith(Rules(rule, WeighSentenceAndStop), a + ". " + b + ". " + c, 2) == [a + ".", b + ".", c + "."]
  {
    WeighStopFold(rule, a, b, c);
    assert (c + ".")[0] == c[0];
    ThreeWordChunks(Rules(rule, WeighSentenceAndStop), a, b, c, [a + ".", b + "."], c + ".");
  }

  /** The example text and its pieces, spelt out. */
  lemma ExampleSpelling()
    ensures "ab" + ". " + "cdef" + ". " + "g" == "ab. cdef. g"
    ensures "ab" + ". " + "cdef" + "." == "ab. cdef."
    ensures "ab" + "." == "ab." && "cdef" + "." == "cdef." && "g" + "." == "g."
  {
  }

  /** `"ab. cdef. g"` at two tokens: as written, the chunks are
      `"ab. cdef."`, three tokens, and `"g."`. */
  lemma SentenceStopOverflows(rule: CloseRule)
    ensures ChunkWith(Rules(rule, WeighSentence), "ab. cdef. g", 2) == ["ab. cdef.", "g."]
    ensures EstimateTokenCount("ab. cdef.") == 3
  {
    SentenceStopOverflowsFor(rule, "ab", "cdef", "g");
    ExampleSpelling();
  }

  /** The same text with the full stop weighed: `"ab."`, `"cdef."`, `"g."`. */
  lemma SentenceStopCounted(rule: CloseRule)
    ensures ChunkWith(Rules(rule, WeighSentenceAndStop), "ab. cdef. g", 2) == ["ab.", "cdef.", "g."]
  {
    SentenceStopCountedFor(rule, "ab", "cdef", "g");
    ExampleSpelling();
  }
}

=== FILE: CourseMaterialsRoute.dfy ===
/** The course-materials routes: the `course_id` filter of the listing with
    its UUID check and defaults, the field selection of an update, and the
    delete that goes on to the database whatever happened to the stored
    file. The services behind the routes are parameters. */
module CourseMaterialsRoute {
  import opened Base
  import opened Strings
  import opened Json

  // The UUID pattern: 8-4-4-4-12 hexadecimal digits, either case.

  predicate AllHex(s: string)
  {
    forall i :: 0 <= i < |s| ==> IsHexDigit(s[i])
  }

  /** `s` is groups of hexadecimal digits of the lengths `lens`, joined by
      single dashes, with nothing before or after. */
  predicate HexGroups(s: string, lens: seq<nat>)
    decreases |lens|
  {
    if |lens| == 0 then false
    else if |lens| == 1 then |s| == lens[0] && AllHex(s)
    else lens[0] < |s| && AllHex(s[..lens[0]]) && s[lens[0]] == '-' && HexGroups(s[lens[0] + 1..], lens[1..])
  }

  const UuidGroups: seq<nat> := [8, 4, 4, 4, 12]

  /** The anchored, case-insensitive UUID pattern of the listing route. */
  predicate IsUuid(s: string)
  {
    HexGroups(s, UuidGroups)
  }

  /** The pieces `p` are hexadecimal groups of the lengths `lens`. */
  predicate GroupsMatch(p: seq<string>, lens: seq<nat>)
  {
    |p| == |lens| && forall i :: 0 <= i < |p| ==> |p[i]| == lens[i] && AllHex(p[i])
  }

  lemma GroupsMatchCons(first: string, q: seq<string>, lens: seq<nat>)
    requires |lens| >= 1
    ensures GroupsMatch([first] + q, lens) <==> |first| == lens[0] && AllHex(first) && GroupsMatch(q, lens[1..])
  {
    var p := [first] + q;
    assert forall i :: 0 <= i < |q| ==> p[i + 1] == q[i];
    if |first| == lens[0] && AllHex(first) && GroupsMatch(q, lens[1..]) {
      forall i | 0 <= i < |p| ensures |p[i]| == lens[i] && AllHex(p[i]) {
        if i > 0 {
          assert p[i] == q[i - 1];
        }
      }
    }
  }

  /** A dash-free string is a single piece. */
  lemma NoDashOnePiece(s: string)
    requires '-' !in s
    ensures SplitOn(s, '-') == [s]
  {
  }

  /** Hexadecimal digits are never dashes. */
  lemma HexHasNoDash(s: string)
    requires AllHex(s)
    ensures '-' !in s
  {
    forall j | 0 <= j < |s| ensures s[j] != '-' { assert IsHexDigit(s[j]); }
  }

  /** When the first group is well formed, the first dash is where it ends. */
  lemma FirstDashEndsGroup(s: string, n: nat)
    requires n < |s| && AllHex(s[..n]) && s[n] == '-'
    ensures '-' in s && FirstIndexOf(s, '-') == n
  {
    HexHasNoDash(s[..n]);
    assert forall j :: 0 <= j < n ==> s[j] == s[..n][j];
  }

  /** The pattern read another way: splitting on '-' gives exactly the
      groups, each all hexadecimal and of its length. */
  lemma {:induction false} GroupsBySplit(s: string, lens: seq<nat>)
    requires |lens| >= 1
    ensures HexGroups(s, lens) <==> GroupsMatch(SplitOn(s, '-'), lens)
    decreases |lens|
  {
    var p := SplitOn(s, '-');
    if |lens| == 1 {
      if AllHex(s) {
        HexHasNoDash(s);
      }
      if '-' !in s {
        NoDashOnePiece(s);
      }
    } else if '-' !in s {
      NoDashOnePiece(s);
    } else {
      var n := lens[0];
      var k := FirstIndexOf(s, '-');
      var rest := SplitOn(s[k + 1..], '-');
      assert p == [s[..k]] + rest;
      GroupsMatchCons(s[..k], rest, lens);
      GroupsBySplit(s[k + 1..], lens[1..]);
      if n < |s| && AllHex(s[..n]) && s[n] == '-' {
        FirstDashEndsGroup(s, n);
      }
    }
  }

  /** `s` and `t` agree, position by position, on which characters are
      hexadecimal digits and which are dashes. */
  predicate SameClasses(s: string, t: string)
  {
    |s| == |t| && forall i :: 0 <= i < |s| ==> (IsHexDigit(s[i]) <==> IsHexDigit(t[i])) && (s[i] == '-' <==> t[i] == '-')
  }

  lemma {:induction false} GroupsOfSameClasses(s: string, t: string, lens: seq<nat>)
    requires SameClasses(s, t)
    ensures HexGroups(s, lens) <==> HexGroups(t, lens)
    decreases |lens|
  {
    if |lens| > 1 && lens[0] < |s| {
      var n := lens[0];
      assert AllHex(s[..n]) <==> AllHex(t[..n]) by {
        assert forall j :: 0 <= j < n ==> s[..n][j] == s[j] && t[..n][j] == t[j];
      }
      var s', t' := s[n + 1..], t[n + 1..];
      assert SameClasses(s', t') by {
        assert forall j :: 0 <= j < |s'| ==> s'[j] == s[n + 1 + j] && t'[j] == t[n + 1 + j];
      }
      GroupsOfSameClasses(s', t', lens[1..]);
    }
  }

  /** The pattern ignores letter case. */
  lemma UuidIgnoresCase(s: string)
    ensures IsUuid(ToLowerAscii(s)) <==> IsUuid(s)
  {
    GroupsOfSameClasses(s, ToLowerAscii(s), UuidGroups);
  }

  /** A UUID is 36 characters long. */
  lemma {:induction false} GroupsLength(s: string, lens: seq<nat>)
    requires HexGroups(s, lens)
    ensures |s| == Sum(lens) + |lens| - 1
    decreases |lens|
  {
    if |lens| > 1 {
      GroupsLength(s[lens[0] + 1..], lens[1..]);
    }
  }

  function Sum(xs: seq<nat>): nat
  {
    if |xs| == 0 then 0 else xs[0] + Sum(xs[1..])
  }

  lemma UuidLength(s: string)
    requires IsUuid(s)
    ensures |s| == 36
  {
    GroupsLength(s, UuidGroups);
  }

  // Listing

  /** What the `course_id` query value asks for. */
  datatype CourseFilter = NoFilter | ByCourse(id: string) | BadCourseId

  /** `''` and `null` count as absent; any other value must be a string
      matching the UUID pattern. */
  function FilterOf(v: Option<Json>): (f: CourseFilter)
    ensures f == NoFilter <==> v.None? || v == Some(JNull) || v == Some(JString(""))
    ensures f.ByCourse? <==> v.Some? && v.value.JString? && IsUuid(v.value.s)
    ensures f.ByCourse? ==> v == Some(JString(f.id))
  {
    match v
    case None => NoFilter
    case Some(JNull) => NoFilter
    case Some(JString(s)) =>
      if s == "" then NoFilter
      else if IsUuid(s) then ByCourse(s)
      else BadCourseId
    case Some(_) => BadCourseId
  }

  /** The listing request's query values; `None` is an absent parameter. */
  datatype ListRequest = ListRequest(courseId: Option<Json>, limit: Option<string>, offset: Option<string>,
                                     orderBy: Option<string>, orderDirection: Option<string>)

  /** The options handed to the material service. A paging value is `None`
      when the parameter is absent, and `Some(None)` when it does not parse
      (NaN). */
  datatype MaterialListOptions = MaterialListOptions(limit: Option<Option<int>>, offset: Option<Option<int>>,
                                                     orderBy: string, orderDirection: string, courseId: Option<string>)

  predicate Given(v: Option<string>)
  {
    v.Some? && v.value != ""
  }

  function Paging(v: Option<string>): (r: Option<Option<int>>)
    ensures r.None? <==> !Given(v)
  {
    if Given(v) then Some(ParseInt(v.value)) else None
  }

  function OptionsOf(req: ListRequest, courseId: Option<string>): (o: MaterialListOptions)
    ensures o.orderBy == "created_at" <==> !Given(req.orderBy) || req.orderBy.value == "created_at"
    ensures o.orderDirection == "desc" <==> !Given(req.orderDirection) || req.orderDirection.value == "desc"
    ensures Given(req.orderBy) ==> o.orderBy == req.orderBy.value
    ensures Given(req.orderDirection) ==> o.orderDirection == req.orderDirection.value
    ensures o.courseId == courseId
    ensures Given(req.limit) ==> o.limit == Some(ParseInt(req.limit.value))
    ensures o.limit == Paging(req.limit) && o.offset == Paging(req.offset)
    ensures o.limit.None? <==> !Given(req.limit)
    ensures o.offset.None? <==> !Given(req.offset)
    ensures Given(req.offset) ==> o.offset == Some(ParseInt(req.offset.value))
  {
    MaterialListOptions(Paging(req.limit), Paging(req.offset),
                        if Given(req.orderBy) then req.orderBy.value else "created_at",
                        if Given(req.orderDirection) then req.orderDirection.value else "desc",
                        courseId)
  }

  /** A stored material, as far as the routes read it. */
  datatype StoredMaterial = StoredMaterial(id: string, filePath: string, originalFilename: string)

  /** A listed material with its download link (`null` when signing gave
      none). */
  datatype ListedMaterial = ListedMaterial(material: StoredMaterial, downloadUrl: Option<string>)

  datatype ListResponse =
    | ListFailure(status: nat, error: string, message: string)
    | Listed(materials: seq<ListedMaterial>, count: nat)

  const BadCourseIdMessage: string := "Invalid course_id format. Must be a valid UUID."

  /** `urlData?.url || null`. */
  function UrlOrNull(u: Option<string>): (r: Option<string>)
    ensures r.Some? <==> Given(u)
    ensures r.Some? ==> r == u
  {
    if Given(u) then u else None
  }

  /** The listing handler. `fetch` is the material service, `sign` the
      signed-link service (a link, or nothing on error). */
  function HandleList(req: ListRequest, fetch: MaterialListOptions -> Result<seq<StoredMaterial>, string>,
                      sign: string -> Option<string>): (r: ListResponse)
    ensures FilterOf(req.courseId) == BadCourseId <==> r == ListFailure(400, "Validation error", BadCourseIdMessage)
    ensures r.Listed? ==>
              && FilterOf(req.courseId) != BadCourseId
              && var o := OptionsOf(req, if FilterOf(req.courseId).ByCourse? then Some(FilterOf(req.courseId).id) else None);
                 && fetch(o).Ok?
                 && r.count == |r.materials| == |fetch(o).value|
                 && forall i :: 0 <= i < r.count ==>
                      r.materials[i].material == fetch(o).value[i]
                      && r.materials[i].downloadUrl == UrlOrNull(sign(fetch(o).value[i].filePath))
    ensures FilterOf(req.courseId) != BadCourseId ==>
              var o := OptionsOf(req, if FilterOf(req.courseId).ByCourse? then Some(FilterOf(req.courseId).id) else None);
              && (fetch(o).Ok? ==> r.Listed?)
              && (fetch(o).Err? && fetch(o).error != "" ==>
                    r == ListFailure(400, "Failed to fetch course materials", fetch(o).error))
              && (fetch(o) == Err("") ==> r == ListFailure(500, "Internal server error", "Failed to fetch course materials"))
  {
    match FilterOf(req.courseId)
    case BadCourseId => ListFailure(400, "Validation error", BadCourseIdMessage)
    case NoFilter => ListWith(req, None, fetch, sign)
    case ByCourse(id) => ListWith(req, Some(id), fetch, sign)
  }

  function ListWith(req: ListRequest, courseId: Option<string>,
                    fetch: MaterialListOptions -> Result<seq<StoredMaterial>, string>,
                    sign: string -> Option<string>): (r: ListResponse)
    ensures r != ListFailure(400, "Validation error", BadCourseIdMessage)
    ensures r.Listed? ==>
              && fetch(OptionsOf(req, courseId)).Ok?
              && var ms := fetch(OptionsOf(req, courseId)).value;
                 && r.count == |r.materials| == |ms|
                 && forall i :: 0 <= i < r.count ==>
                      r.materials[i].material == ms[i] && r.materials[i].downloadUrl == UrlOrNull(sign(ms[i].filePath))
    ensures fetch(OptionsOf(req, courseId)).Ok? ==> r.Listed?
    ensures fetch(OptionsOf(req, courseId)).Err? ==>
              var e := fetch(OptionsOf(req, courseId)).error;
              r == (if e != "" then ListFailure(400, "Failed to fetch course materials", e)
                    else ListFailure(500, "Internal server error", "Failed to fetch course materials"))
  {
    match fetch(OptionsOf(req, courseId))
    case Err(e) =>
      if e != "" then ListFailure(400, "Failed to fetch course materials", e)
      // A falsy error with no data: mapping over it throws.
      else ListFailure(500, "Internal server error", "Failed to fetch course materials")
    case Ok(ms) =>
      var listed := seq(|ms|, i requires 0 <= i < |ms| => ListedMaterial(ms[i], UrlOrNull(sign(ms[i].filePath))));
      Listed(listed, |listed|)
  }

  /** An empty or null `course_id` lists exactly as if it were absent. */
  lemma BlankCourseIdIsAbsent(req: ListRequest, fetch: MaterialListOptions -> Result<seq<StoredMaterial>, string>,
                              sign: string -> Option<string>)
    requires req.courseId == Some(JNull) || req.courseId == Some(JString(""))
    ensures HandleList(req, fetch, sign) == HandleList(req.(courseId := None), fetch, sign)
  {
  }

  /** A malformed `course_id` is refused before the service is asked. */
  lemma BadCourseIdBeforeFetch(req: ListRequest, fetch1: MaterialListOptions -> Result<seq<StoredMaterial>, string>,
                               fetch2: MaterialListOptions -> Result<seq<StoredMaterial>, string>,
                               sign: string -> Option<string>)
    requires req.courseId.Some? && req.courseId.value.JString? && req.courseId.value.s != ""
    requires !IsUuid(req.courseId.value.s)
    ensures HandleList(req, fetch1, sign) == HandleList(req, fetch2, sign)
    ensures HandleList(req, fetch1, sign).ListFailure? && HandleList(req, fetch1, sign).status == 400
  {
  }

  /** A well-formed `course_id` in upper case is accepted like its lower-case
      spelling. */
  lemma UpperCaseCourseIdAccepted(req: ListRequest, fetch: MaterialListOptions -> Result<seq<StoredMaterial>, string>,
                                  sign: string -> Option<string>)
    requires req.courseId.Some? && req.courseId.value.JString?
    requires IsUuid(ToLowerAscii(req.courseId.value.s))
    ensures HandleList(req, fetch, sign) != ListFailure(400, "Validation error", BadCourseIdMessage)
  {
    UuidIgnoresCase(req.courseId.value.s);
  }

  /** With no ordering parameters the service is asked for the newest first
      by creation time. */
  lemma ListDefaults(req: ListRequest, courseId: Option<string>)
    requires !Given(req.orderBy) && !Given(req.orderDirection) && !Given(req.limit) && !Given(req.offset)
    ensures OptionsOf(req, courseId) == MaterialListOptions(None, None, "created_at", "desc", courseId)
  {
  }

  // Update

  /** The update body's three fields; `None` is `undefined`. */
  datatype UpdateBody = UpdateBody(filename: Option<Json>, originalFilename: Option<Json>, extractedText: Option<Json>)

  const AtLeastOneField: string := "At least one field must be provided"

  const NotFoundOrUnauthorized: string := "Course material not found or unauthorized"

  /** The request is refused when neither name is truthy and no text was
      sent (a text of `null` or `""` counts as sent). */
  predicate NothingToUpdate(b: UpdateBody)
  {
    !Truthy(b.filename) && !Truthy(b.originalFilename) && b.extractedText.None?
  }

  /** The `updates` object: every field that is not `undefined`, under its
      column name. */
  function UpdatesOf(b: UpdateBody): (u: map<string, Json>)
    ensures "filename" in u <==> b.filename.Some?
    ensures "original_filename" in u <==> b.originalFilename.Some?
    ensures "extracted_text" in u <==> b.extractedText.Some?
    ensures b.filename.Some? ==> u["filename"] == b.filename.value
    ensures b.originalFilename.Some? ==> u["original_filename"] == b.originalFilename.value
    ensures b.extractedText.Some? ==> u["extracted_text"] == b.extractedText.value
    ensures forall k :: k in u ==> k == "filename" || k == "original_filename" || k == "extracted_text"
  {
    var u0: map<string, Json> := map[];
    var u1 := if b.filename.Some? then u0["filename" := b.filename.value] else u0;
    var u2 := if b.originalFilename.Some? then u1["original_filename" := b.originalFilename.value] else u1;
    if b.extractedText.Some? then u2["extracted_text" := b.extractedText.value] else u2
  }

  /** Reads the sent fields back out of an `updates` object. */
  function BodyOf(u: map<string, Json>): (b: UpdateBody)
    ensures b.filename.Some? <==> "filename" in u
    ensures b.originalFilename.Some? <==> "original_filename" in u
    ensures b.extractedText.Some? <==> "extracted_text" in u
  {
    UpdateBody(if "filename" in u then Some(u["filename"]) else None,
               if "original_filename" in u then Some(u["original_filename"]) else None,
               if "extracted_text" in u then Some(u["extracted_text"]) else None)
  }

  /** The service is handed exactly what the client sent: the body can be
      read back from the `updates` object, and only its keys occur in it. */
  lemma {:induction false} UpdatesOfRoundTrip(b: UpdateBody)
    ensures BodyOf(UpdatesOf(b)) == b
    ensures UpdatesOf(BodyOf(UpdatesOf(b))) == UpdatesOf(b)
  {
  }

  datatype UpdateResponse =
    | UpdateFailure(status: nat, error: string, message: string)
    | Updated(material: Json)

  /** The update handler; `update` is the material service, answering the
      stored row or an error. */
  function HandleUpdate(body: UpdateBody, update: map<string, Json> -> Result<Json, string>): (r: UpdateResponse)
    ensures NothingToUpdate(body) <==> r == UpdateFailure(400, "Validation error", AtLeastOneField)
    ensures r.Updated? ==> !NothingToUpdate(body) && update(UpdatesOf(body)) in {Ok(r.material), Err("")}
    ensures r.UpdateFailure? && r.status == 404 ==> update(UpdatesOf(body)) == Err(NotFoundOrUnauthorized)
    ensures !NothingToUpdate(body) && update(UpdatesOf(body)).Err? && update(UpdatesOf(body)).error != "" ==>
              r.UpdateFailure? && r.message == update(UpdatesOf(body)).error
    ensures !NothingToUpdate(body) && update(UpdatesOf(body)).Ok? ==> r == Updated(update(UpdatesOf(body)).value)
    ensures !NothingToUpdate(body) && update(UpdatesOf(body)).Err? ==>
              var e := update(UpdatesOf(body)).error;
              && (e == NotFoundOrUnauthorized ==> r == UpdateFailure(404, "Not found", e))
              && (e != NotFoundOrUnauthorized && e != "" ==> r == UpdateFailure(400, "Failed to update course material", e))
  {
    if NothingToUpdate(body) then UpdateFailure(400, "Validation error", AtLeastOneField)
    else
      match update(UpdatesOf(body))
      case Err(e) =>
        if e == NotFoundOrUnauthorized then UpdateFailure(404, "Not found", e)
        else if e != "" then UpdateFailure(400, "Failed to update course material", e)
        // A falsy error reads as success; the service's data is then null.
        else Updated(JNull)
      case Ok(row) => Updated(row)
  }

  /** A name sent as `null` or `""` is still written when the text is sent. */
  lemma BlankNameSentWithText(text: Json)
    ensures var b := UpdateBody(Some(JNull), Some(JString("")), Some(text));
            && !NothingToUpdate(b)
            && UpdatesOf(b) == map["filename" := JNull, "original_filename" := JString(""), "extracted_text" := text]
  {
    var b := UpdateBody(Some(JNull), Some(JString("")), Some(text));
    var u := UpdatesOf(b);
    var m := map["filename" := JNull, "original_filename" := JString(""), "extracted_text" := text];
    assert u.Keys == m.Keys;
  }

  // Delete

  datatype DeleteResponse =
    | DeleteFailure(status: nat, error: string, message: string)
    | Deleted

  /** The delete handler. `lookup` is the material fetch, `storageDeleted`
      whether removing the stored file worked, and `dbError` the database
      delete's error (`None` when it succeeded). */
  function HandleDelete(lookup: Result<StoredMaterial, string>, storageDeleted: bool, dbError: Option<string>): (r: DeleteResponse)
    ensures r == Deleted <==> lookup.Ok? && dbError.None?
    ensures lookup == Err("Course material not found") ==> r == DeleteFailure(404, "Not found", "Course material not found")
    ensures lookup.Ok? && dbError.Some? ==>
              r == (if dbError.value != "" then DeleteFailure(400, "Failed to delete course material", dbError.value)
                    else DeleteFailure(404, "Not found", NotFoundOrUnauthorized))
  {
    match lookup
    case Err(e) =>
      if e == "Course material not found" then DeleteFailure(404, "Not found", e)
      else if e != "" then DeleteFailure(400, "Failed to fetch course material", e)
      // A falsy error with no material: reading its path throws.
      else DeleteFailure(500, "Internal server error", "Failed to delete course material")
    case Ok(material) =>
      // The storage result is only logged.
      match dbError
      case Some(e) =>
        if e != "" then DeleteFailure(400, "Failed to delete course material", e)
        else DeleteFailure(404, "Not found", NotFoundOrUnauthorized)
      case None => Deleted
  }

  /** A failed removal of the stored file does not stop the database delete
      nor change the answer. */
  lemma StorageFailureIgnored(lookup: Result<StoredMaterial, string>, dbError: Option<string>)
    ensures HandleDelete(lookup, false, dbError) == HandleDelete(lookup, true, dbError)
  {
  }
}

=== FILE: CreateQuizDialog.dfy ===
/** The dialog that picks course materials and asks the backend to generate
    a quiz from them: the selection it keeps, the request it sends and what
    it shows for each reply. Rendering, the spinner flags and the callbacks'
    own effects are left out. */
module CreateQuizDialog {
  import opened Base
  import opened Json
  import GenerateRoute

  predicate NoDuplicates<T(==)>(s: seq<T>)
  {
    forall i, j :: 0 <= i < j < |s| ==> s[i] != s[j]
  }

  /** The dialog's state: the ids of the course's materials, the ids picked
      so far (in the order they were picked) and the error on show. */
  datatype Dialog = Dialog(materials: seq<string>, selected: seq<string>, error: Option<Json>)

  const LoadFailedMessage: string := "Failed to load course materials"
  const NoSelectionMessage: string := "Please select at least one material"
  const GenerateFailedMessage: string := "Failed to generate quiz"
  const GenerateThrewMessage: string := "Failed to generate quiz. Please try again."

  // Opening, closing and loading

  /** Opening the dialog for a course starts loading its materials (see
      `Loaded`); closing it, or having no course, clears the selection and
      the error. */
  function OpenChanged(d: Dialog, open: bool, courseId: string): (r: Dialog)
    ensures r.error == None
    ensures r.materials == d.materials
    ensures open && courseId != "" ==> r.selected == d.selected
    ensures !(open && courseId != "") ==> r.selected == []
  {
    if open && courseId != "" then d.(error := None) else d.(selected := [], error := None)
  }

  /** The listing came back: `Err` when the request threw, `Ok(None)` when
      the reply had no `materials`. */
  function Loaded(d: Dialog, fetched: Result<Option<seq<string>>, string>): (r: Dialog)
    ensures r.selected == d.selected
    ensures fetched.Err? ==> r == d.(error := Some(JString(LoadFailedMessage)))
    ensures fetched.Ok? ==> r.error == None
    ensures fetched.Ok? ==> r.materials == (if fetched.value.Some? then fetched.value.value else [])
  {
    match fetched
    case Err(_) => d.(error := Some(JString(LoadFailedMessage)))
    case Ok(None) => d.(materials := [], error := None)
    case Ok(Some(ms)) => d.(materials := ms, error := None)
  }

  // Selection

  /** Filtering keeps distinct elements distinct. */
  lemma {:induction false} FilterKeepsDistinct<T>(s: seq<T>, p: T -> bool)
    requires NoDuplicates(s)
    ensures NoDuplicates(Filter(s, p))
    decreases |s|
  {
    if |s| > 0 {
      var init := s[..|s| - 1];
      assert NoDuplicates(init);
      FilterKeepsDistinct(init, p);
      assert s[|s| - 1] !in init;
    }
  }

  /** Clicking a material: an id already picked is removed, any other id is
      appended. */
  function Toggle(selected: seq<string>, id: string): (r: seq<string>)
    ensures id in r <==> id !in selected
    ensures forall x :: x != id ==> (x in r <==> x in selected)
    ensures NoDuplicates(selected) ==> NoDuplicates(r)
    ensures id !in selected ==> r == selected + [id]
  {
    if id in selected then
      if NoDuplicates(selected) then FilterKeepsDistinct(selected, x => x != id); Filter(selected, x => x != id)
      else Filter(selected, x => x != id)
    else selected + [id]
  }

  /** Picking an id and then clicking it again restores the selection. */
  lemma ToggleTwice(selected: seq<string>, id: string)
    requires id !in selected
    ensures Toggle(Toggle(selected, id), id) == selected
  {
    var t := selected + [id];
    assert t[..|t| - 1] == selected;
    FilterKeepsAll(selected, x => x != id);
  }

  /** "Select all": when as many ids are picked as there are materials,
      everything is cleared; otherwise every material is picked, in listing
      order. */
  function SelectAll(d: Dialog): (r: Dialog)
    ensures r.materials == d.materials && r.error == d.error
    ensures |d.selected| == |d.materials| ==> r.selected == []
    ensures |d.selected| != |d.materials| ==> r.selected == d.materials
  {
    if |d.selected| == |d.materials| then d.(selected := []) else d.(selected := d.materials)
  }

  function AsSet(s: seq<string>): set<string>
  {
    set x | x in s
  }

  lemma {:induction false} DistinctSetSize(s: seq<string>)
    requires NoDuplicates(s)
    ensures |AsSet(s)| == |s|
    decreases |s|
  {
    if |s| > 0 {
      var init := s[..|s| - 1];
      DistinctSetSize(init);
      assert s[|s| - 1] !in init;
      assert AsSet(s) == AsSet(init) + {s[|s| - 1]};
    }
  }

  /** Comparing lengths decides "everything is picked" when the selection
      holds distinct listed ids and the listing has no repeated id: the
      button then clears a full selection and fills any other. */
  lemma SelectAllClearsExactlyFull(d: Dialog)
    requires NoDuplicates(d.materials) && NoDuplicates(d.selected)
    requires forall x :: x in d.selected ==> x in d.materials
    ensures SelectAll(d).selected == [] <==> forall m :: m in d.materials ==> m in d.selected
  {
    DistinctSetSize(d.materials);
    DistinctSetSize(d.selected);
    assert AsSet(d.selected) <= AsSet(d.materials);
    SubsetSize(AsSet(d.selected), AsSet(d.materials));
    if forall m :: m in d.materials ==> m in d.selected {
      assert AsSet(d.materials) <= AsSet(d.selected);
      assert AsSet(d.selected) == AsSet(d.materials);
    }
    if |d.selected| == |d.materials| {
      assert AsSet(d.selected) == AsSet(d.materials);
      assert forall m :: m in d.materials ==> m in AsSet(d.selected);
    }
  }

  /** When ids may repeat, equal lengths do not mean everything is picked. */
  lemma SelectAllCountsDuplicates()
    ensures var d := Dialog(["a", "b"], ["a", "a"], None);
            SelectAll(d).selected == [] && "b" !in d.selected
  {
  }

  // Generating

  /** The Generate button: with nothing picked, the error is shown and no
      request is sent; otherwise the body carries the course and the ids in
      the order they were picked. */
  function GenerateRequest(d: Dialog, courseId: string): (r: Result<GenerateRoute.Request, string>)
    ensures r.Err? <==> d.selected == []
    ensures r.Err? ==> r.error == NoSelectionMessage
    ensures r.Ok? ==> r.value.courseId == courseId && r.value.materialIds == GenerateRoute.Ids(d.selected)
  {
    if |d.selected| == 0 then Err(NoSelectionMessage)
    else Ok(GenerateRoute.Request(courseId, GenerateRoute.Ids(d.selected)))
  }

  /** Every request the dialog sends for an open course passes the route's
      field checks when the server has its API key. */
  lemma RequestPassesValidation(d: Dialog, courseId: string, apiKey: string)
    requires courseId != "" && apiKey != ""
    requires GenerateRequest(d, courseId).Ok?
    ensures GenerateRoute.Validate(apiKey, GenerateRequest(d, courseId).value).None?
  {
  }

  /** What the dialog does with an answer. */
  datatype Shown = Generated(quiz: Json) | ShowError(message: Json)

  /** A 2xx reply: the quiz is handed on only when both `success` and `quiz`
      are truthy; otherwise `message`, or the fallback text, is shown. */
  function OnReply(body: Json): (r: Shown)
    ensures r.Generated? <==> Truthy(Get(body, "success")) && Truthy(Get(body, "quiz"))
    ensures r.Generated? ==> r.quiz == Get(body, "quiz").value
    ensures r.ShowError? && Truthy(Get(body, "message")) ==> r.message == Get(body, "message").value
    ensures r.ShowError? && !Truthy(Get(body, "message")) ==> r.message == JString(GenerateFailedMessage)
  {
    if Truthy(Get(body, "success")) && Truthy(Get(body, "quiz")) then Generated(Get(body, "quiz").value)
    else if Truthy(Get(body, "message")) then ShowError(Get(body, "message").value)
    else ShowError(JString(GenerateFailedMessage))
  }

  /** The request threw: the reply's `message`, else its `error`, else the
      exception's own message, else the fallback text. `data` is `None` when
      no reply arrived. */
  function OnThrow(data: Option<Json>, thrown: string): (r: Json)
    ensures data.Some? && Truthy(Get(data.value, "message")) ==> r == Get(data.value, "message").value
    ensures data.Some? && !Truthy(Get(data.value, "message")) && Truthy(Get(data.value, "error")) ==>
              r == Get(data.value, "error").value
    ensures (data.None? || (!Truthy(Get(data.value, "message")) && !Truthy(Get(data.value, "error")))) ==>
              r == JString(if thrown != "" then thrown else GenerateThrewMessage)
    ensures r != JString("")
  {
    if data.Some? && Truthy(Get(data.value, "message")) then Get(data.value, "message").value
    else if data.Some? && Truthy(Get(data.value, "error")) then Get(data.value, "error").value
    else if thrown != "" then JString(thrown)
    else JString(GenerateThrewMessage)
  }

  /** The JSON body the route sends. The stored quiz row is an object whose
      columns other than the title are not part of this model. */
  function RouteBody(resp: GenerateRoute.Response): Json
  {
    match resp
    case Failure(_, error, message, _) =>
      JObject(map["error" := JString(error), "message" := JString(message)])
    case Created(title, _, _) =>
      JObject(map["success" := JBool(true), "quiz" := JObject(map["title" := JString(title)]),
                  "message" := JString("Quiz generated successfully")])
  }

  /** End to end: a created quiz is handed on, and a refused request shows the
      route's own message (the client throws on every non-2xx status). */
  lemma DialogFollowsRoute(resp: GenerateRoute.Response, thrown: string)
    ensures resp.Created? ==> OnReply(RouteBody(resp)).Generated?
    ensures resp.Failure? && resp.message != "" ==> OnThrow(Some(RouteBody(resp)), thrown) == JString(resp.message)
    ensures resp.Failure? && resp.message == "" && resp.error != "" ==>
              OnThrow(Some(RouteBody(resp)), thrown) == JString(resp.error)
  {
    var b := RouteBody(resp);
    if resp.Failure? {
      assert Get(b, "message") == Some(JString(resp.message));
      assert Get(b, "error") == Some(JString(resp.error));
    } else {
      assert Get(b, "success") == Some(JBool(true));
      assert Get(b, "quiz").Some?;
    }
  }

  /** The full click on Generate: the guard, then the reply (`Ok`) or the
      thrown request (`Err` with the reply body, if any, and the exception's
      message). */
  function Generate(d: Dialog, courseId: string, answer: Result<Json, (Option<Json>, string)>): (r: (Dialog, Option<Json>))
    ensures d.selected == [] ==> r == (d.(error := Some(JString(NoSelectionMessage))), None)
    ensures r.1.Some? <==> d.selected != [] && answer.Ok? && OnReply(answer.value).Generated?
    ensures r.1.Some? ==> r.0 == d.(error := None)
    ensures r.0.selected == d.selected && r.0.materials == d.materials
  {
    if GenerateRequest(d, courseId).Err? then (d.(error := Some(JString(NoSelectionMessage))), None)
    else match answer
      case Ok(body) =>
        (match OnReply(body)
         case Generated(quiz) => (d.(error := None), Some(quiz))
         case ShowError(m) => (d.(error := Some(m)), None))
      case Err((data, thrown)) => (d.(error := Some(OnThrow(data, thrown))), None)
  }
}

=== FILE: ExtractedTextService.dfy ===
/** The stored extraction of a course material: the word count kept beside
    the text, and the rows `createExtractedText` and `updateExtractedText`
    write. The database calls are left out. */
module ExtractedTextService {
  import opened Base
  import opened Strings

  /** Index of the first white-space character at or after `i`, or `|s|`. */
  function FirstWhitespaceFrom(s: string, i: nat): (k: nat)
    requires i <= |s|
    ensures i <= k <= |s|
    ensures forall j :: i <= j < k ==> !IsWhitespace(s[j])
    ensures k == |s| || IsWhitespace(s[k])
    decreases |s| - i
  {
    if i == |s| || IsWhitespace(s[i]) then i else FirstWhitespaceFrom(s, i + 1)
  }

  /** `s.split(/\s+/)`: the pieces between maximal runs of white space; a
      leading or trailing run gives an empty piece at that end. */
  function SplitOnWhitespace(s: string): (parts: seq<string>)
    ensures |parts| >= 1
    ensures forall i :: 0 <= i < |parts| ==> forall j :: 0 <= j < |parts[i]| ==> !IsWhitespace(parts[i][j])
    decreases |s|
  {
    var k := FirstWhitespaceFrom(s, 0);
    if k == |s| then [s]
    else [s[..k]] + SplitOnWhitespace(s[WhitespaceRunEnd(s, k)..])
  }

  predicate NonEmpty(w: string) { w != "" }

  /** `calculateWordCount` (the service and the migration script define the
      same function): 0 for the empty string, otherwise the number of
      non-empty pieces of the trimmed text split on white space. */
  function WordCount(text: string): nat
  {
    if text == "" then 0 else |Filter(SplitOnWhitespace(Trim(text)), NonEmpty)|
  }

  /** Word starts in `s`: positions holding a visible character that is first
      or follows white space. `prevBlank` tells whether the character before
      `s` was white space (or there was none). */
  function StartsFrom(s: string, prevBlank: bool): (n: nat)
    ensures n <= |s|
    decreases |s|
  {
    if |s| == 0 then 0
    else (if !IsWhitespace(s[0]) && prevBlank then 1 else 0) + StartsFrom(s[1..], IsWhitespace(s[0]))
  }

  /** The number of maximal runs of visible characters in `s`. */
  function WordStarts(s: string): nat
  {
    StartsFrom(s, true)
  }

  lemma {:induction false} StartsAppend(x: string, y: string, prevBlank: bool)
    ensures StartsFrom(x + y, prevBlank)
            == StartsFrom(x, prevBlank) + StartsFrom(y, if |x| == 0 then prevBlank else IsWhitespace(x[|x| - 1]))
    decreases |x|
  {
    if |x| == 0 {
      assert x + y == y;
    } else {
      assert (x + y)[0] == x[0];
      assert (x + y)[1..] == x[1..] + y;
      StartsAppend(x[1..], y, IsWhitespace(x[0]));
    }
  }

  lemma {:induction false} StartsOfBlank(w: string, prevBlank: bool)
    requires AllWhitespace(w)
    ensures StartsFrom(w, prevBlank) == 0
    decreases |w|
  {
    if |w| > 0 {
      StartsOfBlank(w[1..], true);
    }
  }

  lemma {:induction false} StartsOfWord(w: string, prevBlank: bool)
    requires |w| > 0
    requires forall j :: 0 <= j < |w| ==> !IsWhitespace(w[j])
    ensures StartsFrom(w, prevBlank) == (if prevBlank then 1 else 0)
    decreases |w|
  {
    if |w| > 1 {
      StartsOfWord(w[1..], false);
    }
  }

  /** A word, a run of white space, then the rest: the word counts once
      (if not empty) and the rest starts afresh. */
  lemma WordRunRest(word: string, run: string, rest: string)
    requires forall j :: 0 <= j < |word| ==> !IsWhitespace(word[j])
    requires |run| > 0 && AllWhitespace(run)
    ensures WordStarts(word + run + rest) == (if |word| > 0 then 1 else 0) + WordStarts(rest)
  {
    StartsAppend(word + run, rest, true);
    StartsAppend(word, run, true);
    StartsOfBlank(run, if |word| == 0 then true else IsWhitespace(word[|word| - 1]));
    assert (word + run)[|word + run| - 1] == run[|run| - 1];
    if |word| > 0 {
      StartsOfWord(word, true);
    }
  }

  /** A string with white space in it: the word before the first white
      space, the run of white space, and the rest the split continues on. */
  lemma SplitLayout(s: string) returns (word: string, run: string, rest: string)
    requires FirstWhitespaceFrom(s, 0) < |s|
    ensures s == word + run + rest
    ensures forall j :: 0 <= j < |word| ==> !IsWhitespace(word[j])
    ensures |run| > 0 && AllWhitespace(run)
    ensures SplitOnWhitespace(s) == [word] + SplitOnWhitespace(rest)
    ensures |rest| < |s|
  {
    var k := FirstWhitespaceFrom(s, 0);
    var e := WhitespaceRunEnd(s, k);
    word, run, rest := s[..k], s[k..e], s[e..];
    assert s == s[..k] + s[k..e] + s[e..];
    assert AllWhitespace(run) by {
      assert forall j :: 0 <= j < |run| ==> run[j] == s[k + j];
    }
  }

  /** Counting the non-empty pieces of the split counts the word starts. */
  lemma {:induction false} SplitCountsWords(s: string)
    ensures Count(SplitOnWhitespace(s), NonEmpty) == WordStarts(s)
    decreases |s|
  {
    if FirstWhitespaceFrom(s, 0) == |s| {
      CountPrepend(s, [], NonEmpty);
      assert [s] + [] == [s];
      if |s| > 0 {
        StartsOfWord(s, true);
      }
    } else {
      var word, run, rest := SplitLayout(s);
      SplitCountsWords(rest);
      CountPrepend(word, SplitOnWhitespace(rest), NonEmpty);
      WordRunRest(word, run, rest);
    }
  }

  /** Trimming keeps the number of words. */
  lemma TrimKeepsWordStarts(s: string)
    ensures WordStarts(Trim(s)) == WordStarts(s)
  {
    var lead, tail := TrimPadding(s);
    var mid := Trim(s);
    StartsAppend(lead + mid, tail, true);
    StartsAppend(lead, mid, true);
    StartsOfBlank(lead, true);
    var afterLead := if |lead| == 0 then true else IsWhitespace(lead[|lead| - 1]);
    assert afterLead;
    StartsOfBlank(tail, if |lead + mid| == 0 then true else IsWhitespace((lead + mid)[|lead + mid| - 1]));
  }

  /** The stored word count is the number of maximal runs of visible
      characters. */
  lemma WordCountIsWordStarts(text: string)
    ensures WordCount(text) == WordStarts(text)
  {
    if text != "" {
      SplitCountsWords(Trim(text));
      TrimKeepsWordStarts(text);
    }
  }

  /** No words exactly when there is nothing but white space. */
  lemma {:induction false} NoWordsIffBlank(s: string)
    ensures WordStarts(s) == 0 <==> AllWhitespace(s)
    decreases |s|
  {
    if |s| > 0 {
      NoWordsIffBlank(s[1..]);
      if IsWhitespace(s[0]) {
        assert AllWhitespace(s) <==> AllWhitespace(s[1..]) by {
          assert forall j :: 1 <= j < |s| ==> s[j] == s[1..][j - 1];
        }
      }
    }
  }

  const MissingFields: string := "Missing required fields: materialId, userId, text, and extractionMethod are required"

  /** The row `createExtractedText` inserts. */
  datatype ExtractedTextRow = ExtractedTextRow(materialId: string, userId: string, text: string,
                                               textLength: nat, wordCount: nat, extractionMethod: string)

  /** `createExtractedText`, up to the insert. */
  function CreateExtractedText(materialId: string, userId: string, text: string, extractionMethod: string): (r: Result<ExtractedTextRow, string>)
    ensures r.Ok? <==> materialId != "" && userId != "" && text != "" && extractionMethod != ""
    ensures r.Err? ==> r.error == MissingFields
    ensures r.Ok? ==> && r.value.materialId == materialId && r.value.userId == userId
                      && r.value.text == text && r.value.extractionMethod == extractionMethod
                      && r.value.textLength == |text|
                      && r.value.wordCount == WordStarts(text) <= r.value.textLength
                      && (r.value.wordCount == 0 <==> AllWhitespace(text))
  {
    if materialId == "" || userId == "" || text == "" || extractionMethod == "" then Err(MissingFields)
    else
      WordCountIsWordStarts(text);
      NoWordsIffBlank(text);
      Ok(ExtractedTextRow(materialId, userId, text, |text|, WordCount(text), extractionMethod))
  }

  /** The fields `updateExtractedText` writes. */
  datatype TextUpdate = TextUpdate(text: string, textLength: nat, wordCount: nat, extractionMethod: string)

  /** `updateExtractedText`, up to the update. */
  function UpdateExtractedText(materialId: string, userId: string, text: string, extractionMethod: string): (r: Result<TextUpdate, string>)
    ensures r.Ok? <==> materialId != "" && userId != "" && text != "" && extractionMethod != ""
    ensures r.Err? ==> r.error == MissingFields
    ensures r.Ok? ==> r.value.text == text && r.value.textLength == |text| && r.value.wordCount == WordStarts(text)
  {
    if materialId == "" || userId == "" || text == "" || extractionMethod == "" then Err(MissingFields)
    else
      WordCountIsWordStarts(text);
      Ok(TextUpdate(text, |text|, WordCount(text), extractionMethod))
  }

  /** An update stores the same metadata a creation would. */
  lemma UpdateMatchesCreate(materialId: string, userId: string, text: string, extractionMethod: string)
    ensures UpdateExtractedText(materialId, userId, text, extractionMethod).Ok?
            == CreateExtractedText(materialId, userId, text, extractionMethod).Ok?
    ensures UpdateExtractedText(materialId, userId, text, extractionMethod).Ok? ==>
              var u := UpdateExtractedText(materialId, userId, text, extractionMethod).value;
              var c := CreateExtractedText(materialId, userId, text, extractionMethod).value;
              u == TextUpdate(c.text, c.textLength, c.wordCount, c.extractionMethod)
  {
  }
}

=== FILE: FileParser.dfy ===
/** Text extraction from uploaded files (`extractText` and `normalizeText`
    in the file parser): the choice of extractor by MIME type and then by
    file extension, the normalisation of the raw text, and the error
    results. The extractors themselves (a PDF parser, a file read, a DOCX
    converter) are one parameter that maps a format to the raw text or to
    the message of the exception it raised. */
module FileParser {
  import opened Base
  import opened Strings

  // Normalisation

  /** `s` contains only single spaces as white space, never two in a row. */
  predicate Collapsed(s: string)
  {
    forall i :: 0 <= i < |s| ==>
      (IsWhitespace(s[i]) ==> s[i] == ' ') && (i + 1 < |s| && IsWhitespace(s[i]) ==> !IsWhitespace(s[i + 1]))
  }

  /** `s.replace(/\s+/g, ' ')`: every maximal run of white space becomes one
      space. */
  function CollapseWhitespace(s: string): (r: string)
    ensures Collapsed(r)
    ensures |r| == 0 <==> |s| == 0
    ensures |s| > 0 && !IsWhitespace(s[0]) ==> r[0] == s[0]
    decreases |s|
  {
    if |s| == 0 then ""
    else if IsWhitespace(s[0]) then
      var e := WhitespaceRunEnd(s, 0);
      var rest := CollapseWhitespace(s[e..]);
      assert e < |s| ==> s[e..][0] == s[e];
      " " + rest
    else [s[0]] + CollapseWhitespace(s[1..])
  }

  predicate IsNewline(c: char) { c == '\n' }

  /** Where a match of `/\n\s*\n\s*\n+/` starting at `q` ends: the pattern is
      white space only, so it matches when the white-space run from `q`
      starts with a newline and holds at least three; backtracking then
      settles on the run's last newline as the end. */
  function ParagraphRunEnd(s: string, q: nat): (r: Option<nat>)
    requires q < |s|
    ensures r.Some? ==> s[q] == '\n' && q < r.value <= |s|
    ensures r.Some? ==> forall k :: q <= k < r.value ==> IsWhitespace(s[k])
  {
    if s[q] != '\n' then None
    else
      var e := WhitespaceRunEnd(s, q + 1);
      if Count(s[q + 1..e], IsNewline) >= 2 then AfterLastNewline(s, q + 1, e) else None
  }

  /** `s.slice(from).replace(/\n\s*\n\s*\n+/g, '\n\n')`: leftmost matches,
      scanning on after each one. */
  function ReplaceParagraphRuns(s: string, from: nat): (r: string)
    requires from <= |s|
    ensures '\n' !in s[from..] ==> r == s[from..]
    decreases |s| - from
  {
    if from == |s| then ""
    else
      match ParagraphRunEnd(s, from)
      case Some(e) => "\n\n" + ReplaceParagraphRuns(s, e)
      case None =>
        assert s[from..] == [s[from]] + s[from + 1..];
        [s[from]] + ReplaceParagraphRuns(s, from + 1)
  }

  /** `normalizeText`: collapse white space, rewrite runs of blank lines,
      trim. The result has no newline left, so no paragraph structure
      survives; it has no white space at either end and no two white-space
      characters in a row. */
  function NormalizeText(text: string): (r: string)
    ensures IsTrimmed(r) && Collapsed(r) && '\n' !in r
  {
    if text == "" then ""
    else
      var c := CollapseWhitespace(text);
      assert '\n' !in c;
      var t := ReplaceParagraphRuns(c, 0);
      assert c[0..] == c;
      TrimKeepsCollapsed(t);
      Trim(t)
  }

  /** Trimming keeps a collapsed, newline-free string so. */
  lemma TrimKeepsCollapsed(s: string)
    requires Collapsed(s) && '\n' !in s
    ensures Collapsed(Trim(s)) && '\n' !in Trim(s)
  {
    var a := TrimStartIndex(s);
    var b := TrimEndIndex(s, a);
    var t := s[a..b];
    assert Trim(s) == t;
    assert forall i :: 0 <= i < |t| ==> t[i] == s[a + i];
  }

  /** After the first replacement there is no newline, so the paragraph rule
      never changes anything. */
  lemma ParagraphRuleNeverFires(text: string)
    ensures ReplaceParagraphRuns(CollapseWhitespace(text), 0) == CollapseWhitespace(text)
  {
    assert '\n' !in CollapseWhitespace(text);
  }

  lemma {:induction false} CollapseOfCollapsed(s: string)
    requires Collapsed(s)
    ensures CollapseWhitespace(s) == s
    decreases |s|
  {
    if |s| > 0 {
      assert Collapsed(s[1..]) by {
        forall i | 0 <= i < |s[1..]|
          ensures s[1..][i] == s[i + 1]
        {
        }
      }
      CollapseOfCollapsed(s[1..]);
      if IsWhitespace(s[0]) {
        assert WhitespaceRunEnd(s, 0) == 1 by {
          assert |s| == 1 || !IsWhitespace(s[1]);
          assert WhitespaceRunEnd(s, 1) == 1;
        }
        assert s == " " + s[1..];
      } else {
        assert s == [s[0]] + s[1..];
      }
    }
  }

  /** Normalising twice is normalising once. */
  lemma NormalizeIdempotent(text: string)
    ensures NormalizeText(NormalizeText(text)) == NormalizeText(text)
  {
    var r := NormalizeText(text);
    if r != "" {
      CollapseOfCollapsed(r);
      TrimOfTrimmed(r);
    }
  }

  lemma {:induction false} CollapseKeepsVisible(s: string)
    ensures Visible(CollapseWhitespace(s)) == Visible(s)
    decreases |s|
  {
    if |s| > 0 {
      if IsWhitespace(s[0]) {
        var e := WhitespaceRunEnd(s, 0);
        CollapseKeepsVisible(s[e..]);
        assert s == s[..e] + s[e..];
        VisibleAppend(s[..e], s[e..]);
        VisibleOfWhitespace(s[..e]);
        VisibleAppend(" ", CollapseWhitespace(s[e..]));
      } else {
        CollapseKeepsVisible(s[1..]);
      }
    }
  }

  /** Blank text in front changes nothing visible. */
  lemma VisibleAfterBlank(w: string, rest: string)
    requires AllWhitespace(w)
    ensures Visible(w + rest) == Visible(rest)
  {
    VisibleAppend(w, rest);
    VisibleOfWhitespace(w);
  }

  /** A paragraph run is blank and splits the suffix it starts. */
  lemma RunLayout(s: string, from: nat, e: nat)
    requires from < |s| && ParagraphRunEnd(s, from) == Some(e)
    ensures AllWhitespace(s[from..e])
    ensures s[from..] == s[from..e] + s[e..]
  {
    assert forall k :: 0 <= k < e - from ==> s[from..e][k] == s[from + k];
  }

  /** Replacing a paragraph run by `"\n\n"`. */
  lemma ReplaceRunUnfold(s: string, from: nat, e: nat)
    requires from < |s| && ParagraphRunEnd(s, from) == Some(e)
    ensures ReplaceParagraphRuns(s, from) == "\n\n" + ReplaceParagraphRuns(s, e)
  {
  }

  /** One replaced run: the white space dropped and the `"\n\n"` put in
      its place are both invisible. */
  lemma ReplacedRunKeepsVisible(run: string, rest: string, replacedRest: string)
    requires AllWhitespace(run)
    requires Visible(replacedRest) == Visible(rest)
    ensures Visible("\n\n" + replacedRest) == Visible(run + rest)
  {
    assert AllWhitespace("\n\n");
    VisibleAfterBlank("\n\n", replacedRest);
    VisibleAfterBlank(run, rest);
  }

  /** The paragraph rule replaces white space by white space only. */
  lemma {:induction false} ReplaceKeepsVisible(s: string, from: nat)
    requires from <= |s|
    ensures Visible(ReplaceParagraphRuns(s, from)) == Visible(s[from..])
    decreases |s| - from
  {
    if from < |s| {
      match ParagraphRunEnd(s, from)
      case Some(e) =>
        ReplaceKeepsVisible(s, e);
        RunLayout(s, from, e);
        ReplaceRunUnfold(s, from, e);
        ReplacedRunKeepsVisible(s[from..e], s[e..], ReplaceParagraphRuns(s, e));
      case None =>
        ReplaceKeepsVisible(s, from + 1);
        assert s[from..][1..] == s[from + 1..];
    }
  }

  /** Normalisation only touches white space: the visible characters stay,
      in order. */
  lemma NormalizeKeepsVisible(text: string)
    ensures Visible(NormalizeText(text)) == Visible(text)
  {
    if text != "" {
      CollapseKeepsVisible(text);
      VisibleTrim(CollapseWhitespace(text));
    }
  }

  // Extensions

  function StripTrailingSlashes(p: string): (r: string)
    ensures |r| == 0 || r[|r| - 1] != '/'
    decreases |p|
  {
    if |p| > 0 && p[|p| - 1] == '/' then StripTrailingSlashes(p[..|p| - 1]) else p
  }

  /** The last path component, trailing separators ignored. */
  function LastComponent(p: string): (c: string)
    ensures '/' !in c
  {
    var q := StripTrailingSlashes(p);
    match LastIndexOf(q, '/')
    case Some(k) => q[k + 1..]
    case None => q
  }

  /** Node's POSIX `path.extname`: from the last `.` of the last component to
      its end; empty when the component has no dot, starts with its only
      relevant dot, or is `..`. */
  function Extname(p: string): (e: string)
    ensures e == "" || (e[0] == '.' && '/' !in e && '.' !in e[1..])
  {
    var c := LastComponent(p);
    match LastIndexOf(c, '.')
    case None => ""
    case Some(d) =>
      if d == 0 || c == ".." then ""
      else
        assert forall j :: 0 <= j < |c[d..]| ==> c[d..][j] == c[d + j];
        c[d..]
  }

  /** Behind a directory prefix, the last component of a path is its final
      name. */
  lemma LastComponentOfPath(dir: string, name: string)
    requires dir == "" || dir[|dir| - 1] == '/'
    requires name != "" && '/' !in name
    ensures LastComponent(dir + name) == name
  {
    var p := dir + name;
    assert p[|p| - 1] == name[|name| - 1];
    assert StripTrailingSlashes(p) == p;
    if dir == "" {
      assert p == name;
    } else {
      assert forall j :: |dir| <= j < |p| ==> p[j] == name[j - |dir|];
      LastIndexOfIs(p, '/', |dir| - 1);
      assert p[|dir|..] == name;
    }
  }

  lemma NameLayout(base: string, ext: string)
    requires '/' !in base && '/' !in ext && '.' !in ext
    ensures var name := base + "." + ext;
      && '/' !in name && name[|base|] == '.'
      && (forall j :: |base| < j < |name| ==> name[j] != '.')
      && name[|base|..] == "." + ext
  {
    var name := base + "." + ext;
    assert forall j :: 0 <= j < |name| ==> name[j] == (if j < |base| then base[j] else if j == |base| then '.' else ext[j - |base| - 1]);
    var tail := "." + ext;
    assert name == base + tail;
    assert name[|base|..] == tail;
  }

  /** A name `base.ext` with a dot-free `ext` has extension `.ext`. */
  lemma ExtnameOfName(base: string, ext: string)
    requires base != "" && '/' !in base
    requires ext != "" && '/' !in ext && '.' !in ext
    ensures Extname(base + "." + ext) == "." + ext
  {
    var name := base + "." + ext;
    NameLayout(base, ext);
    LastComponentOfPath("", name);
    assert "" + name == name;
    LastIndexOfIs(name, '.', |base|);
    assert |name| >= 3;
  }

  /** A file name `base.ext` under any directory prefix has extension `.ext`. */
  lemma ExtnameOfFileName(dir: string, base: string, ext: string)
    requires dir == "" || dir[|dir| - 1] == '/'
    requires base != "" && '/' !in base
    requires ext != "" && '/' !in ext && '.' !in ext
    ensures Extname(dir + base + "." + ext) == "." + ext
  {
    var name := base + "." + ext;
    NameLayout(base, ext);
    assert dir + base + "." + ext == dir + name;
    LastComponentOfPath(dir, name);
    LastComponentOfPath("", name);
    assert "" + name == name;
    ExtnameOfSameComponent(dir + name, name);
    ExtnameOfName(base, ext);
  }

  /** The extension depends on the last component only. */
  lemma ExtnameOfSameComponent(p: string, q: string)
    requires LastComponent(p) == LastComponent(q)
    ensures Extname(p) == Extname(q)
  {
  }

  // Dispatch

  datatype Format = Pdf | Txt | Docx

  /** The MIME types recognised exactly. */
  function FormatOfMime(mime: string): Option<Format>
  {
    if mime == "application/pdf" then Some(Pdf)
    else if mime == "text/plain" then Some(Txt)
    else if mime == "application/vnd.openxmlformats-officedocument.wordprocessingml.document" then Some(Docx)
    else None
  }

  /** The lowered extensions recognised when the MIME type is not. */
  function FormatOfExtension(ext: string): Option<Format>
  {
    if ext == ".pdf" then Some(Pdf)
    else if ext == ".txt" then Some(Txt)
    else if ext == ".docx" then Some(Docx)
    else None
  }

  /** The extractor chosen: by MIME type first, then by the lower-cased
      extension of the path. */
  function SelectFormat(path: string, mime: string): (f: Option<Format>)
    ensures FormatOfMime(mime).Some? ==> f == FormatOfMime(mime)
    ensures FormatOfMime(mime).None? ==> f == FormatOfExtension(ToLowerAscii(Extname(path)))
  {
    if FormatOfMime(mime).Some? then FormatOfMime(mime)
    else FormatOfExtension(ToLowerAscii(Extname(path)))
  }

  /** The `extractionMethod` tag recorded for each extractor. */
  function MethodTag(f: Format): string
  {
    match f
    case Pdf => "pdf-parse"
    case Txt => "fs.readFile"
    case Docx => "mammoth"
  }

  /** Prefix each extractor puts on the message of the exception it rethrows. */
  function FailurePrefix(f: Format): string
  {
    match f
    case Pdf => "PDF parsing failed: "
    case Txt => "TXT file reading failed: "
    case Docx => "DOCX parsing failed: "
  }

  /** Why an extraction produced no text. */
  datatype ExtractError =
    | Unsupported
    | NoText
    | Failed(format: Format, message: string)

  /** The `error` string of the result object. */
  function ErrorMessage(e: ExtractError): string
  {
    match e
    case Unsupported => "Unsupported file type. Only PDF, TXT, and DOCX files are supported."
    case NoText => "No text content could be extracted from the file."
    case Failed(f, message) => "Failed to extract text: " + FailurePrefix(f) + message
  }

  /** The result object of `extractText`: `text`, `extractionMethod` (here
      `tag`) and the optional `error`. */
  datatype Extraction = Extraction(text: string, tag: string, error: Option<ExtractError>)

  /** `extractText`, with `read` standing for the three extractors. */
  function ExtractText(path: string, mime: string, read: Format -> Result<string, string>): (r: Extraction)
    ensures SelectFormat(path, mime).None? <==> r.error == Some(Unsupported)
    ensures r.error == Some(Unsupported) ==> r.text == "" && r.tag == ""
    ensures r.error.Some? && r.error.value.Failed? <==>
              SelectFormat(path, mime).Some? && read(SelectFormat(path, mime).value).Err?
    ensures r.error.Some? && r.error.value.Failed? ==>
              && r.error.value == Failed(SelectFormat(path, mime).value, read(SelectFormat(path, mime).value).error)
              && r.text == "" && r.tag == ""
    ensures SelectFormat(path, mime).Some? && read(SelectFormat(path, mime).value).Ok? ==>
              r.tag == MethodTag(SelectFormat(path, mime).value)
    ensures r.error == Some(NoText) <==>
              SelectFormat(path, mime).Some? && read(SelectFormat(path, mime).value).Ok?
              && NormalizeText(read(SelectFormat(path, mime).value).value) == ""
    ensures r.error.Some? ==> r.text == ""
    ensures r.error.None? ==> && r.text != "" && IsTrimmed(r.text) && Collapsed(r.text) && '\n' !in r.text
                              && SelectFormat(path, mime).Some?
                              && read(SelectFormat(path, mime).value).Ok?
                              && r.text == NormalizeText(read(SelectFormat(path, mime).value).value)
  {
    match SelectFormat(path, mime)
    case None => Extraction("", "", Some(Unsupported))
    case Some(f) =>
      match read(f)
      case Err(message) => Extraction("", "", Some(Failed(f, message)))
      case Ok(raw) =>
        var text := NormalizeText(raw);
        if text == "" || Trim(text) == "" then Extraction("", MethodTag(f), Some(NoText))
        else Extraction(text, MethodTag(f), None)
  }

  /** A file of unsupported type is rejected without any extractor running:
      the result does not depend on `read`. */
  lemma UnsupportedIgnoresReader(path: string, mime: string,
                                 read1: Format -> Result<string, string>, read2: Format -> Result<string, string>)
    requires SelectFormat(path, mime).None?
    ensures ExtractText(path, mime, read1) == ExtractText(path, mime, read2)
  {
  }

  /** An exactly matching MIME type decides the format whatever the path. */
  lemma MimeTakesPrecedence(path1: string, path2: string, mime: string, read: Format -> Result<string, string>)
    requires FormatOfMime(mime).Some?
    ensures ExtractText(path1, mime, read) == ExtractText(path2, mime, read)
  {
  }

  /** Without a recognised MIME type, the extension of `dir/base.ext` decides,
      whatever the case of its letters. */
  lemma ExtensionDecides(dir: string, base: string, ext: string, mime: string)
    requires dir == "" || dir[|dir| - 1] == '/'
    requires base != "" && '/' !in base
    requires ext != "" && '/' !in ext && '.' !in ext
    requires FormatOfMime(mime).None?
    ensures SelectFormat(dir + base + "." + ext, mime) == FormatOfExtension("." + ToLowerAscii(ext))
  {
    ExtnameOfFileName(dir, base, ext);
    assert ToLowerAscii("." + ext) == "." + ToLowerAscii(ext);
  }

  lemma LowerPdf()
    ensures "." + ToLowerAscii("PDF") == ".pdf"
  {
    assert ('P' - 'A' + 'a') as char == 'p';
    assert ('D' - 'A' + 'a') as char == 'd';
    assert ('F' - 'A' + 'a') as char == 'f';
    assert "PDF"[1..] == "DF";
    assert "DF"[1..] == "F";
    assert "F"[1..] == "";
    assert ToLowerAscii("PDF") == "pdf";
  }

  /** So a file `notes.PDF` sent as `application/octet-stream` is read as a PDF. */
  lemma UpperCaseExtensionRecognised(dir: string)
    requires dir == "" || dir[|dir| - 1] == '/'
    ensures SelectFormat(dir + "notes" + "." + "PDF", "application/octet-stream") == Some(Pdf)
  {
    ExtensionDecides(dir, "notes", "PDF", "application/octet-stream");
    LowerPdf();
  }

  /** A successful extraction returns normalised text, so extracting from the
      stored text again changes nothing. */
  lemma ExtractedTextIsNormal(path: string, mime: string, read: Format -> Result<string, string>)
    requires ExtractText(path, mime, read).error.None?
    ensures NormalizeText(ExtractText(path, mime, read).text) == ExtractText(path, mime, read).text
  {
    var raw := read(SelectFormat(path, mime).value).value;
    NormalizeIdempotent(raw);
  }
}

=== FILE: FileUpload.dfy ===
/** The upload form's checks on a chosen file: the type test by MIME type or
    file-name extension, the size limit, what a rejection or an acceptance
    does to the form, and the guard on starting an upload. */
module FileUpload {
  import opened Base
  import opened Strings

  const AllowedTypes: seq<string> :=
    ["application/pdf", "text/plain", "application/vnd.openxmlformats-officedocument.wordprocessingml.document"]

  const AllowedExtensions: seq<string> := [".pdf", ".txt", ".docx"]

  /** 10 MiB. */
  const MaxSize: nat := 10 * 1024 * 1024

  const InvalidTypeMessage: string := "Invalid file type. Only PDF, TXT, and DOCX files are allowed."

  const TooLargeMessage: string := "File size exceeds the 10MB limit."

  /** A chosen file as the browser describes it. */
  datatype ChosenFile = ChosenFile(name: string, mime: string, size: nat)

  /** `name.substring(name.lastIndexOf('.')).toLowerCase()`: from the last
      dot on, lowered; with no dot `lastIndexOf` is -1, which `substring`
      reads as 0, so the whole name. */
  function ClientExtension(name: string): (e: string)
    ensures |e| <= |name|
    ensures '.' !in name ==> e == ToLowerAscii(name)
    ensures '.' in name ==> |e| > 0 && e[0] == '.' && '.' !in e[1..]
  {
    match LastIndexOf(name, '.')
    case None => ToLowerAscii(name)
    case Some(k) =>
      var e := ToLowerAscii(name[k..]);
      assert forall j :: 0 <= j < |e| - 1 ==> e[1..][j] == e[j + 1];
      e
  }

  /** Whatever precedes the last dot, the extension is what follows, lowered. */
  lemma ExtensionIsLastSuffix(prefix: string, ext: string)
    requires |ext| > 0 && ext[0] == '.' && '.' !in ext[1..]
    ensures ClientExtension(prefix + ext) == ToLowerAscii(ext)
  {
    var name := prefix + ext;
    var k := |prefix|;
    forall j | k < j < |name|
      ensures name[j] != '.'
    {
      assert name[j] == ext[1..][j - k - 1];
    }
    LastIndexOfIs(name, '.', k);
    assert name[k..] == ext;
  }

  /** The type test: an allowed MIME type, or an allowed extension. */
  predicate TypeAllowed(f: ChosenFile)
  {
    f.mime in AllowedTypes || ClientExtension(f.name) in AllowedExtensions
  }

  /** `handleFileSelect`'s verdict: the type is checked before the size. */
  function Check(f: ChosenFile): (r: Option<string>)
    ensures r.None? <==> TypeAllowed(f) && f.size <= MaxSize
    ensures !TypeAllowed(f) ==> r == Some(InvalidTypeMessage)
    ensures TypeAllowed(f) && f.size > MaxSize ==> r == Some(TooLargeMessage)
  {
    if !TypeAllowed(f) then Some(InvalidTypeMessage)
    else if f.size > MaxSize then Some(TooLargeMessage)
    else None
  }

  /** The limit is inclusive: exactly 10 MiB passes, one byte more fails. */
  lemma SizeLimitInclusive(name: string, mime: string)
    requires TypeAllowed(ChosenFile(name, mime, MaxSize))
    ensures Check(ChosenFile(name, mime, MaxSize)).None?
    ensures Check(ChosenFile(name, mime, MaxSize + 1)) == Some(TooLargeMessage)
  {
  }

  /** A file named with an allowed extension in any letter case passes the
      type test whatever its MIME type. */
  lemma ExtensionInAnyCaseAllowed(prefix: string, ext: string, mime: string, size: nat)
    requires |ext| > 0 && ext[0] == '.' && '.' !in ext[1..]
    requires ToLowerAscii(ext) in AllowedExtensions
    ensures TypeAllowed(ChosenFile(prefix + ext, mime, size))
  {
    ExtensionIsLastSuffix(prefix, ext);
  }

  /** The form's state. */
  datatype Form = Form(file: Option<ChosenFile>, error: Option<string>, success: bool)

  /** Choosing (or dropping) a file: nothing happens without a file; a
      rejected file clears the selection and shows the reason; an accepted
      one is selected and clears the error and the success flag. */
  function Choose(form: Form, chosen: Option<ChosenFile>): (r: Form)
    ensures chosen.None? ==> r == form
    ensures chosen.Some? && Check(chosen.value).Some? ==>
              r == Form(None, Check(chosen.value), form.success)
    ensures chosen.Some? && Check(chosen.value).None? ==> r == Form(chosen, None, false)
  {
    match chosen
    case None => form
    case Some(f) =>
      match Check(f)
      case Some(message) => form.(file := None, error := Some(message))
      case None => Form(Some(f), None, false)
  }

  /** After a choice the form holds a file only if it passed both checks. */
  lemma SelectedFilePassed(form: Form, chosen: ChosenFile)
    ensures Choose(form, Some(chosen)).file.Some? <==> TypeAllowed(chosen) && chosen.size <= MaxSize
  {
  }

  /** `handleUpload`'s guard: with no file nothing is sent and nothing
      changes; otherwise the chosen file is sent and the messages reset. */
  function StartUpload(form: Form): (r: (Form, Option<ChosenFile>))
    ensures form.file.None? ==> r == (form, None)
    ensures form.file.Some? ==> r.1 == form.file && r.0 == Form(form.file, None, false)
  {
    if form.file.None? then (form, None) else (form.(error := None, success := false), form.file)
  }
}

=== FILE: GenerateRoute.dfy ===
/** The quiz-generation route: the request checks, the pass over the
    selected materials that gathers their texts, names and warnings, the
    combined text handed to the generator, the synthesised title and the
    final response. Every store the route talks to (courses, materials,
    cached texts, file storage, quizzes) and the generator itself are
    parameters. */
module GenerateRoute {
  import opened Base
  import opened Strings
  import opened Json
  import opened Chunker
  import opened AiGenerator
  import opened FileParser
  import opened QuizStorage

  /** JavaScript's `e || fallback` for an error that may be absent or empty. */
  function OrDefault(e: Option<string>, fallback: string): (r: string)
    ensures e.Some? && e.value != "" ==> r == e.value
    ensures e.None? || e.value == "" ==> r == fallback
  {
    if e.Some? && e.value != "" then e.value else fallback
  }

  /** The material metadata the route reads. */
  datatype Material = Material(originalFilename: string, filename: string)

  /** `original_filename || filename`. */
  function DisplayName(m: Material): string
  {
    if m.originalFilename != "" then m.originalFilename else m.filename
  }

  /** What happened to one selected material. */
  datatype Outcome =
    | NotFound(error: Option<string>)                              // metadata lookup failed
    | Cached(material: Material, text: string)                     // a stored extraction exists
    | DownloadFailed(material: Material)                           // no stored text, download failed
    | Fresh(material: Material, extraction: Extraction, stored: bool)  // extracted now; `stored` is whether saving it worked
    | Threw(resolved: Option<Material>, message: string)          // an exception, after or before the metadata resolved

  // The warnings, one string each.

  function LookupWarning(id: string, error: Option<string>): string
  {
    "Material " + id + ": " + OrDefault(error, "not found")
  }

  function NoContentWarning(m: Material): string
  {
    DisplayName(m) + ": No text content available"
  }

  function DownloadWarning(m: Material): string
  {
    DisplayName(m) + ": Failed to download file"
  }

  function ExtractWarning(m: Material, x: Extraction): string
  {
    DisplayName(m) + ": " + OrDefault(if x.error.Some? then Some(ErrorMessage(x.error.value)) else None, "No text extracted")
  }

  /** A fresh extraction is usable when it reports no error and some text. */
  predicate Usable(x: Extraction)
  {
    x.error.None? && x.text != ""
  }

  // What one material contributes, each list on its own.

  function NameOf(o: Outcome): seq<string>
  {
    match o
    case NotFound(_) => []
    case Cached(m, _) => [DisplayName(m)]
    case DownloadFailed(m) => [DisplayName(m)]
    case Fresh(m, _, _) => [DisplayName(m)]
    case Threw(resolved, _) => if resolved.Some? then [DisplayName(resolved.value)] else []
  }

  function TextOf(o: Outcome): seq<string>
  {
    match o
    case Cached(_, text) => if text != "" then [text] else []
    case Fresh(_, x, _) => if Usable(x) then [x.text] else []
    case _ => []
  }

  function WarningOf(id: string, o: Outcome): seq<string>
  {
    match o
    case NotFound(e) => [LookupWarning(id, e)]
    case Cached(m, text) => if text != "" then [] else [NoContentWarning(m)]
    case DownloadFailed(m) => [DownloadWarning(m)]
    case Fresh(m, x, _) => if Usable(x) then [] else [ExtractWarning(m, x)]
    case Threw(_, message) => ["Material " + id + ": " + message]
  }

  /** The three arrays the loop fills. */
  datatype Collected = Collected(texts: seq<string>, names: seq<string>, warnings: seq<string>)

  /** One iteration of the loop over `material_ids`, as the route writes it:
      the name is pushed as soon as the metadata resolves, then either the
      text or a warning. */
  function Step(c: Collected, id: string, o: Outcome): Collected
  {
    match o
    case NotFound(e) => c.(warnings := c.warnings + [LookupWarning(id, e)])
    case Cached(m, text) =>
      var named := c.(names := c.names + [DisplayName(m)]);
      if text != "" then named.(texts := named.texts + [text])
      else named.(warnings := named.warnings + [NoContentWarning(m)])
    case DownloadFailed(m) =>
      c.(names := c.names + [DisplayName(m)], warnings := c.warnings + [DownloadWarning(m)])
    case Fresh(m, x, _) =>
      var named := c.(names := c.names + [DisplayName(m)]);
      if x.error.Some? || x.text == "" then named.(warnings := named.warnings + [ExtractWarning(m, x)])
      else named.(texts := named.texts + [x.text])
    case Threw(resolved, message) =>
      var named := if resolved.Some? then c.(names := c.names + [DisplayName(resolved.value)]) else c;
      named.(warnings := named.warnings + ["Material " + id + ": " + message])
  }

  /** Each step appends the material's own contribution to each list. */
  lemma StepAppends(c: Collected, id: string, o: Outcome)
    ensures Step(c, id, o) == Collected(c.texts + TextOf(o), c.names + NameOf(o), c.warnings + WarningOf(id, o))
  {
  }

  /** Every material yields exactly one of a text or a warning. */
  lemma OneTextOrWarning(id: string, o: Outcome)
    ensures |TextOf(o)| + |WarningOf(id, o)| == 1
    ensures |NameOf(o)| <= 1
  {
  }

  /** The loop over the materials, in input order; `process` stands for
      everything the route does with one material id. */
  function Collect(ids: seq<string>, process: string -> Outcome): (c: Collected)
    ensures |c.texts| + |c.warnings| == |ids|
    ensures |c.names| <= |ids|
    decreases |ids|
  {
    if |ids| == 0 then Collected([], [], [])
    else
      var last := ids[|ids| - 1];
      var c := Collect(ids[..|ids| - 1], process);
      StepAppends(c, last, process(last));
      OneTextOrWarning(last, process(last));
      Step(c, last, process(last))
  }

  // Each list, gathered material by material on its own.

  function Texts(ids: seq<string>, process: string -> Outcome): seq<string>
    decreases |ids|
  {
    if |ids| == 0 then [] else Texts(ids[..|ids| - 1], process) + TextOf(process(ids[|ids| - 1]))
  }

  function Names(ids: seq<string>, process: string -> Outcome): seq<string>
    decreases |ids|
  {
    if |ids| == 0 then [] else Names(ids[..|ids| - 1], process) + NameOf(process(ids[|ids| - 1]))
  }

  function Warnings(ids: seq<string>, process: string -> Outcome): seq<string>
    decreases |ids|
  {
    if |ids| == 0 then [] else Warnings(ids[..|ids| - 1], process) + WarningOf(ids[|ids| - 1], process(ids[|ids| - 1]))
  }

  /** The loop's three arrays are the per-material contributions, concatenated
      in input order. */
  lemma {:induction false} CollectIsPerMaterial(ids: seq<string>, process: string -> Outcome)
    ensures Collect(ids, process) == Collected(Texts(ids, process), Names(ids, process), Warnings(ids, process))
    decreases |ids|
  {
    if |ids| > 0 {
      var last := ids[|ids| - 1];
      CollectIsPerMaterial(ids[..|ids| - 1], process);
      StepAppends(Collect(ids[..|ids| - 1], process), last, process(last));
    }
  }

  /** Processing `a` then `b` gives `a`'s contributions followed by `b`'s. */
  lemma {:induction false} TextsConcat(a: seq<string>, b: seq<string>, process: string -> Outcome)
    ensures Texts(a + b, process) == Texts(a, process) + Texts(b, process)
    decreases |b|
  {
    if |b| == 0 {
      assert a + b == a;
    } else {
      var b' := b[..|b| - 1];
      assert (a + b)[..|a + b| - 1] == a + b';
      TextsConcat(a, b', process);
    }
  }

  lemma {:induction false} NamesConcat(a: seq<string>, b: seq<string>, process: string -> Outcome)
    ensures Names(a + b, process) == Names(a, process) + Names(b, process)
    decreases |b|
  {
    if |b| == 0 {
      assert a + b == a;
    } else {
      var b' := b[..|b| - 1];
      var w := NameOf(process(b[|b| - 1]));
      assert (a + b)[..|a + b| - 1] == a + b';
      assert (a + b)[|a + b| - 1] == b[|b| - 1];
      NamesConcat(a, b', process);
      assert Names(a + b, process) == (Names(a, process) + Names(b', process)) + w;
      assert Names(b, process) == Names(b', process) + w;
    }
  }

  lemma {:induction false} WarningsConcat(a: seq<string>, b: seq<string>, process: string -> Outcome)
    ensures Warnings(a + b, process) == Warnings(a, process) + Warnings(b, process)
    decreases |b|
  {
    if |b| == 0 {
      assert a + b == a;
    } else {
      var b' := b[..|b| - 1];
      var w := WarningOf(b[|b| - 1], process(b[|b| - 1]));
      assert (a + b)[..|a + b| - 1] == a + b';
      assert (a + b)[|a + b| - 1] == b[|b| - 1];
      WarningsConcat(a, b', process);
      assert Warnings(a + b, process) == (Warnings(a, process) + Warnings(b', process)) + w;
      assert Warnings(b, process) == Warnings(b', process) + w;
    }
  }

  /** A material whose metadata lookup fails adds one warning naming its id,
      and neither a name nor a text. */
  lemma LookupFailureOnlyWarns(ids: seq<string>, id: string, process: string -> Outcome)
    requires process(id).NotFound?
    ensures Collect(ids + [id], process).texts == Collect(ids, process).texts
    ensures Collect(ids + [id], process).names == Collect(ids, process).names
    ensures Collect(ids + [id], process).warnings
            == Collect(ids, process).warnings + ["Material " + id + ": " + OrDefault(process(id).error, "not found")]
  {
    assert (ids + [id])[..|ids|] == ids;
  }

  /** A material whose metadata resolved keeps its name in the list, and so
      in the title, even when its text is then unusable. */
  lemma ResolvedMaterialIsNamed(ids: seq<string>, id: string, process: string -> Outcome)
    requires process(id).Cached? || process(id).DownloadFailed? || process(id).Fresh?
    ensures Collect(ids + [id], process).names == Collect(ids, process).names + [DisplayName(process(id).material)]
  {
    assert (ids + [id])[..|ids|] == ids;
  }

  /** Whether storing a fresh extraction succeeded does not matter: the
      extracted text is used either way. */
  lemma StoreFailureIgnored(id: string, m: Material, x: Extraction)
    ensures WarningOf(id, Fresh(m, x, true)) == WarningOf(id, Fresh(m, x, false))
    ensures TextOf(Fresh(m, x, true)) == TextOf(Fresh(m, x, false))
    ensures Usable(x) ==> TextOf(Fresh(m, x, false)) == [x.text]
  {
  }

  // Title and combined text

  const TextSeparator: string := "\n\n---\n\n"

  /** The synthesised title: the course name, the first three material names
      and how many more there are. */
  function Title(courseName: string, names: seq<string>): (t: string)
  {
    var shown := names[..Min(3, |names|)];
    var suffix := if |names| > 3 then " and " + NatToString(|names| - 3) + " more" else "";
    "Quiz: " + courseName + " - " + Join(shown, ", ") + suffix
  }

  /** With at most three materials, the title lists them all. */
  lemma TitleListsFew(courseName: string, names: seq<string>)
    requires |names| <= 3
    ensures Title(courseName, names) == "Quiz: " + courseName + " - " + Join(names, ", ")
  {
    assert names[..|names|] == names;
  }

  /** Beyond three, the title depends only on the first three names and the
      number of the rest. */
  lemma TitleDependsOnFirstThree(courseName: string, a: seq<string>, b: seq<string>)
    requires |a| == |b| && |a| > 3 && a[..3] == b[..3]
    ensures Title(courseName, a) == Title(courseName, b)
  {
  }

  /** The count in the title's suffix reads back as the number of names not
      shown. */
  lemma TitleCountReadsBack(courseName: string, names: seq<string>)
    requires |names| > 3
    ensures var head := "Quiz: " + courseName + " - " + Join(names[..3], ", ");
            && var t := Title(courseName, names);
            && |head| + 5 <= |t| && t[..|head|] == head && t[|head|..|head| + 5] == " and "
            && t[|head| + 5..] == NatToString(|names| - 3) + " more"
            && ParseInt(NatToString(|names| - 3)) == Some(|names| - 3)
  {
    var count := NatToString(|names| - 3);
    ParseIntNatToString(|names| - 3);
    var head := "Quiz: " + courseName + " - " + Join(names[..3], ", ");
    TitleWithSuffix(courseName, names);
    SuffixLayout(head, count, Title(courseName, names));
  }

  /** Where the parts of a title with a count suffix lie. */
  lemma SuffixLayout(head: string, count: string, t: string)
    requires t == head + (" and " + count + " more")
    ensures |head| + 5 <= |t| && t[..|head|] == head && t[|head|..|head| + 5] == " and "
    ensures t[|head| + 5..] == count + " more"
  {
    var sep, rest := " and ", count + " more";
    assert sep + count + " more" == sep + rest;
    SplitAtParts(head, sep, rest);
  }

  /** Slicing a three-part concatenation at the part boundaries. */
  lemma SplitAtParts(a: string, b: string, c: string)
    ensures var t := a + (b + c);
            && |a| + |b| <= |t| && t[..|a|] == a && t[|a|..|a| + |b|] == b && t[|a| + |b|..] == c
  {
    var t := a + (b + c);
    assert t == (a + b) + c;
    assert t[..|a|] == a;
    assert t[|a|..|a| + |b|] == b;
    assert t[|a| + |b|..] == c;
  }

  lemma TitleWithSuffix(courseName: string, names: seq<string>)
    requires |names| > 3
    ensures Title(courseName, names)
            == ("Quiz: " + courseName + " - " + Join(names[..3], ", ")) + (" and " + NatToString(|names| - 3) + " more")
  {
    assert Min(3, |names|) == 3;
  }

  // Responses

  /** The `material_ids` field: absent (or falsy), present but not an array,
      or an array of ids. */
  datatype IdsField = Absent | NotArray | Ids(ids: seq<string>)

  datatype Request = Request(courseId: string, materialIds: IdsField)

  /** A JSON response: an error with its status, or the created quiz. */
  datatype Response =
    | Failure(status: nat, error: string, message: string, extractionErrors: Option<seq<string>>)
    | Created(title: string, questions: seq<Question>, warnings: Option<seq<string>>)

  /** `list.length > 0 ? list : undefined`. */
  function NonEmptyOrAbsent(list: seq<string>): (r: Option<seq<string>>)
    ensures r.Some? <==> list != []
    ensures r.Some? ==> r.value == list
  {
    if |list| > 0 then Some(list) else None
  }

  function NoTextMessage(warnings: seq<string>): string
  {
    "Could not extract text from any materials. " + (if |warnings| > 0 then "Errors: " + Join(warnings, "; ") else "")
  }

  /** Request checks, in order, before anything is looked up. */
  function Validate(apiKey: string, req: Request): (r: Option<Response>)
    ensures r.Some? ==> r.value.Failure? && r.value.status in {400, 500}
    ensures r.None? <==> apiKey != "" && req.courseId != "" && req.materialIds.Ids? && |req.materialIds.ids| > 0
  {
    if apiKey == "" then
      Some(Failure(500, "Configuration error",
                   "OPENROUTER_API_KEY is not configured. Please add it to your backend .env file.", None))
    else if req.courseId == "" then Some(Failure(400, "Validation error", "course_id is required", None))
    else if !req.materialIds.Ids? || |req.materialIds.ids| == 0 then
      Some(Failure(400, "Validation error", "material_ids must be a non-empty array", None))
    else None
  }

  /** The POST handler. `course` looks a course up (its name, or the error
      if any), `process` handles one material, `generate` is the quiz
      generator (its questions, or its error message) and `save` stores the
      quiz, returning its error if any. */
  function Handle(apiKey: string, req: Request,
                  course: string -> Result<string, Option<string>>,
                  process: string -> Outcome,
                  generate: string -> Result<seq<Question>, string>,
                  save: (string, seq<Question>) -> Option<string>): (r: Response)
    ensures Validate(apiKey, req).Some? ==> r == Validate(apiKey, req).value
    ensures Validate(apiKey, req).None? && course(req.courseId).Err? ==>
              r == Failure(404, "Course not found", OrDefault(course(req.courseId).error, "Course not found"), None)
    ensures r.Created? ==>
              && Validate(apiKey, req).None? && course(req.courseId).Ok?
              && var c := Collect(req.materialIds.ids, process);
                 && c.texts != []
                 && generate(Join(c.texts, TextSeparator)) == Ok(r.questions)
                 && r.title == Title(course(req.courseId).value, c.names)
                 && save(r.title, r.questions).None?
                 && r.warnings == NonEmptyOrAbsent(c.warnings)
    ensures Validate(apiKey, req).None? && course(req.courseId).Ok? ==>
              var c := Collect(req.materialIds.ids, process);
              && (c.texts == [] ==> r == Failure(400, "No text content available", NoTextMessage(c.warnings), None))
              && (c.texts != [] && generate(Join(c.texts, TextSeparator)).Err? ==>
                    r == Failure(500, "Quiz generation failed",
                                 OrDefault(Some(generate(Join(c.texts, TextSeparator)).error),
                                           "Failed to generate quiz questions"),
                                 NonEmptyOrAbsent(c.warnings)))
              // Text, a generated quiz and a working store give a created quiz.
              && (c.texts != [] && generate(Join(c.texts, TextSeparator)).Ok?
                  && save(Title(course(req.courseId).value, c.names), generate(Join(c.texts, TextSeparator)).value).None?
                  ==> r.Created?)
  {
    match Validate(apiKey, req)
    case Some(failure) => failure
    case None =>
      match course(req.courseId)
      case Err(e) => Failure(404, "Course not found", OrDefault(e, "Course not found"), None)
      case Ok(courseName) =>
        var c := Collect(req.materialIds.ids, process);
        if |c.texts| == 0 then Failure(400, "No text content available", NoTextMessage(c.warnings), None)
        else
          match generate(Join(c.texts, TextSeparator))
          case Err(e) =>
            Failure(500, "Quiz generation failed", OrDefault(Some(e), "Failed to generate quiz questions"),
                    NonEmptyOrAbsent(c.warnings))
          case Ok(questions) =>
            var title := Title(courseName, c.names);
            match save(title, questions)
            case Some(e) => Failure(500, "Failed to save quiz", e, None)
            case None => Created(title, questions, NonEmptyOrAbsent(c.warnings))
  }

  /** A request that fails validation is answered without looking anything
      up: the answer is the same whatever the stores and the generator do. */
  lemma ValidationBeforeLookups(apiKey: string, req: Request,
                                course1: string -> Result<string, Option<string>>, course2: string -> Result<string, Option<string>>,
                                process1: string -> Outcome, process2: string -> Outcome,
                                generate1: string -> Result<seq<Question>, string>, generate2: string -> Result<seq<Question>, string>,
                                save1: (string, seq<Question>) -> Option<string>, save2: (string, seq<Question>) -> Option<string>)
    requires Validate(apiKey, req).Some?
    ensures Handle(apiKey, req, course1, process1, generate1, save1) == Handle(apiKey, req, course2, process2, generate2, save2)
  {
  }

  /** An unknown course is answered before any material is touched. */
  lemma CourseBeforeMaterials(apiKey: string, req: Request, course: string -> Result<string, Option<string>>,
                              process1: string -> Outcome, process2: string -> Outcome,
                              generate: string -> Result<seq<Question>, string>,
                              save: (string, seq<Question>) -> Option<string>)
    requires Validate(apiKey, req).None? && course(req.courseId).Err?
    ensures Handle(apiKey, req, course, process1, generate, save) == Handle(apiKey, req, course, process2, generate, save)
    ensures Handle(apiKey, req, course, process1, generate, save).status == 404
  {
  }

  /** When no material gave text, the answer is a 400 whose message joins
      every warning with "; ". */
  lemma NoTextJoinsWarnings(apiKey: string, req: Request, course: string -> Result<string, Option<string>>,
                            process: string -> Outcome,
                            generate: string -> Result<seq<Question>, string>,
                            save: (string, seq<Question>) -> Option<string>)
    requires Validate(apiKey, req).None? && course(req.courseId).Ok?
    requires forall k :: 0 <= k < |req.materialIds.ids| ==> TextOf(process(req.materialIds.ids[k])) == []
    ensures var ws := Warnings(req.materialIds.ids, process);
            && |ws| == |req.materialIds.ids|
            && Handle(apiKey, req, course, process, generate, save)
               == Failure(400, "No text content available",
                          "Could not extract text from any materials. " + ("Errors: " + Join(ws, "; ")), None)
  {
    var ids := req.materialIds.ids;
    NoTexts(ids, process);
    CollectIsPerMaterial(ids, process);
    var c := Collect(ids, process);
    assert c.texts == [] && |c.warnings| == |ids| > 0;
  }

  lemma {:induction false} NoTexts(ids: seq<string>, process: string -> Outcome)
    requires forall k :: 0 <= k < |ids| ==> TextOf(process(ids[k])) == []
    ensures Texts(ids, process) == []
    decreases |ids|
  {
    if |ids| > 0 {
      NoTexts(ids[..|ids| - 1], process);
      assert TextOf(process(ids[|ids| - 1])) == [];
    }
  }

  /** A failure to save the quiz answers 500 and returns no questions. */
  lemma SaveFailureHidesQuestions(apiKey: string, req: Request, course: string -> Result<string, Option<string>>,
                                  process: string -> Outcome,
                                  generate: string -> Result<seq<Question>, string>,
                                  save: (string, seq<Question>) -> Option<string>)
    requires Validate(apiKey, req).None? && course(req.courseId).Ok?
    requires var c := Collect(req.materialIds.ids, process);
             && c.texts != [] && generate(Join(c.texts, TextSeparator)).Ok?
             && save(Title(course(req.courseId).value, c.names), generate(Join(c.texts, TextSeparator)).value).Some?
    ensures var c := Collect(req.materialIds.ids, process);
            var e := save(Title(course(req.courseId).value, c.names), generate(Join(c.texts, TextSeparator)).value).value;
            Handle(apiKey, req, course, process, generate, save) == Failure(500, "Failed to save quiz", e, None)
  {
  }

  // The route with the real generator and store

  /** The generator as the route calls it: `generateQuiz` under the same key,
      its error reported by message. */
  function Generator(rules: Rules, apiKey: string, service: string -> ServiceReply,
                     parse: string -> Result<Json, string>): string -> Result<seq<Question>, string>
  {
    text => match GenerateQuiz(rules, apiKey, text, service, parse).result
            case Ok(qs) => Ok(qs)
            case Err(e) => Err(GenerateMessage(e))
  }

  /** The questions as they are handed to the store. */
  function StoredQuestions(qs: seq<Question>): (items: seq<Json>)
    ensures |items| == |qs|
    ensures forall k :: 0 <= k < |qs| ==> items[k] == QuestionToJson(qs[k])
  {
    seq(|qs|, k requires 0 <= k < |qs| => QuestionToJson(qs[k]))
  }

  /** The store as the route calls it: `createQuiz` for the signed-in user
      and the requested course, its error message if any. */
  function Saver(userId: string, courseId: string): (string, seq<Question>) -> Option<string>
  {
    (title, qs) => match CreateQuiz(userId, Some(JString(title)), Some(JArray(StoredQuestions(qs))), Some(courseId))
                   case Ok(_) => None
                   case Err(e) => Some(e)
  }

  /** With the real generator and store, a created quiz has ten well-formed
      questions, each with a question and an explanation. */
  lemma CreatedQuizWellFormed(rules: Rules, apiKey: string, req: Request, userId: string,
                              course: string -> Result<string, Option<string>>, process: string -> Outcome,
                              service: string -> ServiceReply, parse: string -> Result<Json, string>)
    ensures var r := Handle(apiKey, req, course, process, Generator(rules, apiKey, service, parse), Saver(userId, req.courseId));
            r.Created? ==> (&& |r.questions| == 10
                            && (forall k :: 0 <= k < 10 ==> WellFormed(r.questions[k]))
                            && (forall k :: 0 <= k < 10 ==> r.questions[k].question != "" && r.questions[k].explanation != ""))
  {
    var generate := Generator(rules, apiKey, service, parse);
    var save := Saver(userId, req.courseId);
    var r := Handle(apiKey, req, course, process, generate, save);
    if r.Created? {
      var c := Collect(req.materialIds.ids, process);
      GeneratedQuestionsWellFormed(rules, apiKey, service, parse, Join(c.texts, TextSeparator), r.questions);
      SavedQuestionsStructured(userId, req.courseId, r.title, r.questions);
    }
  }

  lemma GeneratedQuestionsWellFormed(rules: Rules, apiKey: string, service: string -> ServiceReply,
                                     parse: string -> Result<Json, string>, text: string, qs: seq<Question>)
    requires Generator(rules, apiKey, service, parse)(text) == Ok(qs)
    ensures |qs| == 10 && forall k :: 0 <= k < 10 ==> WellFormed(qs[k])
  {
    assert GenerateQuiz(rules, apiKey, text, service, parse).result == Ok(qs);
  }

  lemma SavedQuestionsStructured(userId: string, courseId: string, title: string, qs: seq<Question>)
    requires Saver(userId, courseId)(title, qs).None?
    ensures forall k :: 0 <= k < |qs| ==> qs[k].question != "" && qs[k].explanation != ""
  {
    var items := StoredQuestions(qs);
    assert CreateQuiz(userId, Some(JString(title)), Some(JArray(items)), Some(courseId)).Ok?;
    forall k | 0 <= k < |qs|
      ensures qs[k].question != "" && qs[k].explanation != ""
    {
      assert HasStructure(items[k]);
      GeneratedQuestionStructure(qs[k]);
    }
  }

  /** With the real generator and store, a generated quiz with an empty
      question text is not saved: the route answers 500. */
  lemma BlankQuestionNotSaved(rules: Rules, apiKey: string, req: Request, userId: string,
                              course: string -> Result<string, Option<string>>, process: string -> Outcome,
                              service: string -> ServiceReply, parse: string -> Result<Json, string>, k: nat)
    requires Validate(apiKey, req).None? && course(req.courseId).Ok?
    requires var c := Collect(req.materialIds.ids, process);
             var g := GenerateQuiz(rules, apiKey, Join(c.texts, TextSeparator), service, parse).result;
             && c.texts != [] && g.Ok? && k < |g.value| && g.value[k].question == ""
    ensures var r := Handle(apiKey, req, course, process, Generator(rules, apiKey, service, parse), Saver(userId, req.courseId));
            r.Failure? && r.status == 500 && r.error == "Failed to save quiz"
  {
    var c := Collect(req.materialIds.ids, process);
    var text := Join(c.texts, TextSeparator);
    var qs := GenerateQuiz(rules, apiKey, text, service, parse).result.value;
    var generate := Generator(rules, apiKey, service, parse);
    assert generate(text) == Ok(qs);
    var title := Title(course(req.courseId).value, c.names);
    SaverRejectsBlank(userId, req.courseId, title, qs, k);
    SaveFailureHidesQuestions(apiKey, req, course, process, generate, Saver(userId, req.courseId));
  }

  /** The store refuses a question list holding an empty question text. */
  lemma SaverRejectsBlank(userId: string, courseId: string, title: string, qs: seq<Question>, k: nat)
    requires k < |qs| && qs[k].question == ""
    ensures Saver(userId, courseId)(title, qs).Some?
  {
    var items := StoredQuestions(qs);
    GeneratedQuestionStructure(qs[k]);
    assert !HasStructure(items[k]);
    assert CreateQuiz(userId, Some(JString(title)), Some(JArray(items)), Some(courseId)).Err?;
  }
}

=== FILE: Json.dfy ===
/** Values as `JSON.parse` produces them, and the few JavaScript operations
    the pipeline applies to such values: property reads, truthiness, strict
    equality and the numeric coercion behind `<` and `>=`. */
module Json {
  import opened Base
  import opened Strings

  /** A decoded JSON value. Numbers are the finite reals the parser yields;
      `JSON.parse` turns a numeral beyond the range of a double into an
      infinity, which this type does not represent. An object maps each key
      to the last value given for it. */
  datatype Json =
    | JNull
    | JBool(b: bool)
    | JNumber(n: real)
    | JString(s: string)
    | JArray(items: seq<Json>)
    | JObject(fields: map<string, Json>)

  /** The property read `v.key`; `None` is `undefined`. Only objects carry
      the keys the pipeline reads. (Reading a property of `null` throws; the
      callers test for `JNull` before reading.) */
  function Get(v: Json, key: string): (r: Option<Json>)
    ensures r.Some? <==> v.JObject? && key in v.fields
  {
    if v.JObject? && key in v.fields then Some(v.fields[key]) else None
  }

  /** JavaScript truthiness of a value that may be `undefined`. */
  predicate Truthy(v: Option<Json>)
  {
    match v
    case None => false
    case Some(JNull) => false
    case Some(JBool(b)) => b
    case Some(JNumber(n)) => n != 0.0
    case Some(JString(s)) => |s| > 0
    case Some(_) => true
  }

  /** `a === b` between values decoded from separate JSON texts: arrays and
      objects are then distinct references, so only equal primitives compare
      equal. */
  predicate StrictEquals(a: Json, b: Json)
  {
    match (a, b)
    case (JNull, JNull) => true
    case (JBool(x), JBool(y)) => x == y
    case (JNumber(x), JNumber(y)) => x == y
    case (JString(x), JString(y)) => x == y
    case _ => false
  }

  /** Value of a decimal numeral `digits` or `digits.digits` (at least one digit overall). */
  function DecimalNumeral(s: string): Option<real>
  {
    var k := DigitPrefixLength(s, 10);
    if k == |s| then (if k == 0 then None else Some(DigitsValue(s, 10) as real))
    else if s[k] != '.' then None
    else
      var frac := s[k + 1..];
      var m := DigitPrefixLength(frac, 10);
      if m != |frac| || k + m == 0 then None
      else Some(DigitsValue(s[..k], 10) as real + DigitsValue(frac, 10) as real / Power10(m) as real)
  }

  function Power10(n: nat): (p: nat)
    ensures p >= 1
  {
    if n == 0 then 1 else 10 * Power10(n - 1)
  }

  /** A JavaScript number other than NaN. Finite values are exact: rounding
      to the nearest double is not represented. */
  datatype Numeric = Finite(x: real) | PosInfinity | NegInfinity

  /** `a < b` for a number `a` and a finite `b`. */
  predicate LessThan(a: Numeric, b: real)
  {
    match a
    case Finite(x) => x < b
    case PosInfinity => false
    case NegInfinity => true
  }

  /** `a >= b` for a number `a` and a finite `b`. */
  predicate AtLeast(a: Numeric, b: real)
  {
    match a
    case Finite(x) => x >= b
    case PosInfinity => true
    case NegInfinity => false
  }

  /** The base a `0x`, `0o` or `0b` prefix (either letter case) selects. */
  function NonDecimalRadix(t: string): (r: Option<nat>)
    ensures r.Some? ==> |t| >= 2 && t[0] == '0' && r.value in {2, 8, 16}
  {
    if |t| < 2 || t[0] != '0' then None
    else if t[1] == 'x' || t[1] == 'X' then Some(16)
    else if t[1] == 'o' || t[1] == 'O' then Some(8)
    else if t[1] == 'b' || t[1] == 'B' then Some(2)
    else None
  }

  /** Position of the first exponent marker `e` or `E`, or the length. */
  function ExponentIndex(u: string): (k: nat)
    ensures k <= |u|
    ensures forall i :: 0 <= i < k ==> u[i] != 'e' && u[i] != 'E'
    ensures k < |u| ==> u[k] == 'e' || u[k] == 'E'
  {
    if |u| == 0 || u[0] == 'e' || u[0] == 'E' then 0 else 1 + ExponentIndex(u[1..])
  }

  /** A non-empty run of decimal digits, read. */
  function Digits(d: string): Option<nat>
  {
    if |d| > 0 && DigitPrefixLength(d, 10) == |d| then Some(DigitsValue(d, 10)) else None
  }

  /** The part after an exponent marker: an optional sign, then digits. */
  function SignedExponent(w: string): Option<int>
  {
    if |w| > 0 && w[0] == '-' then
      (match Digits(w[1..]) case None => None case Some(e) => Some(-(e as int)))
    else if |w| > 0 && w[0] == '+' then
      (match Digits(w[1..]) case None => None case Some(e) => Some(e as int))
    else
      (match Digits(w) case None => None case Some(e) => Some(e as int))
  }

  /** `m` times ten to the power `e`. */
  function Scale(m: real, e: int): real
  {
    if e >= 0 then m * Power10(e) as real else m / Power10(-e) as real
  }

  /** An unsigned decimal literal: `Infinity`, or a numeral with an optional
      fraction and an optional exponent. */
  function UnsignedDecimal(u: string): Option<Numeric>
  {
    if u == "Infinity" then Some(PosInfinity)
    else
      var k := ExponentIndex(u);
      match DecimalNumeral(u[..k])
      case None => None
      case Some(m) =>
        if k == |u| then Some(Finite(m))
        else
          match SignedExponent(u[k + 1..])
          case None => None
          case Some(e) => Some(Finite(Scale(m, e)))
  }

  function NegateNumeric(r: Option<Numeric>): Option<Numeric>
  {
    match r
    case None => None
    case Some(Finite(x)) => Some(Finite(-x))
    case Some(PosInfinity) => Some(NegInfinity)
    case Some(NegInfinity) => Some(PosInfinity)
  }

  /** `Number(s)` for a string: after trimming, the empty string is 0; an
      unsigned `0x`, `0o` or `0b` numeral is read in its base; otherwise an
      optional sign precedes `Infinity` or a decimal numeral with optional
      fraction and exponent. Anything else is NaN (`None`). */
  function StringToNumber(s: string): Option<Numeric>
  {
    var t := Trim(s);
    if |t| == 0 then Some(Finite(0.0))
    else
      match NonDecimalRadix(t)
      case Some(radix) =>
        var n := DigitPrefixLength(t[2..], radix);
        if n == |t| - 2 && n > 0 then Some(Finite(DigitsValue(t[2..], radix) as real)) else None
      case None =>
        if t[0] == '-' then NegateNumeric(UnsignedDecimal(t[1..]))
        else if t[0] == '+' then UnsignedDecimal(t[1..])
        else UnsignedDecimal(t)
  }

  /** The numeric coercion `x < 0` and `x >= n` apply to `x`; `None` is NaN,
      against which every comparison is false. An array is read through its
      text, the elements' texts joined by commas: the empty array reads as
      `""`, which is 0; more than one element puts a comma in the text, which
      is NaN; one element reads as that element's text, which is `""` for
      `null`, `"true"` or `"false"` (NaN) for a boolean, and otherwise reads
      as the element itself does. An object's text is `"[object Object]"`,
      NaN. */
  function ToNumber(v: Json): Option<Numeric>
  {
    match v
    case JNull => Some(Finite(0.0))
    case JBool(b) => Some(Finite(if b then 1.0 else 0.0))
    case JNumber(n) => Some(Finite(n))
    case JString(s) => StringToNumber(s)
    case JArray(items) =>
      if |items| == 0 then Some(Finite(0.0))
      else if |items| == 1 && !items[0].JBool? then ToNumber(items[0])
      else None
    case JObject(_) => None
  }

  lemma StringToNumberOfNat(n: nat)
    ensures StringToNumber(NatToString(n)) == Some(Finite(n as real))
  {
    var s := NatToString(n);
    assert IsDecimalDigit(s[0]) && IsDecimalDigit(s[|s| - 1]);
    assert NonDecimalRadix(s).None?;
    UnsignedPath(s);
    assert s != "Infinity" by { assert "Infinity"[0] == 'I'; }
    assert ExponentIndex(s) == |s|;
    assert s[..|s|] == s;
    DecimalNumeralOfNat(n);
  }

  /** A trimmed text with no base prefix and no sign is read as an unsigned
      decimal literal. */
  lemma UnsignedPath(t: string)
    requires IsTrimmed(t) && |t| > 0 && NonDecimalRadix(t).None? && t[0] != '-' && t[0] != '+'
    ensures StringToNumber(t) == UnsignedDecimal(t)
  {
    TrimOfTrimmed(t);
  }

  /** A trimmed text starting with `-` is the negation of the rest. */
  lemma NegativePath(t: string)
    requires IsTrimmed(t) && |t| > 0 && t[0] == '-'
    ensures StringToNumber(t) == NegateNumeric(UnsignedDecimal(t[1..]))
  {
    TrimOfTrimmed(t);
  }

  /** A trimmed text with a base prefix followed by digits of that base only. */
  lemma RadixNumeralValue(t: string, radix: nat, v: nat)
    requires IsTrimmed(t) && NonDecimalRadix(t) == Some(radix)
    requires 0 < DigitPrefixLength(t[2..], radix) == |t| - 2 && DigitsValue(t[2..], radix) == v
    ensures StringToNumber(t) == Some(Finite(v as real))
  {
    TrimOfTrimmed(t);
  }

  /** A digit string followed by an exponent denotes the digits' value times
      that power of ten. */
  lemma StringToNumberOfExponent(m: nat, e: nat)
    ensures StringToNumber(NatToString(m) + "e" + NatToString(e)) == Some(Finite((m * Power10(e)) as real))
  {
    var a, b := NatToString(m), NatToString(e);
    var s := a + "e" + b;
    assert s[0] == a[0] && s[|s| - 1] == b[|b| - 1];
    assert IsTrimmed(s);
    assert NonDecimalRadix(s).None? by {
      if |a| >= 2 { assert s[1] == a[1]; } else { assert s[1] == 'e'; }
    }
    UnsignedPath(s);
    UnsignedExponent(m, e);
  }

  lemma UnsignedExponent(m: nat, e: nat)
    ensures UnsignedDecimal(NatToString(m) + "e" + NatToString(e)) == Some(Finite((m * Power10(e)) as real))
  {
    var a, b := NatToString(m), NatToString(e);
    var s := a + "e" + b;
    assert s != "Infinity" by { assert s[0] == a[0]; assert "Infinity"[0] == 'I'; }
    ExponentAfterDigits(a, b);
    assert s[..|a|] == a && s[|a| + 1..] == b;
    DecimalNumeralOfNat(m);
    SignedExponentOfNat(e);
    ScaleOfNat(m, e);
  }

  lemma DecimalNumeralOfNat(m: nat)
    ensures DecimalNumeral(NatToString(m)) == Some(m as real)
  {
    var a := NatToString(m);
    assert DigitPrefixLength(a, 10) == |a|;
    DigitsValueOfNatToString(m);
  }

  lemma SignedExponentOfNat(e: nat)
    ensures SignedExponent(NatToString(e)) == Some(e as int)
  {
    var b := NatToString(e);
    assert b[0] != '-' && b[0] != '+';
    assert DigitPrefixLength(b, 10) == |b|;
    DigitsValueOfNatToString(e);
  }

  lemma ScaleOfNat(m: nat, e: nat)
    ensures Scale(m as real, e) == (m * Power10(e)) as real
  {
  }

  lemma ExponentAfterDigits(a: string, b: string)
    requires forall i :: 0 <= i < |a| ==> IsDecimalDigit(a[i])
    ensures ExponentIndex(a + "e" + b) == |a|
  {
    var s := a + "e" + b;
    assert s[|a|] == 'e';
    assert forall i :: 0 <= i < |a| ==> s[i] == a[i];
  }

  /** `Number("1e1")` is 10. */
  lemma ExponentNumeral()
    ensures StringToNumber("1e1") == Some(Finite(10.0))
  {
    StringToNumberOfExponent(1, 1);
    assert NatToString(1) + "e" + NatToString(1) == "1e1";
  }

  /** `Infinity`, bare or after a sign. */
  lemma SignedInfinity(sign: string)
    requires sign in {"", "+", "-"}
    ensures StringToNumber(sign + "Infinity") == Some(if sign == "-" then NegInfinity else PosInfinity)
  {
    var s := sign + "Infinity";
    assert IsTrimmed(s);
    TrimOfTrimmed(s);
    assert s[0] != '0';
    if sign == "" {
      assert s == "Infinity";
    } else {
      assert s[1..] == "Infinity";
    }
  }

  /** Binary and octal numerals read in their base; a sign before them makes NaN. */
  lemma NonDecimalNumerals()
    ensures StringToNumber("0b111") == Some(Finite(7.0))
    ensures StringToNumber("0o17") == Some(Finite(15.0))
    ensures StringToNumber("-0x10") == None
  {
    BinaryNumeral();
    OctalNumeral();
    SignedHexNumeral();
  }

  lemma BinaryNumeral()
    ensures StringToNumber("0b111") == Some(Finite(7.0))
  {
    var s := "0b111";
    assert IsTrimmed(s) && NonDecimalRadix(s) == Some(2);
    assert s[2..] == "111";
    BinaryDigits();
    RadixNumeralValue(s, 2, 7);
  }

  lemma BinaryDigits()
    ensures DigitPrefixLength("111", 2) == 3 && DigitsValue("111", 2) == 7
  {
    var d := "111";
    assert d[..2] == "11" && d[..2][..1] == "1" && d[..2][..1][..0] == "";
    assert DigitsValue("1", 2) == 1;
    assert DigitsValue("11", 2) == 3;
  }

  lemma OctalNumeral()
    ensures StringToNumber("0o17") == Some(Finite(15.0))
  {
    var s := "0o17";
    assert IsTrimmed(s) && NonDecimalRadix(s) == Some(8);
    assert s[2..] == "17";
    OctalDigits();
    RadixNumeralValue(s, 8, 15);
  }

  lemma OctalDigits()
    ensures DigitPrefixLength("17", 8) == 2 && DigitsValue("17", 8) == 15
  {
    var d := "17";
    assert d[..1] == "1" && d[..1][..0] == "";
    assert DigitsValue("1", 8) == 1;
  }

  lemma SignedHexNumeral()
    ensures StringToNumber("-0x10") == None
  {
    var s := "-0x10";
    assert IsTrimmed(s);
    NegativePath(s);
    assert s[1..] == "0x10";
    HexNotDecimal();
  }

  /** `0x10` is no decimal literal. */
  lemma HexNotDecimal()
    ensures UnsignedDecimal("0x10") == None
  {
    var u := "0x10";
    assert u != "Infinity";
    assert ExponentIndex(u) == 4;
    assert u[..4] == u;
    assert DigitPrefixLength(u, 10) == 1;
    assert DecimalNumeral(u) == None;
  }

  // parseInt on values that are not strings

  /** The leading significant digit of `0 < a < 1`. With `j` the number of
      digits of the integer part of `1 / a`, `a` lies in `(10^-j, 10^(1-j)]`,
      so `a * 10^j` lies in `(1, 10]`; its integer part is that digit, except
      at `10`, where `a` is a power of ten and the digit is `1`. */
  function LeadingDigitBelowOne(a: real): int
    requires 0.0 < a < 1.0
  {
    var y := a * Power10(|NatToString((1.0 / a).Floor)|) as real;
    if y >= 10.0 then 1 else y.Floor
  }

  /** What `parseInt` reads from `String(n)` for a number `n >= 0`.
      JavaScript writes a value from `1e-6` up to below `1e21` in plain
      decimal, so `parseInt` reads its integer part; a smaller or larger
      value is written in exponent form, `d.ddde-7` or `d.ddde+21`, of
      which `parseInt` reads the leading digit `d`. */
  function MagnitudeParsedAsInt(a: real): int
    requires a >= 0.0
  {
    if a == 0.0 then 0
    else if a < 1.0 / 1000000.0 then LeadingDigitBelowOne(a)
    else if a < 1000000000000000000000.0 then a.Floor
    else DigitValue(NatToString(a.Floor)[0])
  }

  /** `parseInt(String(v))` for any decoded value; `None` is NaN. `null`,
      booleans and objects render as words `parseInt` cannot read. An array
      renders as its elements' texts joined with commas, and `parseInt` stops
      at the first comma (`ParseIntStopsAtComma`), so an array reads as its
      first element does; inside an array `null` renders as the empty text,
      which reads as NaN too. */
  function ParsedAsInt(v: Json): (r: Option<int>)
    ensures v.JString? ==> r == ParseInt(v.s)
    ensures v.JArray? ==> r == (if |v.items| == 0 then None else ParsedAsInt(v.items[0]))
    ensures v.JNull? || v.JBool? || v.JObject? ==> r.None?
  {
    match v
    case JNull => None
    case JBool(_) => None
    case JNumber(n) =>
      Some(if n < 0.0 then -MagnitudeParsedAsInt(-n) else MagnitudeParsedAsInt(n))
    case JString(s) => ParseInt(s)
    case JArray(items) => if |items| == 0 then None else ParsedAsInt(items[0])
    case JObject(_) => None
  }

  /** An integer-valued number below `1e21` in magnitude reads back as itself. */
  lemma IntegerParsedAsItself(i: int)
    requires -1000000000000000000000 < i < 1000000000000000000000
    ensures ParsedAsInt(JNumber(i as real)) == Some(i)
  {
  }
}

=== FILE: MigrateExtractedTexts.dfy ===
/** The one-off migration that copies the extracted text kept on course
    materials into the extracted-texts table: it selects the materials with
    text, skips those already copied, builds one record per material and
    inserts the records in batches, counting what went in and what failed.
    The database is a parameter: the rows read, and an `insert` that answers
    each batch with the number of rows stored or nothing on error. */
module MigrateExtractedTexts {
  import opened Base
  import opened Strings
  import opened ExtractedTextService

  /** A row of the course-materials table, as far as the migration reads it. */
  datatype MaterialRow = MaterialRow(id: string, userId: string, extractedText: Option<string>,
                                     createdAt: string, updatedAt: string)

  /** The query's filter: text present and not the empty string. */
  predicate HasText(m: MaterialRow)
  {
    m.extractedText.Some? && m.extractedText.value != ""
  }

  /** The record inserted for one material. */
  datatype MigrationRecord = MigrationRecord(materialId: string, userId: string, text: string,
                                             textLength: nat, wordCount: nat, extractionMethod: string,
                                             createdAt: string, updatedAt: string)

  const MigrationMethod: string := "migration"

  const BatchSize: nat := 100

  /** Materials with text whose id is not among the already-copied ones. */
  function ToMigrate(table: seq<MaterialRow>, existing: seq<string>): (todo: seq<MaterialRow>)
    ensures forall m :: m in todo ==> m in table && HasText(m) && m.id !in existing
    ensures forall m :: m in table && HasText(m) && m.id !in existing ==> m in todo
    ensures |todo| == 0 <==> forall m :: m in table && HasText(m) ==> m.id in existing
  {
    Filter(Filter(table, HasText), (m: MaterialRow) => m.id !in existing)
  }

  /** `r` carries the id and the text of `m`. */
  predicate CopiedFrom(r: MigrationRecord, m: MaterialRow)
  {
    r.materialId == m.id && m.extractedText == Some(r.text)
  }

  /** The record for one material: its text, timestamps and owner copied,
      with the text's length and word count. */
  function Record(m: MaterialRow): (r: MigrationRecord)
    requires HasText(m)
    ensures CopiedFrom(r, m) && r.userId == m.userId
    ensures r.createdAt == m.createdAt && r.updatedAt == m.updatedAt
    ensures r.extractionMethod == MigrationMethod
    ensures r.textLength == |r.text| && r.wordCount == WordStarts(r.text)
  {
    var text := m.extractedText.value;
    WordCountIsWordStarts(text);
    MigrationRecord(m.id, m.userId, text, |text|, WordCount(text), MigrationMethod, m.createdAt, m.updatedAt)
  }

  /** One record per material, in order. */
  function Records(ms: seq<MaterialRow>): (rs: seq<MigrationRecord>)
    requires forall i :: 0 <= i < |ms| ==> HasText(ms[i])
    ensures |rs| == |ms|
    ensures forall i :: 0 <= i < |ms| ==> CopiedFrom(rs[i], ms[i])
  {
    seq(|ms|, i requires 0 <= i < |ms| => Record(ms[i]))
  }

  /** The records split into consecutive batches of `size` (the last one
      possibly shorter). */
  function Batches<T>(rs: seq<T>, size: nat): (bs: seq<seq<T>>)
    requires size > 0
    ensures forall k :: 0 <= k < |bs| ==> 0 < |bs[k]| <= size
    ensures |bs| == 0 <==> |rs| == 0
    decreases |rs|
  {
    if |rs| == 0 then [] else [rs[..Min(size, |rs|)]] + Batches(rs[Min(size, |rs|)..], size)
  }

  /** The batches cover the records exactly once, in order. */
  lemma {:induction false} BatchesPartition<T>(rs: seq<T>, size: nat)
    requires size > 0
    ensures Flatten(Batches(rs, size)) == rs
    decreases |rs|
  {
    if |rs| > 0 {
      var m := Min(size, |rs|);
      BatchesPartition(rs[m..], size);
      FlattenPrepend(rs[..m], Batches(rs[m..], size));
      assert rs[..m] + rs[m..] == rs;
    }
  }

  /** Every batch but the last is full. */
  lemma {:induction false} BatchesFull<T>(rs: seq<T>, size: nat)
    requires size > 0
    ensures forall k :: 0 <= k < |Batches(rs, size)| - 1 ==> |Batches(rs, size)[k]| == size
    decreases |rs|
  {
    if |rs| > size {
      var bs := Batches(rs, size);
      BatchesFull(rs[size..], size);
      assert bs == [rs[..size]] + Batches(rs[size..], size);
      assert forall k :: 1 <= k < |bs| ==> bs[k] == Batches(rs[size..], size)[k - 1];
    }
  }

  /** `migratedCount` and `errorCount`. */
  datatype Tally = Tally(migrated: nat, errors: nat)

  function Add(a: Tally, b: Tally): Tally
  {
    Tally(a.migrated + b.migrated, a.errors + b.errors)
  }

  lemma AddZero(a: Tally)
    ensures Add(Tally(0, 0), a) == a == Add(a, Tally(0, 0))
  {
  }

  /** One batch: its size counts as errors when the insert fails, otherwise
      the number of rows the insert returned counts as migrated. */
  function BatchTally<T>(batch: seq<T>, insert: seq<T> -> Option<nat>): (t: Tally)
    ensures insert(batch).None? ==> t == Tally(0, |batch|)
    ensures insert(batch).Some? ==> t == Tally(insert(batch).value, 0)
  {
    match insert(batch)
    case None => Tally(0, |batch|)
    case Some(n) => Tally(n, 0)
  }

  /** The counts after all batches, first to last. */
  function TallyAll<T>(bs: seq<seq<T>>, insert: seq<T> -> Option<nat>): Tally
  {
    if |bs| == 0 then Tally(0, 0) else Add(BatchTally(bs[0], insert), TallyAll(bs[1..], insert))
  }

  /** When the insert never reports more rows than it was given, migrated
      and failed records together are at most the records; when every
      successful insert reports the whole batch, they are exactly the
      records. */
  lemma {:induction false} TallyAccounts<T>(bs: seq<seq<T>>, insert: seq<T> -> Option<nat>)
    requires forall b :: insert(b).Some? ==> insert(b).value <= |b|
    ensures TallyAll(bs, insert).migrated + TallyAll(bs, insert).errors <= |Flatten(bs)|
    ensures (forall b :: insert(b).Some? ==> insert(b).value == |b|) ==>
              TallyAll(bs, insert).migrated + TallyAll(bs, insert).errors == |Flatten(bs)|
    decreases |bs|
  {
    if |bs| > 0 {
      TallyAccounts(bs[1..], insert);
      FlattenPrepend(bs[0], bs[1..]);
      assert [bs[0]] + bs[1..] == bs;
    }
  }

  /** When every insert fails, every record is counted as an error. */
  lemma {:induction false} AllInsertsFail<T>(bs: seq<seq<T>>, insert: seq<T> -> Option<nat>)
    requires forall b :: insert(b).None?
    ensures TallyAll(bs, insert) == Tally(0, |Flatten(bs)|)
    decreases |bs|
  {
    if |bs| > 0 {
      AllInsertsFail(bs[1..], insert);
      FlattenPrepend(bs[0], bs[1..]);
      assert [bs[0]] + bs[1..] == bs;
    }
  }

  /** Batching the records from `i` on: the slice at `i`, then the batches
      from where it ends. */
  lemma BatchesFrom<T>(records: seq<T>, i: nat, size: nat, insert: seq<T> -> Option<nat>)
    requires size > 0 && i < |records|
    ensures TallyAll(Batches(records[i..], size), insert)
            == Add(BatchTally(records[i..Min(i + size, |records|)], insert),
                   TallyAll(Batches(records[Min(i + size, |records|)..], size), insert))
    ensures forall t: Tally ::
              Add(t, TallyAll(Batches(records[Min(i, |records|)..], size), insert))
              == Add(Add(t, BatchTally(records[i..Min(i + size, |records|)], insert)),
                     TallyAll(Batches(records[Min(i + size, |records|)..], size), insert))
  {
    var m := Min(size, |records| - i);
    assert records[i..][..m] == records[i..Min(i + size, |records|)];
    assert records[i..][m..] == records[Min(i + size, |records|)..];
    var bs := Batches(records[i..], size);
    assert bs[1..] == Batches(records[i..][m..], size);
  }

  /** Inserting one slice: a failed insert counts the whole slice as errors,
      a successful one counts the rows it reports. */
  method InsertBatch<T>(batch: seq<T>, insert: seq<T> -> Option<nat>) returns (counted: Tally)
    ensures insert(batch).None? ==> counted == Tally(0, |batch|)
    ensures insert(batch).Some? ==> counted == Tally(insert(batch).value, 0)
  {
    var reply := insert(batch);
    if reply.None? {
      counted := Tally(0, |batch|);
    } else {
      counted := Tally(reply.value, 0);
    }
  }

  /** The loop's running total `t`, added to the tally of the records from
      `i` on, gives the tally of all of them. */
  ghost predicate OnCourse<T>(records: seq<T>, size: nat, insert: seq<T> -> Option<nat>, i: nat, t: Tally)
    requires size > 0
  {
    Add(t, TallyAll(Batches(records[Min(i, |records|)..], size), insert)) == TallyAll(Batches(records, size), insert)
  }

  /** One pass of the insertion loop keeps the running total on course. */
  lemma StepKeepsTotal<T>(records: seq<T>, i: nat, size: nat, insert: seq<T> -> Option<nat>, before: Tally, after: Tally)
    requires size > 0 && i < |records|
    requires after == Add(before, BatchTally(records[i..Min(i + size, |records|)], insert))
    requires OnCourse(records, size, insert, i, before)
    ensures OnCourse(records, size, insert, i + size, after)
  {
    BatchesFrom(records, i, size, insert);
  }

  /** The insertion loop: it steps through the records `size` at a time,
      inserts each slice and keeps both counts. */
  method RunBatches<T>(records: seq<T>, size: nat, insert: seq<T> -> Option<nat>) returns (t: Tally)
    requires size > 0
    ensures t == TallyAll(Batches(records, size), insert)
  {
    t := Tally(0, 0);
    var i: nat := 0;
    assert records[Min(i, |records|)..] == records;
    AddZero(TallyAll(Batches(records, size), insert));
    while i < |records|
      invariant OnCourse(records, size, insert, i, t)
      decreases |records| - i
    {
      var batch := records[i..Min(i + size, |records|)];
      var counted := InsertBatch(batch, insert);
      ghost var before := t;
      t := Add(t, counted);
      StepKeepsTotal(records, i, size, insert, before, t);
      i := i + size;
    }
    assert records[Min(i, |records|)..] == [];
    AddZero(t);
  }

  /** With an insert that stores every batch whole, every record counts as
      migrated. */
  lemma {:induction false} ReliableTally<T>(rs: seq<T>, size: nat, insert: seq<T> -> Option<nat>)
    requires size > 0
    requires forall b :: insert(b) == Some(|b|)
    ensures TallyAll(Batches(rs, size), insert) == Tally(|rs|, 0)
    decreases |rs|
  {
    if |rs| > 0 {
      var m := Min(size, |rs|);
      ReliableTally(rs[m..], size, insert);
      var bs := Batches(rs, size);
      assert bs[0] == rs[..m];
      assert bs[1..] == Batches(rs[m..], size);
    }
  }

  /** How a run ends: aborted by a failed read (exit status 1), with
      nothing to do, or after the batches with both counts. */
  datatype Outcome =
    | Aborted(reason: string)
    | NoMaterials
    | AlreadyMigrated
    | Finished(migrated: nat, errors: nat)

  /** The whole run. `materials` is the course-materials table or the read
      error; `existing` is the material ids already in the extracted-texts
      table or the read error. */
  function Migrate(materials: Result<seq<MaterialRow>, string>, existing: Result<seq<string>, string>,
                   insert: seq<MigrationRecord> -> Option<nat>): (o: Outcome)
    ensures materials.Err? ==> o == Aborted(materials.error)
    ensures o.Finished? ==> && materials.Ok? && existing.Ok?
                            && var todo := ToMigrate(materials.value, existing.value);
                               && |todo| > 0
                               && o == Finished(TallyAll(Batches(Records(todo), BatchSize), insert).migrated,
                                                TallyAll(Batches(Records(todo), BatchSize), insert).errors)
    ensures o == NoMaterials <==> materials.Ok? && forall i :: 0 <= i < |materials.value| ==> !HasText(materials.value[i])
  {
    match materials
    case Err(e) => Aborted(e)
    case Ok(table) =>
      if |Filter(table, HasText)| == 0 then NoMaterials
      else MigrateSelected(table, existing, insert)
  }

  /** The run once some material has text: read the migrated ids, select,
      and insert in batches. */
  function MigrateSelected(table: seq<MaterialRow>, existing: Result<seq<string>, string>,
                           insert: seq<MigrationRecord> -> Option<nat>): (o: Outcome)
    ensures !o.NoMaterials?
    ensures o.Finished? ==> && existing.Ok?
                            && var todo := ToMigrate(table, existing.value);
                               && |todo| > 0
                               && o == Finished(TallyAll(Batches(Records(todo), BatchSize), insert).migrated,
                                                TallyAll(Batches(Records(todo), BatchSize), insert).errors)
  {
    match existing
    case Err(e) => Aborted(e)
    case Ok(ids) =>
      var todo := ToMigrate(table, ids);
      if |todo| == 0 then AlreadyMigrated
      else
        var t := TallyAll(Batches(Records(todo), BatchSize), insert);
        Finished(t.migrated, t.errors)
  }

  /** With an insert that stores every batch it is given, every selected
      material is migrated and nothing fails. */
  lemma ReliableInsertMigratesAll(table: seq<MaterialRow>, ids: seq<string>, insert: seq<MigrationRecord> -> Option<nat>)
    requires forall b :: insert(b) == Some(|b|)
    requires |ToMigrate(table, ids)| > 0
    ensures Migrate(Ok(table), Ok(ids), insert) == Finished(|ToMigrate(table, ids)|, 0)
  {
    ReliableTally(Records(ToMigrate(table, ids)), BatchSize, insert);
  }

  /** A reliable insert never adds to the error count. */
  lemma {:induction false} NoErrorsWhenReliable<T>(bs: seq<seq<T>>, insert: seq<T> -> Option<nat>)
    requires forall b :: insert(b).Some?
    ensures TallyAll(bs, insert).errors == 0
    decreases |bs|
  {
    if |bs| > 0 {
      NoErrorsWhenReliable(bs[1..], insert);
    }
  }

  /** Running again with the copied ids added to the existing ones finds
      nothing left to migrate. */
  lemma RerunMigratesNothing(table: seq<MaterialRow>, ids: seq<string>, insert: seq<MigrationRecord> -> Option<nat>)
    requires Migrate(Ok(table), Ok(ids), insert).Finished?
    ensures var rs := Records(ToMigrate(table, ids));
            Migrate(Ok(table), Ok(ids + seq(|rs|, i requires 0 <= i < |rs| => rs[i].materialId)), insert) == AlreadyMigrated
  {
    var todo := ToMigrate(table, ids);
    var rs := Records(todo);
    var copied := seq(|rs|, i requires 0 <= i < |rs| => rs[i].materialId);
    forall m | m in table && HasText(m)
      ensures m.id in ids + copied
    {
      if m.id !in ids {
        assert m in todo;
        var i :| 0 <= i < |todo| && todo[i] == m;
        assert copied[i] == m.id;
      }
    }
  }
}

=== FILE: QuizStorage.dfy ===
/** The checks the quiz store applies before writing: the fields and the
    question structure demanded by `createQuiz` and `updateQuiz`, the list
    query of `getUserQuizzes` with its ordering and page window, and the
    fields of `createQuizAttempt`. The database calls are left out: each
    operation returns the row it would write, or its error message. */
module QuizStorage {
  import opened Base
  import opened Strings
  import opened Json
  import opened AiGenerator

  const MissingQuizFields: string := "Missing required fields: userId, title, and questions are required"
  const QuestionsNotArray: string := "Questions must be a non-empty array"
  const BadStructure: string :=
    "Invalid question structure. Each question must have: question, options (array), correct (number), and explanation"

  /** The structure every stored question must have: a truthy `question`, an
      array `options`, a number `correct` and a truthy `explanation`. The
      number of options and the range of `correct` are not checked. */
  predicate HasStructure(q: Json)
  {
    && Truthy(Get(q, "question"))
    && Get(q, "options").Some? && Get(q, "options").value.JArray?
    && Get(q, "correct").Some? && Get(q, "correct").value.JNumber?
    && Truthy(Get(q, "explanation"))
  }

  /** Why a list of questions is refused: reading `question` of a `null`
      element throws; any other element without the structure fails the
      check. */
  datatype StructureProblem = NullElement | MissingStructure

  /** The loop over the questions from position `i`: the index of the first
      element without the structure, if any. */
  function FirstUnstructured(items: seq<Json>, i: nat): (r: Option<nat>)
    requires i <= |items|
    ensures r.None? <==> forall j :: i <= j < |items| ==> HasStructure(items[j])
    ensures r.Some? ==> && i <= r.value < |items| && !HasStructure(items[r.value])
                        && forall j :: i <= j < r.value ==> HasStructure(items[j])
    decreases |items| - i
  {
    if i == |items| then None
    else if !HasStructure(items[i]) then Some(i)
    else FirstUnstructured(items, i + 1)
  }

  /** What the loop reports: the first offending element decides. */
  function CheckQuestions(items: seq<Json>): (r: Option<StructureProblem>)
    ensures r.None? <==> forall i :: 0 <= i < |items| ==> HasStructure(items[i])
  {
    match FirstUnstructured(items, 0)
    case None => None
    case Some(k) => if items[k] == JNull then Some(NullElement) else Some(MissingStructure)
  }

  /** The error text for a refused list, in the words of the operation
      (`"create"` or `"update"`) whose catch reports a thrown error. */
  function ProblemMessage(p: StructureProblem, operation: string): string
  {
    match p
    case NullElement => "Failed to " + operation + " quiz: " + NullPropertyRead
    case MissingStructure => BadStructure
  }

  /** The row `createQuiz` inserts. */
  datatype QuizRow = QuizRow(userId: string, title: string, questions: seq<Json>, courseId: Option<string>)

  /** `createQuiz`, up to the insert. `title` and `questions` are as the
      caller passed them; an empty `userId` or `courseId` is falsy. */
  function CreateQuiz(userId: string, title: Option<Json>, questions: Option<Json>, courseId: Option<string>): (r: Result<QuizRow, string>)
    ensures r.Ok? <==>
              && userId != "" && Truthy(title) && title.value.JString?
              && questions.Some? && questions.value.JArray? && |questions.value.items| > 0
              && forall i :: 0 <= i < |questions.value.items| ==> HasStructure(questions.value.items[i])
    ensures userId == "" || !Truthy(title) || !Truthy(questions) ==> r == Err(MissingQuizFields)
    ensures r.Ok? ==> && r.value.userId == userId
                      && r.value.title == Trim(title.value.s) && IsTrimmed(r.value.title)
                      && r.value.questions == questions.value.items
    ensures r.Ok? ==> (r.value.courseId.Some? <==> courseId.Some? && courseId.value != "")
    ensures r.Ok? && r.value.courseId.Some? ==> r.value.courseId == courseId
  {
    if userId == "" || !Truthy(title) || !Truthy(questions) then Err(MissingQuizFields)
    else if !questions.value.JArray? || |questions.value.items| == 0 then Err(QuestionsNotArray)
    else
      match CheckQuestions(questions.value.items)
      case Some(p) => Err(ProblemMessage(p, "create"))
      case None =>
        if !title.value.JString? then Err("Failed to create quiz: title.trim is not a function")
        else
          Ok(QuizRow(userId, Trim(title.value.s), questions.value.items,
                     if courseId.Some? && courseId.value != "" then courseId else None))
  }

  /** The fields `updateQuiz` writes. */
  datatype QuizUpdate = QuizUpdate(title: Option<string>, questions: Option<seq<Json>>)

  /** `updateQuiz`, up to the update: only `title` (trimmed) and `questions`
      are taken from `updates`, and `questions` meets the same checks as on
      creation. */
  function UpdateQuiz(quizId: string, userId: string, updates: map<string, Json>): (r: Result<QuizUpdate, string>)
    ensures r.Ok? ==> r.value.title.Some? || r.value.questions.Some?
    ensures r.Ok? ==> (r.value.title.Some? <==> "title" in updates)
    ensures r.Ok? ==> (r.value.questions.Some? <==> "questions" in updates)
    ensures r.Ok? && r.value.title.Some? ==>
              updates["title"].JString? && r.value.title.value == Trim(updates["title"].s)
    ensures r.Ok? && r.value.questions.Some? ==>
              && updates["questions"].JArray? && r.value.questions.value == updates["questions"].items
              && |r.value.questions.value| > 0
              && forall i :: 0 <= i < |r.value.questions.value| ==> HasStructure(r.value.questions.value[i])
    ensures quizId != "" && userId != "" && "title" !in updates && "questions" !in updates ==>
              r == Err("No valid fields to update")
  {
    if quizId == "" || userId == "" then Err("Missing required fields: quizId and userId are required")
    else
      var title := TitleUpdate(updates);
      if title.Err? then Err(title.error)
      else
        var questions := QuestionsUpdate(updates);
        if questions.Err? then Err(questions.error)
        else if title.value.None? && questions.value.None? then Err("No valid fields to update")
        else Ok(QuizUpdate(title.value, questions.value))
  }

  /** The `title` field of an update: absent, the trimmed string, or the
      error that calling `trim` on a non-string throws. */
  function TitleUpdate(updates: map<string, Json>): (r: Result<Option<string>, string>)
    ensures r.Ok? ==> (r.value.Some? <==> "title" in updates)
    ensures r.Ok? && r.value.Some? ==> updates["title"].JString? && r.value.value == Trim(updates["title"].s)
    ensures "title" !in updates ==> r == Ok(None)
  {
    if "title" !in updates then Ok(None)
    else
      match updates["title"]
      case JString(s) => Ok(Some(Trim(s)))
      case JNull => Err("Failed to update quiz: Cannot read properties of null (reading 'trim')")
      case _ => Err("Failed to update quiz: updates.title.trim is not a function")
  }

  /** The `questions` field of an update: absent, or a non-empty array whose
      every element passes the structure check. */
  function QuestionsUpdate(updates: map<string, Json>): (r: Result<Option<seq<Json>>, string>)
    ensures r.Ok? ==> (r.value.Some? <==> "questions" in updates)
    ensures r.Ok? && r.value.Some? ==>
              && updates["questions"].JArray? && r.value.value == updates["questions"].items
              && |r.value.value| > 0
              && forall i :: 0 <= i < |r.value.value| ==> HasStructure(r.value.value[i])
    ensures "questions" !in updates ==> r == Ok(None)
  {
    if "questions" !in updates then Ok(None)
    else if !updates["questions"].JArray? || |updates["questions"].items| == 0 then Err(QuestionsNotArray)
    else
      match CheckQuestions(updates["questions"].items)
      case Some(p) => Err(ProblemMessage(p, "update"))
      case None => Ok(Some(updates["questions"].items))
  }

  /** Keys other than `title` and `questions` are ignored. */
  lemma UpdateIgnoresOtherKeys(quizId: string, userId: string, updates: map<string, Json>, key: string, v: Json)
    requires key != "title" && key != "questions"
    ensures UpdateQuiz(quizId, userId, updates[key := v]) == UpdateQuiz(quizId, userId, updates)
  {
    var u := updates[key := v];
    assert TitleUpdate(u) == TitleUpdate(updates) by {
      assert ("title" in u) == ("title" in updates);
      assert "title" in u ==> u["title"] == updates["title"];
    }
    assert QuestionsUpdate(u) == QuestionsUpdate(updates) by {
      assert ("questions" in u) == ("questions" in updates);
      assert "questions" in u ==> u["questions"] == updates["questions"];
    }
  }

  /** An update and a creation refuse the same question lists. */
  lemma UpdateChecksQuestionsAsCreate(quizId: string, userId: string, questions: Json, title: string)
    requires quizId != "" && userId != "" && title != ""
    ensures UpdateQuiz(quizId, userId, map["questions" := questions]).Ok?
            <==> CreateQuiz(userId, Some(JString(title)), Some(questions), None).Ok?
  {
    var u := map["questions" := questions];
    assert "title" !in u && "questions" in u;
  }

  // Listing

  /** The query options: `limit` and `offset` are 0 when absent (or NaN);
      `orderBy` and `orderDirection` are empty when absent. */
  datatype ListOptions = ListOptions(courseId: Option<Json>, orderBy: string, orderDirection: string, limit: int, offset: int)

  /** The query `getUserQuizzes` builds: an optional course filter, one
      ordering, an optional row limit and an optional inclusive range. */
  datatype ListQuery = ListQuery(courseFilter: Option<Json>, orderBy: string, ascending: bool,
                                 limit: Option<int>, range: Option<(int, int)>)

  function BuildListQuery(options: ListOptions): (q: ListQuery)
    ensures q.orderBy == (if options.orderBy == "" then "created_at" else options.orderBy)
    ensures q.ascending <==> options.orderDirection == "asc"
    ensures q.courseFilter.Some? <==> options.courseId.Some? && options.courseId.value != JNull
    ensures q.limit.Some? <==> options.limit != 0
    ensures q.range.Some? <==> options.offset != 0
    ensures q.range.Some? ==> q.range.value.0 == options.offset
    ensures q.range.Some? ==> q.range.value.1 - q.range.value.0 + 1 == (if options.limit != 0 then options.limit else 10)
  {
    var orderBy := if options.orderBy == "" then "created_at" else options.orderBy;
    var direction := if options.orderDirection == "" then "desc" else options.orderDirection;
    ListQuery(if options.courseId.Some? && options.courseId.value != JNull then options.courseId else None,
              orderBy, direction == "asc",
              if options.limit != 0 then Some(options.limit) else None,
              if options.offset != 0 then Some((options.offset, options.offset + (if options.limit != 0 then options.limit else 10) - 1))
              else None)
  }

  /** With no options at all the newest quizzes come first and every row is
      returned. */
  lemma DefaultListQuery()
    ensures BuildListQuery(ListOptions(None, "", "", 0, 0)) == ListQuery(None, "created_at", false, None, None)
  {
  }

  /** Consecutive pages of the same size tile the rows without gap or
      overlap. */
  lemma PagesTile(limit: int, offset: int)
    requires limit > 0 && offset > 0
    ensures var p := BuildListQuery(ListOptions(None, "", "", limit, offset)).range.value;
            var q := BuildListQuery(ListOptions(None, "", "", limit, offset + limit)).range.value;
            q.0 == p.1 + 1 && q.1 - q.0 == p.1 - p.0
  {
  }

  // Attempts

  /** The row `createQuizAttempt` inserts. */
  datatype AttemptRow = AttemptRow(userId: string, quizId: string, score: real, totalQuestions: real,
                                   percentage: real, answers: Json, results: Json, courseId: Option<string>)

  const MissingAttemptFields: string :=
    "Missing required fields: userId, quizId, score, totalQuestions, percentage, answers, and results are required"

  /** `createQuizAttempt`, up to the insert. `None` is `undefined`;
      `quizCourse` is the lookup of the quiz's course (its `course_id`, or
      the lookup's error message). */
  function CreateQuizAttempt(userId: string, quizId: string, score: Option<real>, totalQuestions: real,
                             percentage: Option<real>, answers: Option<Json>, results: Option<Json>,
                             quizCourse: Result<Option<string>, string>): (r: Result<AttemptRow, string>)
    ensures r.Ok? <==> && userId != "" && quizId != "" && score.Some? && totalQuestions != 0.0
                       && percentage.Some? && Truthy(answers) && Truthy(results) && quizCourse.Ok?
    ensures r.Ok? ==> r.value.score == score.value && r.value.totalQuestions == totalQuestions
                      && r.value.answers == answers.value && r.value.results == results.value
    ensures r.Ok? ==> (r.value.courseId.Some? <==> quizCourse.value.Some? && quizCourse.value.value != "")
    ensures r.Ok? && r.value.courseId.Some? ==> r.value.courseId == quizCourse.value
    ensures totalQuestions == 0.0 ==> r == Err(MissingAttemptFields)
  {
    if userId == "" || quizId == "" || score.None? || totalQuestions == 0.0 || percentage.None?
       || !Truthy(answers) || !Truthy(results) then Err(MissingAttemptFields)
    else
      match quizCourse
      case Err(message) => Err("Failed to fetch quiz: " + message)
      case Ok(course) =>
        Ok(AttemptRow(userId, quizId, score.value, totalQuestions, percentage.value, answers.value, results.value,
                      if course.Some? && course.value != "" then course else None))
  }

  // Generated questions in the store

  /** The JSON object a generated question is stored as. */
  function QuestionToJson(q: Question): (v: Json)
    ensures v.JObject?
  {
    JObject(map["question" := JString(q.question),
                "options" := JArray(seq(|q.options|, i requires 0 <= i < |q.options| => JString(q.options[i]))),
                "correct" := JNumber(q.correct),
                "explanation" := JString(q.explanation)])
  }

  /** A generated question has the stored structure exactly when its
      question and explanation are not empty. */
  lemma GeneratedQuestionStructure(q: Question)
    ensures HasStructure(QuestionToJson(q)) <==> q.question != "" && q.explanation != ""
  {
    var v := QuestionToJson(q);
    assert Get(v, "question") == Some(JString(q.question));
    assert Get(v, "explanation") == Some(JString(q.explanation));
    assert Get(v, "options").value.JArray?;
    assert Get(v, "correct") == Some(JNumber(q.correct));
  }

  /** The generator's element check accepts a question of white space only;
      trimming then leaves it empty, and the store refuses it. */
  lemma BlankGeneratedQuestionRefused()
    ensures var v := JObject(map["question" := JString(" "),
                                 "options" := JArray([JString("a"), JString("b"), JString("c"), JString("d")]),
                                 "correct" := JNumber(0.0),
                                 "explanation" := JString("e")]);
            IsValidQuestion(v) && !HasStructure(QuestionToJson(Normalize(v)))
  {
    var v := JObject(map["question" := JString(" "),
                         "options" := JArray([JString("a"), JString("b"), JString("c"), JString("d")]),
                         "correct" := JNumber(0.0),
                         "explanation" := JString("e")]);
    assert Get(v, "question") == Some(JString(" "));
    assert IsValidQuestion(v);
    assert AllWhitespace(" ");
    GeneratedQuestionStructure(Normalize(v));
  }
}

=== FILE: QuizTaking.dfy ===
/** The quiz-taking page as a state machine: loading a quiz, locking in one
    answer per question, moving between questions, the running score, the
    answers sent on submission, and the retake. Rendering and the
    auto-advance timer's delay are left out; its effect is a transition. */
module QuizTaking {
  import opened Base
  import opened Json
  import opened AiGenerator
  import SubmitRoute

  /** The page state for a loaded quiz. `selected[i]` is the answer chosen
      for question `i` (`None` is `null`); `answered` is the set of questions
      whose answer is locked in; `finished` is `showFinalResults`. */
  datatype Session = Session(questions: seq<Question>, index: nat, selected: seq<Option<int>>,
                             answered: set<nat>, finished: bool)

  /** One answer slot per question, the current index on a question (or 0
      for an empty quiz), and a question is answered exactly when it has a
      recorded answer. */
  predicate Valid(s: Session)
  {
    && |s.selected| == |s.questions|
    && (s.index < |s.questions| || s.index == 0)
    && (forall i: nat :: i in s.answered ==> i < |s.selected|)
    && (forall i: nat :: i < |s.selected| ==> (i in s.answered <==> s.selected[i].Some?))
  }

  /** `loadQuiz`: every question starts unanswered. */
  function Load(questions: seq<Question>): (s: Session)
    ensures Valid(s)
    ensures s.index == 0 && s.answered == {} && !s.finished
    ensures |s.selected| == |questions| && forall i :: 0 <= i < |s.selected| ==> s.selected[i].None?
  {
    Session(questions, 0, seq(|questions|, _ => None), {}, false)
  }

  /** `handleAnswerSelect`: the first answer to a question is recorded and
      locks it; later ones are ignored. */
  function SelectAnswer(s: Session, question: nat, answer: int): (t: Session)
    requires Valid(s) && question < |s.questions|
    ensures Valid(t)
    ensures question in s.answered ==> t == s
    ensures question !in s.answered ==>
              && t.selected == s.selected[question := Some(answer)]
              && t.answered == s.answered + {question}
              && t.questions == s.questions && t.index == s.index && t.finished == s.finished
  {
    if question in s.answered then s
    else s.(selected := s.selected[question := Some(answer)], answered := s.answered + {question})
  }

  /** The delayed step after an answer: on to the next question unless it
      was the last. */
  function AutoAdvance(s: Session, question: nat): (t: Session)
    requires Valid(s) && question < |s.questions|
    ensures Valid(t)
    ensures t.index == (if question + 1 < |s.questions| then question + 1 else s.index)
  {
    if question < |s.questions| - 1 then s.(index := question + 1) else s
  }

  /** `handleNext`. */
  function Next(s: Session): (t: Session)
    requires Valid(s)
    ensures Valid(t)
    ensures t.index == (if s.index + 1 < |s.questions| then s.index + 1 else s.index)
  {
    if s.index < |s.questions| - 1 then s.(index := s.index + 1) else s
  }

  /** `handlePrevious`. */
  function Previous(s: Session): (t: Session)
    requires Valid(s)
    ensures Valid(t)
    ensures t.index == (if s.index > 0 then s.index - 1 else 0)
  {
    if s.index > 0 then s.(index := s.index - 1) else s
  }

  /** `handleQuestionClick`, from the list of question buttons. */
  function Jump(s: Session, i: nat): (t: Session)
    requires Valid(s) && i < |s.questions|
    ensures Valid(t) && t.index == i
  {
    s.(index := i)
  }

  /** Moving between questions changes nothing but the index. */
  lemma NavigationKeepsAnswers(s: Session)
    requires Valid(s)
    ensures Next(s).(index := 0) == s.(index := 0) == Previous(s).(index := 0)
  {
  }

  /** Whether the answer recorded for a question equals its stored index
      (`selectedAnswers[index] === question.correct`). */
  predicate Hit(q: Question, a: Option<int>)
  {
    a.Some? && a.value as real == q.correct
  }

  predicate IsTrue(b: bool) { b }

  function Marks(s: Session): (m: seq<bool>)
    requires Valid(s)
    ensures |m| == |s.questions|
    ensures forall i :: 0 <= i < |m| ==> (m[i] <==> Hit(s.questions[i], s.selected[i]))
  {
    seq(|s.questions|, i requires 0 <= i < |s.questions| => Hit(s.questions[i], s.selected[i]))
  }

  datatype Tally = Tally(correct: nat, total: nat)

  /** `calculateScore` without the rounded percentage: zeros before any
      answer, then the matching answers over all questions. */
  function CalculateScore(s: Session): (r: Tally)
    requires Valid(s)
    ensures s.answered == {} ==> r == Tally(0, 0)
    ensures s.answered != {} ==> r.total == |s.questions| && r.correct <= r.total
    ensures s.answered != {} ==>
              (r.correct == r.total <==> forall i :: 0 <= i < |s.questions| ==> Hit(s.questions[i], s.selected[i]))
  {
    if s.answered == {} then Tally(0, 0)
    else Tally(Count(Marks(s), IsTrue), |s.questions|)
  }

  /** `allAnswered`. */
  predicate AllAnswered(s: Session)
  {
    |s.answered| == |s.questions|
  }

  /** The submit button shows only before the results and once every
      question is answered. */
  predicate CanSubmit(s: Session)
  {
    !s.finished && AllAnswered(s)
  }

  /** The `answers` array sent on submission: the recorded answers in
      question order, `null` where there is none. */
  function AnswersArray(s: Session): (a: seq<Json>)
    requires Valid(s)
    ensures |a| == |s.questions|
    ensures forall i :: 0 <= i < |a| ==>
              a[i] == (if s.selected[i].Some? then JNumber(s.selected[i].value as real) else JNull)
  {
    seq(|s.questions|, i requires 0 <= i < |s.questions| =>
          if s.selected[i].Some? then JNumber(s.selected[i].value as real) else JNull)
  }

  /** `handleQuizComplete`: the results show whether or not saving worked. */
  function Complete(s: Session): (t: Session)
    requires Valid(s)
    ensures Valid(t) && t.finished && t.(finished := s.finished) == s
  {
    s.(finished := true)
  }

  /** `handleRetakeQuiz`. */
  function Retake(s: Session): (t: Session)
    requires Valid(s)
    ensures t == Load(s.questions)
  {
    Session(s.questions, 0, seq(|s.questions|, _ => None), {}, false)
  }

  // Cardinality of the answered set

  function Below(n: nat): (r: set<nat>)
    ensures forall i: nat :: i in r <==> i < n
    ensures |r| == n
  {
    if n == 0 then {} else Below(n - 1) + {n - 1}
  }

  /** All questions are answered exactly when every one has an answer. */
  lemma AllAnsweredIffComplete(s: Session)
    requires Valid(s)
    ensures AllAnswered(s) <==> forall i :: 0 <= i < |s.questions| ==> s.selected[i].Some?
  {
    var n := |s.questions|;
    var all := Below(n);
    assert s.answered <= all;
    SubsetSize(s.answered, all);
    if forall i :: 0 <= i < n ==> s.selected[i].Some? {
      forall i: nat | i in all
        ensures i in s.answered
      {
        assert i < n && s.selected[i].Some?;
      }
      assert all <= s.answered;
      assert s.answered == all;
      assert |s.answered| == n;
    }
    if AllAnswered(s) {
      assert s.answered == all;
      forall i | 0 <= i < n
        ensures s.selected[i].Some?
      {
        assert (i as nat) in all;
      }
    }
  }

  /** What the page sends when the submit button is offered carries a number
      for every question. */
  lemma SubmittedAnswersComplete(s: Session)
    requires Valid(s) && CanSubmit(s)
    ensures forall i :: 0 <= i < |AnswersArray(s)| ==> AnswersArray(s)[i].JNumber?
  {
    AllAnsweredIffComplete(s);
  }

  /** The answers a question's radio buttons can give: option positions. */
  predicate OptionIndices(s: Session)
    requires Valid(s)
  {
    forall i :: 0 <= i < |s.questions| ==>
      s.selected[i].Some? && 0 <= s.selected[i].value < |s.questions[i].options|
  }

  /** A fully answered quiz of option indices passes the grading route's
      index check. */
  lemma OptionIndicesAccepted(s: Session)
    requires Valid(s) && OptionIndices(s)
    ensures SubmitRoute.GradeFrom(s.questions, AnswersArray(s), 0).Ok?
  {
    var answers := AnswersArray(s);
    forall j | 0 <= j < |s.questions|
      ensures !SubmitRoute.Rejected(answers[j], s.questions[j])
    {
      assert answers[j] == JNumber(s.selected[j].value as real);
    }
  }

  /** The grading route marks a question correct exactly when the page
      counts it as a hit, so both count the same. */
  lemma RouteMarksHits(s: Session, results: seq<SubmitRoute.GradedAnswer>)
    requires Valid(s) && OptionIndices(s)
    requires SubmitRoute.GradeFrom(s.questions, AnswersArray(s), 0) == Ok(results)
    ensures SubmitRoute.Score(results) == Count(Marks(s), IsTrue)
  {
    var answers := AnswersArray(s);
    forall i | 0 <= i < |results|
      ensures SubmitRoute.MarkedCorrect(results[i]) <==> IsTrue(Marks(s)[i])
    {
      assert results[i] == SubmitRoute.Entry(s.questions, answers, 0 + i);
      assert answers[i] == JNumber(s.selected[i].value as real);
    }
    CountSame(results, SubmitRoute.MarkedCorrect, Marks(s), IsTrue);
  }

  /** The page's own score agrees with the grading route: submitting a fully
      answered quiz of option indices passes the route's index check, and
      the route's score is the page's `correct`. */
  lemma PageScoreMatchesRoute(s: Session)
    requires Valid(s) && |s.questions| > 0 && OptionIndices(s)
    ensures SubmitRoute.GradeFrom(s.questions, AnswersArray(s), 0).Ok?
    ensures SubmitRoute.Score(SubmitRoute.GradeFrom(s.questions, AnswersArray(s), 0).value)
            == CalculateScore(s).correct
  {
    OptionIndicesAccepted(s);
    var results := SubmitRoute.GradeFrom(s.questions, AnswersArray(s), 0).value;
    RouteMarksHits(s, results);
    assert 0 in s.answered;
    assert CalculateScore(s).correct == Count(Marks(s), IsTrue);
  }
}

=== FILE: QuizzesPanel.dfy ===
/** The quiz list panel: the pipe-separated question lines a user types when
    creating a quiz, the request that creation sends, and the list updates
    after a creation or a deletion. */
module QuizzesPanel {
  import opened Base
  import opened Strings

  /** A question as the panel builds it. */
  datatype DraftQuestion = DraftQuestion(question: string, options: seq<string>, correct: int, explanation: string)

  /** The question sent when no line was usable. */
  const Placeholder: DraftQuestion :=
    DraftQuestion("Sample question - Edit to add your questions",
                  ["Option 1", "Option 2", "Option 3", "Option 4"], 0, "Sample explanation")

  const MinParts: nat := 7

  /** `parseInt(part.trim()) || 0`: NaN (and zero) give 0. */
  function CorrectOf(part: string): (c: int)
    ensures ParseInt(Trim(part)).Some? ==> c == ParseInt(Trim(part)).value
    ensures ParseInt(Trim(part)).None? ==> c == 0
  {
    match ParseInt(Trim(part))
    case None => 0
    case Some(v) => v
  }

  /** The parts of one line: `question|option|option|option|option|correct|explanation`,
      every part trimmed; fewer than seven parts give nothing and parts
      after the seventh are ignored. */
  function ParseParts(parts: seq<string>): (q: Option<DraftQuestion>)
    ensures q.Some? <==> |parts| >= MinParts
    ensures q.Some? ==>
              && q.value.question == Trim(parts[0])
              && q.value.options == [Trim(parts[1]), Trim(parts[2]), Trim(parts[3]), Trim(parts[4])]
              && q.value.correct == CorrectOf(parts[5])
              && q.value.explanation == Trim(parts[6])
  {
    if |parts| < MinParts then None
    else Some(DraftQuestion(Trim(parts[0]), [Trim(parts[1]), Trim(parts[2]), Trim(parts[3]), Trim(parts[4])],
                            CorrectOf(parts[5]), Trim(parts[6])))
  }

  /** A line is split on '|' and read part by part. */
  function ParseLine(line: string): Option<DraftQuestion>
  {
    ParseParts(SplitOn(line, '|'))
  }

  predicate Accepted(line: string)
  {
    ParseLine(line).Some?
  }

  /** The questions of the accepted lines, in line order. */
  function ParseLines(lines: seq<string>): (qs: seq<DraftQuestion>)
    ensures |qs| == Count(lines, Accepted)
  {
    if |lines| == 0 then []
    else
      var init := ParseLines(lines[..|lines| - 1]);
      match ParseLine(lines[|lines| - 1])
      case None => init
      case Some(q) => init + [q]
  }

  /** The lines of the trimmed question text; none when it is blank. */
  function Lines(text: string): seq<string>
  {
    if Trim(text) == "" then [] else SplitOn(Trim(text), '\n')
  }

  /** The questions `handleCreateQuiz` sends for the question text: the
      accepted lines, or the placeholder alone when no line is accepted. */
  function ParseQuestions(text: string): (qs: seq<DraftQuestion>)
    ensures |qs| >= 1
    ensures Count(Lines(text), Accepted) == 0 ==> qs == [Placeholder]
    ensures Count(Lines(text), Accepted) > 0 ==> qs == ParseLines(Lines(text))
  {
    var parsed := ParseLines(Lines(text));
    if parsed == [] then [Placeholder] else parsed
  }

  /** The line a well-formed question is written as. */
  function FormatLine(q: DraftQuestion): string
    requires |q.options| == 4
  {
    Join([q.question] + q.options + [IntToString(q.correct), q.explanation], "|")
  }

  /** Parts the line format can carry unchanged: no separator and no
      surrounding white space. */
  predicate Writable(s: string)
  {
    '|' !in s && IsTrimmed(s)
  }

  lemma IntToStringWritable(i: int)
    ensures Writable(IntToString(i))
  {
    var s := IntToString(i);
    if i < 0 {
      assert s == "-" + NatToString(-i);
      assert s[|s| - 1] == NatToString(-i)[|NatToString(-i)| - 1];
    }
    assert forall k :: 0 <= k < |s| ==> s[k] == '-' || IsDecimalDigit(s[k]);
  }

  /** Reading back a written line gives the question: the line format and
      the parser are inverse on questions whose parts are writable. */
  lemma ParseFormatLine(q: DraftQuestion)
    requires |q.options| == 4
    requires Writable(q.question) && Writable(q.explanation)
    requires forall i :: 0 <= i < 4 ==> Writable(q.options[i])
    ensures ParseLine(FormatLine(q)) == Some(q)
  {
    var c := IntToString(q.correct);
    var parts := [q.question] + q.options + [c, q.explanation];
    IntToStringWritable(q.correct);
    assert forall i :: 0 <= i < |parts| ==> Writable(parts[i]);
    SplitOnJoin(parts, '|');
    ReadWritableParts(q, parts);
  }

  lemma ReadWritableParts(q: DraftQuestion, parts: seq<string>)
    requires |q.options| == 4
    requires parts == [q.question] + q.options + [IntToString(q.correct), q.explanation]
    requires forall i :: 0 <= i < |parts| ==> Writable(parts[i])
    ensures ParseParts(parts) == Some(q)
  {
    forall i | 0 <= i < |parts| ensures Trim(parts[i]) == parts[i] {
      TrimOfTrimmed(parts[i]);
    }
    ParseIntIntToString(q.correct);
    assert parts[5] == IntToString(q.correct);
    assert q.options == [parts[1], parts[2], parts[3], parts[4]];
  }

  /** Parts after the seventh do not change the question. */
  lemma ExtraPartsIgnored(parts: seq<string>)
    requires |parts| >= MinParts
    requires forall i :: 0 <= i < |parts| ==> '|' !in parts[i]
    ensures ParseLine(Join(parts, "|")) == ParseLine(Join(parts[..MinParts], "|"))
  {
    SplitOnJoin(parts, '|');
    SplitOnJoin(parts[..MinParts], '|');
    assert ParseParts(parts) == ParseParts(parts[..MinParts]);
  }

  /** A non-number in the correct-answer position reads as 0, with no range
      check on any number. */
  lemma CorrectDefaultsToZero(part: string)
    requires ParseInt(Trim(part)).None?
    ensures CorrectOf(part) == 0
  {
  }

  // Creating and deleting

  const NoTitleMessage: string := "Please enter a quiz title"

  /** The body of the create request. */
  datatype CreateRequest = CreateRequest(title: string, questions: seq<DraftQuestion>)

  /** `handleCreateQuiz` up to the request: a blank title is refused before
      anything is sent. */
  function CreateQuiz(title: string, text: string): (r: Result<CreateRequest, string>)
    ensures r.Err? <==> AllWhitespace(title)
    ensures r.Err? ==> r.error == NoTitleMessage
    ensures r.Ok? ==> r.value.title == Trim(title) && r.value.title != "" && r.value.questions == ParseQuestions(text)
  {
    if Trim(title) == "" then Err(NoTitleMessage) else Ok(CreateRequest(Trim(title), ParseQuestions(text)))
  }

  /** A quiz in the panel's list. */
  datatype ListedQuiz = ListedQuiz(id: string, title: string)

  /** The created quiz goes to the front of the list. */
  function AddCreated(quizzes: seq<ListedQuiz>, created: ListedQuiz): (r: seq<ListedQuiz>)
    ensures |r| == |quizzes| + 1 && r[0] == created && r[1..] == quizzes
  {
    [created] + quizzes
  }

  /** The list after a deletion: every entry with that id goes, the others
      stay in order. */
  function RemoveDeleted(quizzes: seq<ListedQuiz>, id: string): (r: seq<ListedQuiz>)
    ensures forall q :: q in r <==> q in quizzes && q.id != id
    ensures |r| == |quizzes| - Count(quizzes, (q: ListedQuiz) => q.id == id)
  {
    var r := Filter(quizzes, (q: ListedQuiz) => q.id != id);
    CountComplement(quizzes, (q: ListedQuiz) => q.id != id, (q: ListedQuiz) => q.id == id);
    r
  }

  /** Elements pass a test or its negation, never both. */
  lemma {:induction false} CountComplement<T>(s: seq<T>, p: T -> bool, q: T -> bool)
    requires forall x :: p(x) <==> !q(x)
    ensures Count(s, p) + Count(s, q) == |s|
    decreases |s|
  {
    if |s| > 0 {
      CountComplement(s[..|s| - 1], p, q);
    }
  }

  /** Deleting right after creating gives the old list back when the new id
      was not already listed. */
  lemma DeleteUndoesCreate(quizzes: seq<ListedQuiz>, created: ListedQuiz)
    requires forall q :: q in quizzes ==> q.id != created.id
    ensures RemoveDeleted(AddCreated(quizzes, created), created.id) == quizzes
  {
    var keep := (q: ListedQuiz) => q.id != created.id;
    FilterDropsFirst(created, quizzes, keep);
    FilterKeepsAll(quizzes, keep);
  }
}

=== FILE: Strings.dfy ===
/** The JavaScript string primitives the quiz pipeline is built from: the
    white-space class shared by `\s` and `String.prototype.trim`, trimming,
    splitting on one character, joining, `parseInt` and decimal rendering.
    Strings are sequences of characters. */
module Strings {
  import opened Base

  /** The characters ECMA-262 classes as WhiteSpace or LineTerminator: the set
      matched by the regular-expression class `\s` and removed by `trim`. */
  predicate IsWhitespace(c: char)
  {
    || c == ' ' || c == '\t' || c == '\n' || c == '\U{000B}' || c == '\U{000C}' || c == '\r'
    || c == '\U{00A0}' || c == '\U{1680}' || ('\U{2000}' <= c <= '\U{200A}')
    || c == '\U{2028}' || c == '\U{2029}' || c == '\U{202F}' || c == '\U{205F}'
    || c == '\U{3000}' || c == '\U{FEFF}'
  }

  predicate AllWhitespace(s: string)
  {
    forall i :: 0 <= i < |s| ==> IsWhitespace(s[i])
  }

  /** Neither end of `s` is white space: what `trim` leaves behind. */
  predicate IsTrimmed(s: string)
  {
    |s| == 0 || (!IsWhitespace(s[0]) && !IsWhitespace(s[|s| - 1]))
  }

  /** Number of white-space characters at the start of `s`. */
  function TrimStartIndex(s: string): (a: nat)
    ensures a <= |s|
    ensures forall i :: 0 <= i < a ==> IsWhitespace(s[i])
    ensures a == |s| || !IsWhitespace(s[a])
  {
    if |s| > 0 && IsWhitespace(s[0]) then 1 + TrimStartIndex(s[1..]) else 0
  }

  /** End of `s` once the white space after position `lo` is dropped. */
  function TrimEndIndex(s: string, lo: nat): (b: nat)
    requires lo <= |s|
    ensures lo <= b <= |s|
    ensures forall i :: b <= i < |s| ==> IsWhitespace(s[i])
    ensures b == lo || !IsWhitespace(s[b - 1])
  {
    if |s| > lo && IsWhitespace(s[|s| - 1]) then TrimEndIndex(s[..|s| - 1], lo) else |s|
  }

  /** `String.prototype.trimStart`. */
  function TrimStart(s: string): (r: string)
    ensures |r| == 0 || !IsWhitespace(r[0])
  {
    s[TrimStartIndex(s)..]
  }

  /** `String.prototype.trim`: the longest infix of `s` with no white space at
      either end, obtained by dropping white space only. */
  function Trim(s: string): (r: string)
    ensures IsTrimmed(r)
    ensures |r| <= |s|
    ensures |r| == 0 <==> AllWhitespace(s)
  {
    var a := TrimStartIndex(s);
    s[a..TrimEndIndex(s, a)]
  }

  /** `Trim` drops a white-space prefix and a white-space suffix. */
  lemma TrimPadding(s: string) returns (lead: string, tail: string)
    ensures AllWhitespace(lead) && AllWhitespace(tail)
    ensures s == lead + Trim(s) + tail
  {
    var a := TrimStartIndex(s);
    var b := TrimEndIndex(s, a);
    lead, tail := s[..a], s[b..];
    assert s == lead + s[a..b] + tail;
    assert forall i :: 0 <= i < |lead| ==> lead[i] == s[i];
    assert forall i :: 0 <= i < |tail| ==> tail[i] == s[b + i];
  }

  lemma TrimOfTrimmed(s: string)
    requires IsTrimmed(s)
    ensures Trim(s) == s
  {
  }

  /** `trim` is idempotent. */
  lemma TrimIdempotent(s: string)
    ensures Trim(Trim(s)) == Trim(s)
  {
    TrimOfTrimmed(Trim(s));
  }

  /** A string followed by white space trims to something no longer than the
      string itself. */
  lemma TrimDropsTrailingWhitespace(s: string, w: string)
    requires AllWhitespace(w)
    ensures |Trim(s + w)| <= |s|
  {
    var u := s + w;
    var a := TrimStartIndex(u);
    var b := TrimEndIndex(u, a);
    if b > |s| {
      assert u[b - 1] == w[b - 1 - |s|];
    }
  }

  /** A trimmed, non-empty string followed by white space trims back to
      itself. */
  lemma TrimOfPadded(s: string, w: string)
    requires IsTrimmed(s) && s != "" && AllWhitespace(w)
    ensures Trim(s + w) == s
  {
    var u := s + w;
    assert u[0] == s[0] && u[|s| - 1] == s[|s| - 1];
    assert u[..|s|] == s;
  }

  /** The characters of `s` that are not white space, in order. */
  function Visible(s: string): string
  {
    if |s| == 0 then "" else (if IsWhitespace(s[0]) then "" else [s[0]]) + Visible(s[1..])
  }

  lemma {:induction false} VisibleAppend(a: string, b: string)
    ensures Visible(a + b) == Visible(a) + Visible(b)
    decreases |a|
  {
    if |a| == 0 {
      assert a + b == b;
    } else {
      assert (a + b)[0] == a[0];
      assert (a + b)[1..] == a[1..] + b;
      VisibleAppend(a[1..], b);
    }
  }

  lemma {:induction false} VisibleOfWhitespace(w: string)
    requires AllWhitespace(w)
    ensures Visible(w) == ""
    decreases |w|
  {
    if |w| > 0 {
      VisibleOfWhitespace(w[1..]);
    }
  }

  /** `trim` removes white space only. */
  lemma VisibleTrim(s: string)
    ensures Visible(Trim(s)) == Visible(s)
  {
    var lead, tail := TrimPadding(s);
    VisibleAppend(lead + Trim(s), tail);
    VisibleAppend(lead, Trim(s));
    VisibleOfWhitespace(lead);
    VisibleOfWhitespace(tail);
  }

  /** ASCII letters lowered; every other character unchanged. */
  function ToLowerAscii(s: string): (r: string)
    ensures |r| == |s|
    ensures forall i :: 0 <= i < |s| ==> r[i] == (if 'A' <= s[i] <= 'Z' then (s[i] - 'A' + 'a') as char else s[i])
  {
    if |s| == 0 then ""
    else [if 'A' <= s[0] <= 'Z' then (s[0] - 'A' + 'a') as char else s[0]] + ToLowerAscii(s[1..])
  }

  /** `parts.join(sep)`. */
  function Join(parts: seq<string>, sep: string): string
  {
    if |parts| == 0 then ""
    else if |parts| == 1 then parts[0]
    else parts[0] + sep + Join(parts[1..], sep)
  }

  lemma {:induction false} JoinAppend(parts: seq<string>, last: string, sep: string)
    requires |parts| > 0
    ensures Join(parts + [last], sep) == Join(parts, sep) + sep + last
    decreases |parts|
  {
    if |parts| == 1 {
      assert (parts + [last])[1..] == [last];
    } else {
      assert (parts + [last])[1..] == parts[1..] + [last];
      JoinAppend(parts[1..], last, sep);
    }
  }

  /** Index of the first occurrence of `c` in `s`. */
  function FirstIndexOf(s: string, c: char): (k: nat)
    requires c in s
    ensures k < |s| && s[k] == c
    ensures forall j :: 0 <= j < k ==> s[j] != c
  {
    if s[0] == c then 0 else 1 + FirstIndexOf(s[1..], c)
  }

  /** End of the white-space run starting at `i`. */
  function WhitespaceRunEnd(s: string, i: nat): (e: nat)
    requires i <= |s|
    ensures i <= e <= |s|
    ensures forall k :: i <= k < e ==> IsWhitespace(s[k])
    ensures e == |s| || !IsWhitespace(s[e])
    decreases |s| - i
  {
    if i < |s| && IsWhitespace(s[i]) then WhitespaceRunEnd(s, i + 1) else i
  }

  /** Position just after the last newline in `s[lo..hi]`, if there is one. */
  function AfterLastNewline(s: string, lo: nat, hi: nat): (r: Option<nat>)
    requires lo <= hi <= |s|
    ensures r.Some? ==> lo < r.value <= hi && s[r.value - 1] == '\n'
    ensures r.Some? ==> forall k :: r.value <= k < hi ==> s[k] != '\n'
    ensures r.None? ==> forall k :: lo <= k < hi ==> s[k] != '\n'
    decreases hi - lo
  {
    if hi == lo then None
    else if s[hi - 1] == '\n' then Some(hi)
    else AfterLastNewline(s, lo, hi - 1)
  }

  /** Index of the last occurrence of `c` in `s`, if any. */
  function LastIndexOf(s: string, c: char): (r: Option<nat>)
    ensures r.Some? ==> r.value < |s| && s[r.value] == c
    ensures r.Some? ==> forall j :: r.value < j < |s| ==> s[j] != c
    ensures r.None? <==> c !in s
  {
    if |s| == 0 then None
    else if s[|s| - 1] == c then Some(|s| - 1)
    else LastIndexOf(s[..|s| - 1], c)
  }

  /** The last occurrence is the one with none after it. */
  lemma LastIndexOfIs(s: string, c: char, k: nat)
    requires k < |s| && s[k] == c
    requires forall j :: k < j < |s| ==> s[j] != c
    ensures LastIndexOf(s, c) == Some(k)
  {
  }

  /** `t` occurs in `s` starting at position `i`. */
  predicate OccursAt(s: string, t: string, i: nat)
  {
    i + |t| <= |s| && s[i..i + |t|] == t
  }

  /** `s.indexOf(t, from)`: the first occurrence of `t` at or after `from`. */
  function IndexOfFrom(s: string, t: string, from: nat): (r: Option<nat>)
    requires from <= |s|
    ensures r.Some? ==> from <= r.value && OccursAt(s, t, r.value)
    ensures r.Some? ==> forall j :: from <= j < r.value ==> !OccursAt(s, t, j)
    ensures r.None? ==> forall j :: from <= j <= |s| ==> !OccursAt(s, t, j)
    decreases |s| - from
  {
    if OccursAt(s, t, from) then Some(from)
    else if from == |s| then None
    else IndexOfFrom(s, t, from + 1)
  }

  /** `s.split(c)` for a one-character separator: the pieces between the
      occurrences of `c`, always at least one. */
  function SplitOn(s: string, c: char): (parts: seq<string>)
    ensures |parts| >= 1
    ensures forall i :: 0 <= i < |parts| ==> c !in parts[i]
    decreases |s|
  {
    if c !in s then [s]
    else
      var k := FirstIndexOf(s, c);
      [s[..k]] + SplitOn(s[k + 1..], c)
  }

  /** Joining the pieces of a split with the separator gives back the input. */
  lemma {:induction false} JoinSplitOn(s: string, c: char)
    ensures Join(SplitOn(s, c), [c]) == s
    decreases |s|
  {
    if c in s {
      var k := FirstIndexOf(s, c);
      var rest := SplitOn(s[k + 1..], c);
      JoinSplitOn(s[k + 1..], c);
      assert SplitOn(s, c) == [s[..k]] + rest;
      assert ([s[..k]] + rest)[1..] == rest;
      assert s == s[..k] + [c] + s[k + 1..];
    }
  }

  /** Splitting a separator-free piece, the separator and the rest yields
      the piece followed by the split of the rest. */
  lemma SplitOnFirstPiece(first: string, c: char, rest: string)
    requires c !in first
    ensures SplitOn(first + [c] + rest, c) == [first] + SplitOn(rest, c)
  {
    var s := first + [c] + rest;
    assert s[|first|] == c;
    var k := FirstIndexOf(s, c);
    assert forall j :: 0 <= j < |first| ==> s[j] == first[j];
    assert k == |first|;
    assert s[..k] == first;
    assert s[k + 1..] == rest;
  }

  /** Splitting a join of separator-free pieces recovers the pieces. */
  lemma {:induction false} SplitOnJoin(parts: seq<string>, c: char)
    requires |parts| >= 1
    requires forall i :: 0 <= i < |parts| ==> c !in parts[i]
    ensures SplitOn(Join(parts, [c]), c) == parts
    decreases |parts|
  {
    if |parts| > 1 {
      SplitOnFirstPiece(parts[0], c, Join(parts[1..], [c]));
      SplitOnJoin(parts[1..], c);
      assert [parts[0]] + parts[1..] == parts;
    }
  }

  // Decimal rendering and JavaScript's parseInt

  predicate IsDecimalDigit(c: char) { '0' <= c <= '9' }

  predicate IsHexDigit(c: char)
  {
    IsDecimalDigit(c) || 'a' <= c <= 'f' || 'A' <= c <= 'F'
  }

  function DigitValue(c: char): nat
  {
    if IsDecimalDigit(c) then (c - '0') as nat
    else if 'a' <= c <= 'f' then (c - 'a') as nat + 10
    else if 'A' <= c <= 'F' then (c - 'A') as nat + 10
    else 0
  }

  /** Value of a digit string in the given radix, most significant digit first. */
  function DigitsValue(s: string, radix: nat): nat
  {
    if |s| == 0 then 0 else DigitsValue(s[..|s| - 1], radix) * radix + DigitValue(s[|s| - 1])
  }

  /** A digit of base 16, 8 or 2; any other radix reads decimal digits. */
  predicate IsRadixDigit(c: char, radix: nat)
  {
    if radix == 16 then IsHexDigit(c)
    else if radix == 8 then '0' <= c <= '7'
    else if radix == 2 then c == '0' || c == '1'
    else IsDecimalDigit(c)
  }

  /** Length of the longest prefix of `s` made of digits of `radix`. */
  function DigitPrefixLength(s: string, radix: nat): (n: nat)
    ensures n <= |s|
    ensures forall i :: 0 <= i < n ==> IsRadixDigit(s[i], radix)
    ensures n == |s| || !IsRadixDigit(s[n], radix)
  {
    if |s| > 0 && IsRadixDigit(s[0], radix) then 1 + DigitPrefixLength(s[1..], radix) else 0
  }

  /** The longest digit prefix of `s` read in `radix`; `None` when there is none. */
  function DigitRun(s: string, radix: nat): Option<nat>
  {
    var n := DigitPrefixLength(s, radix);
    if n == 0 then None else Some(DigitsValue(s[..n], radix))
  }

  predicate HasHexPrefix(u: string)
  {
    |u| >= 2 && u[0] == '0' && (u[1] == 'x' || u[1] == 'X')
  }

  /** Digits after the sign: a `0x`/`0X` prefix selects base 16. */
  function ParseMagnitude(u: string): Option<nat>
  {
    if HasHexPrefix(u) then DigitRun(u[2..], 16) else DigitRun(u, 10)
  }

  function Negate(m: Option<nat>): Option<int>
  {
    match m
    case None => None
    case Some(v) => Option<int>.Some(-(v as int))
  }

  /** `parseInt(s)` with no radix argument: leading white space skipped, an
      optional sign, a `0x`/`0X` prefix switching to base 16, then the longest
      digit prefix; `None` stands for NaN (no digit at all). A negative zero is
      the integer 0 here. */
  function ParseInt(s: string): Option<int>
  {
    var t := TrimStart(s);
    if |t| > 0 && t[0] == '-' then Negate(ParseMagnitude(t[1..]))
    else if |t| > 0 && t[0] == '+' then
      match ParseMagnitude(t[1..])
      case None => None
      case Some(v) => Some(v)
    else
      match ParseMagnitude(t)
      case None => None
      case Some(v) => Some(v)
  }

  function DigitChar(d: nat): (c: char)
    requires d < 10
    ensures IsDecimalDigit(c) && DigitValue(c) == d
  {
    ('0' as int + d) as char
  }

  /** Decimal rendering of a natural number, as a template literal prints it. */
  function NatToString(n: nat): (s: string)
    ensures |s| > 0
    ensures forall i :: 0 <= i < |s| ==> IsDecimalDigit(s[i])
    ensures s[0] == '0' ==> n == 0
  {
    if n < 10 then [DigitChar(n)] else NatToString(n / 10) + [DigitChar(n % 10)]
  }

  function IntToString(i: int): (s: string)
    ensures |s| > 0
  {
    if i < 0 then "-" + NatToString(-i) else NatToString(i)
  }

  lemma {:induction false} DigitsValueOfNatToString(n: nat)
    ensures DigitsValue(NatToString(n), 10) == n
  {
    if n >= 10 {
      var s := NatToString(n / 10) + [DigitChar(n % 10)];
      assert s[..|s| - 1] == NatToString(n / 10);
      DigitsValueOfNatToString(n / 10);
    }
  }

  lemma DigitRunOfDecimal(d: string)
    requires |d| > 0
    requires forall i :: 0 <= i < |d| ==> IsDecimalDigit(d[i])
    ensures DigitRun(d, 10) == Some(DigitsValue(d, 10))
  {
    var n := DigitPrefixLength(d, 10);
    assert n == |d|;
    assert d[..n] == d;
  }

  /** `parseInt` reads back what `NatToString` writes. */
  lemma ParseIntNatToString(n: nat)
    ensures ParseInt(NatToString(n)) == Some(n)
  {
    var s := NatToString(n);
    assert TrimStartIndex(s) == 0;
    assert s[0..] == s;
    assert !HasHexPrefix(s);
    DigitRunOfDecimal(s);
    DigitsValueOfNatToString(n);
  }

  /** `parseInt` reads back what `IntToString` writes, negative numbers included. */
  lemma ParseIntIntToString(i: int)
    ensures ParseInt(IntToString(i)) == Some(i)
  {
    if i < 0 {
      var d := NatToString(-i);
      var s := "-" + d;
      assert TrimStartIndex(s) == 0;
      assert s[0..] == s;
      assert s[1..] == d;
      assert !HasHexPrefix(d);
      DigitRunOfDecimal(d);
      DigitsValueOfNatToString(-i);
    } else {
      ParseIntNatToString(i);
    }
  }

  /** A comma ends every digit run. */
  lemma {:induction false} DigitPrefixStopsAtComma(x: string, rest: string, radix: nat)
    ensures DigitPrefixLength(x + "," + rest, radix) == DigitPrefixLength(x, radix)
    decreases |x|
  {
    var w := x + "," + rest;
    if |x| == 0 {
      assert w[0] == ',';
    } else {
      assert w[0] == x[0];
      assert w[1..] == x[1..] + "," + rest;
      DigitPrefixStopsAtComma(x[1..], rest, radix);
    }
  }

  lemma DigitRunStopsAtComma(x: string, rest: string, radix: nat)
    ensures DigitRun(x + "," + rest, radix) == DigitRun(x, radix)
  {
    DigitPrefixStopsAtComma(x, rest, radix);
    var n := DigitPrefixLength(x, radix);
    assert (x + "," + rest)[..n] == x[..n];
  }

  lemma MagnitudeStopsAtComma(v: string, rest: string)
    ensures ParseMagnitude(v + "," + rest) == ParseMagnitude(v)
  {
    var w := v + "," + rest;
    if HasHexPrefix(v) {
      assert w[2..] == v[2..] + "," + rest;
      DigitRunStopsAtComma(v[2..], rest, 16);
    } else {
      assert !HasHexPrefix(w) by {
        if |v| >= 2 { assert w[0] == v[0] && w[1] == v[1]; }
        else if |v| == 1 { assert w[1] == ','; }
        else { assert w[0] == ','; }
      }
      DigitRunStopsAtComma(v, rest, 10);
    }
  }

  /** `parseInt` stops reading at a comma: what follows one never matters.
      This is why an array, which `String` renders as its elements joined
      with commas, reads as its first element. */
  lemma ParseIntStopsAtComma(s: string, rest: string)
    ensures ParseInt(s + "," + rest) == ParseInt(s)
  {
    var w := s + "," + rest;
    var a := TrimStartIndex(s);
    var b := TrimStartIndex(w);
    if a == |s| {
      assert w[|s|] == ',';
      assert forall i :: 0 <= i < |s| ==> w[i] == s[i];
      assert b == |s|;
      var t := w[b..];
      assert t == "" + "," + rest;
      assert s[a..] == "";
      MagnitudeStopsAtComma("", rest);
    } else {
      assert w[a] == s[a];
      assert forall i :: 0 <= i < a ==> w[i] == s[i];
      assert b == a;
      var u := s[a..];
      assert w[b..] == u + "," + rest;
      if u[0] == '-' || u[0] == '+' {
        assert (u + "," + rest)[1..] == u[1..] + "," + rest;
        MagnitudeStopsAtComma(u[1..], rest);
      } else {
        MagnitudeStopsAtComma(u, rest);
      }
    }
  }
}

=== FILE: SubmitRoute.dfy ===
/** The submission route: the request checks, the quiz lookup, the length
    check, and the grading loop that validates each answer index, counts the
    correct answers and builds one result per question. The quiz store and
    the attempt store are parameters. */
module SubmitRoute {
  import opened Base
  import opened Strings
  import opened Json
  import opened AiGenerator
  import QuizStorage

  /** One entry of `results`. */
  datatype GradedAnswer = GradedAnswer(questionIndex: nat, selected: Json, correct: real, isCorrect: bool, explanation: string)

  /** `selected < 0 || selected >= options.length`, with JavaScript's numeric
      coercion: a value that coerces to NaN is never rejected. */
  predicate Rejected(selected: Json, q: Question)
  {
    var n := ToNumber(selected);
    n.Some? && (LessThan(n.value, 0.0) || AtLeast(n.value, |q.options| as real))
  }

  /** `selected === correct`: only the number equal to the stored index. */
  predicate Matches(selected: Json, q: Question)
  {
    StrictEquals(selected, JNumber(q.correct))
  }

  predicate MarkedCorrect(g: GradedAnswer) { g.isCorrect }

  /** The result entry for question `i`. */
  function Entry(questions: seq<Question>, answers: seq<Json>, i: nat): (g: GradedAnswer)
    requires i < |questions| && i < |answers|
    ensures g.questionIndex == i && g.selected == answers[i]
    ensures g.isCorrect <==> answers[i] == JNumber(questions[i].correct)
  {
    GradedAnswer(i, answers[i], questions[i].correct, Matches(answers[i], questions[i]), questions[i].explanation)
  }

  /** The grading loop from question `i` on: the entries in order, or the
      index of the first rejected answer. */
  function GradeFrom(questions: seq<Question>, answers: seq<Json>, i: nat): (r: Result<seq<GradedAnswer>, nat>)
    requires |answers| == |questions| && i <= |questions|
    ensures r.Ok? ==> |r.value| == |questions| - i
    ensures r.Ok? ==> forall j :: 0 <= j < |r.value| ==> r.value[j] == Entry(questions, answers, i + j)
    ensures r.Ok? <==> forall j :: i <= j < |questions| ==> !Rejected(answers[j], questions[j])
    ensures r.Err? ==> && i <= r.error < |questions|
                       && Rejected(answers[r.error], questions[r.error])
                       && forall j :: i <= j < r.error ==> !Rejected(answers[j], questions[j])
    decreases |questions| - i
  {
    if i == |questions| then Ok([])
    else if Rejected(answers[i], questions[i]) then Err(i)
    else
      match GradeFrom(questions, answers, i + 1)
      case Err(e) => Err(e)
      case Ok(rest) => Ok([Entry(questions, answers, i)] + rest)
  }

  /** The score of a list of results: how many are marked correct. */
  function Score(results: seq<GradedAnswer>): nat
  {
    Count(results, MarkedCorrect)
  }

  /** Every answer equal to its stored index scores full marks; none equal
      scores zero. */
  lemma ScoreExtremes(questions: seq<Question>, answers: seq<Json>)
    requires |answers| == |questions| && GradeFrom(questions, answers, 0).Ok?
    ensures var results := GradeFrom(questions, answers, 0).value;
            && Score(results) <= |questions|
            && (Score(results) == |questions| <==> forall i :: 0 <= i < |questions| ==> answers[i] == JNumber(questions[i].correct))
            && (Score(results) == 0 <==> forall i :: 0 <= i < |questions| ==> answers[i] != JNumber(questions[i].correct))
  {
    var results := GradeFrom(questions, answers, 0).value;
    MarkedIffMatches(questions, answers);
    ScoreOfMarked(results, questions, answers);
  }

  /** The score is full, or zero, exactly when every entry, or none, is
      marked correct. */
  lemma ScoreOfMarked(results: seq<GradedAnswer>, questions: seq<Question>, answers: seq<Json>)
    requires |results| == |questions| == |answers|
    requires forall i :: 0 <= i < |results| ==> (MarkedCorrect(results[i]) <==> answers[i] == JNumber(questions[i].correct))
    ensures Score(results) <= |questions|
    ensures Score(results) == |questions| <==> forall i :: 0 <= i < |questions| ==> answers[i] == JNumber(questions[i].correct)
    ensures Score(results) == 0 <==> forall i :: 0 <= i < |questions| ==> answers[i] != JNumber(questions[i].correct)
  {
    var c := Count(results, MarkedCorrect);
    assert (c == |results|) <==> forall i :: 0 <= i < |results| ==> MarkedCorrect(results[i]);
    assert (c == 0) <==> forall i :: 0 <= i < |results| ==> !MarkedCorrect(results[i]);
  }

  /** Each graded entry is marked correct exactly when its answer is the
      stored index. */
  lemma MarkedIffMatches(questions: seq<Question>, answers: seq<Json>)
    requires |answers| == |questions| && GradeFrom(questions, answers, 0).Ok?
    ensures var results := GradeFrom(questions, answers, 0).value;
            && |results| == |questions|
            && forall i :: 0 <= i < |results| ==> (MarkedCorrect(results[i]) <==> answers[i] == JNumber(questions[i].correct))
  {
    var results := GradeFrom(questions, answers, 0).value;
    forall i | 0 <= i < |results|
      ensures MarkedCorrect(results[i]) <==> answers[i] == JNumber(questions[i].correct)
    {
      assert results[i] == Entry(questions, answers, 0 + i);
    }
  }

  /** Grading the answers of one more question adds one entry and one point
      when that answer matches. */
  lemma {:induction false} ScoreOfAppend(results: seq<GradedAnswer>, g: GradedAnswer)
    ensures Score(results + [g]) == Score(results) + (if g.isCorrect then 1 else 0)
  {
    assert (results + [g])[..|results|] == results;
  }

  datatype Request = Request(quizId: Option<Json>, answers: Option<Json>)

  /** The JSON response: an error, a rejected answer, or the graded
      submission with the stored attempt's id when saving worked. */
  datatype Response =
    | Failure(status: nat, error: string, message: string)
    | InvalidAnswer(selected: Json, question: nat)
    | Graded(score: nat, total: nat, results: seq<GradedAnswer>, attempt: Option<string>)

  function MismatchMessage(answerCount: nat, questionCount: nat): string
  {
    "Number of answers (" + NatToString(answerCount) + ") does not match number of questions ("
    + NatToString(questionCount) + ")"
  }

  /** The POST handler. `lookup` fetches the quiz's questions (or the error
      message); `saveAttempt` stores the attempt and returns its id, or
      nothing when that fails. */
  function Handle(req: Request, lookup: Json -> Result<seq<Question>, string>,
                  saveAttempt: (nat, nat, seq<GradedAnswer>) -> Option<string>): (r: Response)
    ensures !Truthy(req.quizId) || !Truthy(req.answers) ==>
              r == Failure(400, "Validation error", "quizId and answers are required")
    ensures Truthy(req.quizId) && Truthy(req.answers) && !req.answers.value.JArray? ==>
              r == Failure(400, "Validation error", "answers must be an array")
    ensures r.Failure? && r.status == 404 ==> lookup(req.quizId.value) == Err("Quiz not found")
    ensures r.InvalidAnswer? ==>
              && req.answers.Some? && req.answers.value.JArray?
              && lookup(req.quizId.value).Ok?
              && var qs := lookup(req.quizId.value).value;
                 var answers := req.answers.value.items;
                 && |answers| == |qs|
                 && 1 <= r.question <= |qs| && r.selected == answers[r.question - 1]
                 && Rejected(answers[r.question - 1], qs[r.question - 1])
                 && forall j :: 0 <= j < r.question - 1 ==> !Rejected(answers[j], qs[j])
    ensures r.Graded? ==>
              && req.answers.Some? && req.answers.value.JArray?
              && lookup(req.quizId.value).Ok?
              && var qs := lookup(req.quizId.value).value;
                 var answers := req.answers.value.items;
                 && |answers| == |qs| == r.total == |r.results|
                 && r.score == Score(r.results) <= r.total
                 && (forall i :: 0 <= i < |qs| ==> !Rejected(answers[i], qs[i]))
                 && (forall i :: 0 <= i < |qs| ==> r.results[i] == Entry(qs, answers, i))
    ensures r.Graded? ==> r.attempt == saveAttempt(r.score, r.total, r.results)
    ensures Truthy(req.quizId) && Truthy(req.answers) && req.answers.value.JArray?
            && lookup(req.quizId.value).Err? ==>
              var e := lookup(req.quizId.value).error;
              r == (if e == "Quiz not found" then Failure(404, "Not found", e)
                    else if e != "" then Failure(400, "Failed to fetch quiz", e)
                    else Failure(500, "Internal server error", "Failed to calculate quiz score"))
    // A submission of the right length with every answer in range is graded.
    ensures Truthy(req.quizId) && Truthy(req.answers) && req.answers.value.JArray?
            && lookup(req.quizId.value).Ok? ==>
              var qs := lookup(req.quizId.value).value;
              var answers := req.answers.value.items;
              |answers| == |qs| && (forall i :: 0 <= i < |answers| ==> !Rejected(answers[i], qs[i])) ==> r.Graded?
  {
    if !Truthy(req.quizId) || !Truthy(req.answers) then
      Failure(400, "Validation error", "quizId and answers are required")
    else if !req.answers.value.JArray? then Failure(400, "Validation error", "answers must be an array")
    else
      var answers := req.answers.value.items;
      match lookup(req.quizId.value)
      case Err(e) =>
        if e == "Quiz not found" then Failure(404, "Not found", e)
        else if e != "" then Failure(400, "Failed to fetch quiz", e)
        // An empty error string reads as no error; the handler then reads
        // `questions` of a missing quiz and its catch answers.
        else Failure(500, "Internal server error", "Failed to calculate quiz score")
      case Ok(qs) =>
        if |answers| != |qs| then Failure(400, "Validation error", MismatchMessage(|answers|, |qs|))
        else
          match GradeFrom(qs, answers, 0)
          case Err(i) => InvalidAnswer(answers[i], i + 1)
          case Ok(results) =>
            var score := Score(results);
            Graded(score, |qs|, results, saveAttempt(score, |qs|, results))
  }

  /** Requests failing the field checks are answered before the quiz is
      fetched. */
  lemma ChecksBeforeFetch(req: Request, lookup1: Json -> Result<seq<Question>, string>,
                          lookup2: Json -> Result<seq<Question>, string>,
                          saveAttempt: (nat, nat, seq<GradedAnswer>) -> Option<string>)
    requires !Truthy(req.quizId) || !Truthy(req.answers) || !req.answers.value.JArray?
    ensures Handle(req, lookup1, saveAttempt) == Handle(req, lookup2, saveAttempt)
  {
  }

  /** A length mismatch is reported before any answer is looked at. */
  lemma LengthCheckedFirst(req: Request, lookup: Json -> Result<seq<Question>, string>,
                           saveAttempt: (nat, nat, seq<GradedAnswer>) -> Option<string>)
    requires Truthy(req.quizId) && Truthy(req.answers) && req.answers.value.JArray?
    requires lookup(req.quizId.value).Ok? && |req.answers.value.items| != |lookup(req.quizId.value).value|
    ensures Handle(req, lookup, saveAttempt).Failure?
    ensures Handle(req, lookup, saveAttempt).status == 400
  {
  }

  /** Whether saving the attempt works changes only the `attempt` field. */
  lemma SaveFailureKeepsGrades(req: Request, lookup: Json -> Result<seq<Question>, string>,
                               save1: (nat, nat, seq<GradedAnswer>) -> Option<string>,
                               save2: (nat, nat, seq<GradedAnswer>) -> Option<string>)
    requires Handle(req, lookup, save1).Graded?
    ensures Handle(req, lookup, save2).Graded?
    ensures Handle(req, lookup, save1).(attempt := None) == Handle(req, lookup, save2).(attempt := None)
  {
  }

  /** A string answer is never rejected by the index check when it does not
      read as a number, and never scores. */
  lemma NonNumericAnswerAccepted(q: Question, s: string)
    requires StringToNumber(s).None?
    ensures !Rejected(JString(s), q) && !Matches(JString(s), q)
  {
  }

  /** An answer that coerces to a finite number is rejected exactly when that
      number is negative or not below the option count. */
  lemma RejectedFinite(selected: Json, q: Question, x: real)
    requires ToNumber(selected) == Some(Finite(x))
    ensures Rejected(selected, q) <==> x < 0.0 || x >= |q.options| as real
  {
  }

  /** `"1e1"` is ten, beyond any of the four options. */
  lemma ExponentTenRejected(q: Question)
    requires |q.options| <= 10
    ensures Rejected(JString("1e1"), q)
  {
    ExponentNumeral();
    RejectedFinite(JString("1e1"), q, 10.0);
  }

  /** `"0b111"` is seven, beyond the options of any quiz with at most seven. */
  lemma BinaryAnswerRejected(q: Question)
    requires |q.options| <= 7
    ensures Rejected(JString("0b111"), q)
  {
    BinaryNumeral();
    RejectedFinite(JString("0b111"), q, 7.0);
  }

  /** `"Infinity"` and `"-Infinity"` are out of range whatever the options. */
  lemma InfinityAnswerRejected(q: Question, sign: string)
    requires sign in {"", "+", "-"}
    ensures Rejected(JString(sign + "Infinity"), q)
  {
    SignedInfinity(sign);
  }

  /** A one-element array is checked as its element is, unless that element
      is a boolean, whose text `"true"` or `"false"` is NaN; it never scores. */
  lemma SingletonArrayChecksElement(q: Question, x: Json)
    ensures Rejected(JArray([x]), q) <==> !x.JBool? && Rejected(x, q)
    ensures !Matches(JArray([x]), q)
  {
  }

  /** The empty array reads as 0 and so is rejected only by a question
      without options; an array of two or more elements is NaN and is never
      rejected. */
  lemma OtherArraysChecked(q: Question, items: seq<Json>)
    ensures |items| == 0 ==> (Rejected(JArray(items), q) <==> |q.options| == 0)
    ensures |items| >= 2 ==> !Rejected(JArray(items), q)
  {
  }

  /** `[d]` for an index `d` at or beyond the option count is rejected, as
      is `[-1]`. */
  lemma ArrayIndexRejected(q: Question, d: int)
    requires d < 0 || d >= |q.options|
    ensures Rejected(JArray([JNumber(d as real)]), q)
  {
    SingletonArrayChecksElement(q, JNumber(d as real));
    RejectedFinite(JNumber(d as real), q, d as real);
  }

  /** `["9"]` is nine, beyond the options of any quiz with at most nine. */
  lemma StringArrayRejected(q: Question)
    requires |q.options| <= 9
    ensures Rejected(JArray([JString("9")]), q)
  {
    StringToNumberOfNat(9);
    assert NatToString(9) == "9";
    SingletonArrayChecksElement(q, JString("9"));
    RejectedFinite(JString("9"), q, 9.0);
  }

  // The attempt the route stores

  /** One result entry as the JSON object the route sends to the store. */
  function EntryJson(g: GradedAnswer): Json
  {
    JObject(map["questionIndex" := JNumber(g.questionIndex as real), "selected" := g.selected,
                "correct" := JNumber(g.correct), "isCorrect" := JBool(g.isCorrect),
                "explanation" := JString(g.explanation)])
  }

  function ResultsJson(results: seq<GradedAnswer>): (v: Json)
    ensures v.JArray? && |v.items| == |results|
  {
    JArray(seq(|results|, i requires 0 <= i < |results| => EntryJson(results[i])))
  }

  /** `createQuizAttempt` called with what the route graded, for a signed-in
      user: the store takes the attempt with the route's score, total and
      answers exactly when the quiz has a question. A graded quiz without
      questions has a total of 0, which the store's field check refuses, so
      its attempt is never saved while the route still answers with the
      results. */
  lemma GradedAttemptStored(req: Request, lookup: Json -> Result<seq<Question>, string>,
                            saveAttempt: (nat, nat, seq<GradedAnswer>) -> Option<string>,
                            userId: string, quizId: string, percentage: real,
                            quizCourse: Result<Option<string>, string>)
    requires Handle(req, lookup, saveAttempt).Graded?
    requires req.quizId == Some(JString(quizId)) && userId != "" && quizCourse.Ok?
    ensures var r := Handle(req, lookup, saveAttempt);
            var a := QuizStorage.CreateQuizAttempt(userId, quizId, Some(r.score as real), r.total as real, Some(percentage),
                                                   req.answers, Some(ResultsJson(r.results)), quizCourse);
            && (a.Ok? <==> r.total > 0)
            && (a.Ok? ==> && a.value.score == r.score as real && a.value.totalQuestions == r.total as real
                          && a.value.answers == req.answers.value && |a.value.results.items| == |r.results|)
  {
  }
}
